=== FILE: README.md ===
# Bear Tracks, modelled in Dafny

Bear Tracks is a small self-hosted web analytics service. A beacon script
(`public/bear-tracks.js`) posts one event per page load and per pathname
change to `POST /api/track`. That endpoint mints or reuses a session id and
appends a page view to the event store (two tables, `sessions` and
`pageviews`). The dashboard then folds the stored rows into totals, active
windows, histograms, peak hours and days, a country breakdown, entry and
exit pages, most-recent-visit lists and a world-map colouring.

This project models that core as pure Dafny functions over immutable rows.
Timestamps are integer milliseconds. Every store query becomes an input
(`Fetch<T>`: the rows, or a failed query). The server clock, fresh UUIDs and
the success or failure of each store write are parameters. The rounding
that `Math.round` and `toFixed(1)` do is written out in integer arithmetic.

Modules, following the source's structure:

- `Rows`, `Store`, `Track` and `Beacon`: ingestion.
  - `Rows`: the record shapes.
  - `Store`: the three write helpers.
  - `Track`: device classification and the `POST` transition.
  - `Beacon`: the client state machine.
- `Metrics` and `Analytics`: the overview library functions.
- `SessionsPage`, `SessionDurations` and `SessionFlow`: the sessions page.
- `Timing`, `HourlyHeatmap` and `DailyTrends`: the timing page.
- `Geography` and `WorldMap`: the geography page.
- `ActivePages` and `Realtime`: the realtime page.
- `Feed`, `LiveVisitors` and `RecentVisitors`: the most-recent-visit lists.
- `ImageLoader`: the image URL builder.
- Shared helpers:
  - `Wrappers`: optional values and JavaScript truthiness.
  - `Text`: decimal rendering, lower-casing and substring search.
  - `Numbers`: rounding.
  - `Clock`: hours, days and weekdays.
  - `Seqs`: counting and summing.
  - `Sorting`: a stable descending sort, like `Array.prototype.sort`.
  - `Tally`: counting by key in first-seen order, like a JavaScript object.

`updateSessionLastSeen` overwrites `last_seen` with the clock. It does not
keep the larger of the old and new values, as the column name `last_seen`
might suggest. The model follows the code. `Store.LastSeenCanRegress` shows
`last_seen` moving back, and `Store.WritesStayChronological` shows that the
order `first_seen <= last_seen` holds only while the clock never runs
backwards.

## Model

| member | source | states |
|---|---|---|
| Rows.StoredRoundTrip | src/lib/supabase/types.ts:1-23 | A stored page view is exactly the caller's insert plus the store-assigned `id` and `created_at`, and the insert can be read back from the row. |
| Rows.ApplyPageViewUpdate | src/lib/supabase/types.ts:1-24 | An update never changes `id`. Each of the seven other columns (`session_id`, `page_url`, `referrer`, `user_agent`, `country`, `device_type`, `created_at`) takes the update's value when the update sets it, and keeps its value otherwise; a nullable column may be set to null. |
| Rows.ApplySessionUpdate | src/lib/supabase/types.ts:12-29 | An update never changes `id`. `first_seen` and `last_seen` each take the update's value when the update sets it, and keep their value otherwise. |
| Rows.UpdatesKeepIdentity | src/lib/supabase/types.ts:24-29 | No update of either table changes a row's id, and the empty update changes nothing. |
| Rows.UpdatesIdempotent | src/lib/supabase/types.ts:24-29 | An update of either table applied twice gives the same row as applied once, and an update setting every column to the row's own values leaves the row unchanged. |
| Store.CreateSession | src/lib/supabase/utils.ts:9-27 | Returns a row exactly when the insert neither fails nor collides with an existing id. The row carries only the given id plus store-set `first_seen = last_seen = now`. On failure the result is null and the store is unchanged. |
| Store.RecordPageView | src/lib/supabase/utils.ts:34-54 | On success, appends exactly one row: the caller's columns plus the next id and `created_at = now`. The sessions are untouched. On failure the result is null and the store is unchanged. |
| Store.UpdateSessionLastSeen | src/lib/supabase/utils.ts:61-80 | Null exactly when the write fails or no session has the id, and then nothing changes. Otherwise `last_seen` of the matching row becomes the clock, an overwrite and not a maximum. `first_seen`, the other rows and the page views are unchanged. |
| Store.WritesStayChronological | src/lib/supabase/utils.ts:9-80 | With one clock that never runs backwards, each of the three writes keeps every session's `first_seen <= last_seen <= now` and every page view no later than the clock. |
| Store.LastSeenCanRegress | src/lib/supabase/utils.ts:65 | A clock reading earlier than the stored `last_seen` moves it back, even below `first_seen`. |
| Track.GetDeviceType | src/app/api/track/route.ts:5-9 | "mobile" exactly when the agent contains "mobile" in any letter case. Otherwise "tablet" exactly when it contains "tablet". Otherwise "desktop". |
| Track.Post | src/app/api/track/route.ts:25-79 | Four cases. An unreadable body is a 500 and writes nothing. No token and a failed session create is a 500 with no page view. No token and a created session returns the fresh id, which owns the new session and the appended page view. A token is always echoed, its page view is appended under it even with no matching session, and only that session's `last_seen` is touched. |
| Track.TokenRoundTrip | src/app/api/track/route.ts:35-71 | The id a token-less call returns, sent as the next call's token, puts both page views under one session id. That session's `last_seen` then becomes the second call's clock. |
| Track.DanglingTokenStillRecorded | src/app/api/track/route.ts:58-71 | A token with no session still gets a page view whose `session_id` refers to no session, and no session is created. |
| Track.DeviceTypeNeedsAgent | src/app/api/track/route.ts:30-32 | The device type is null exactly when the `user-agent` header is missing or empty, never "desktop" then. The country is null exactly when `cf-ipcountry` is missing or empty. |
| Beacon.Load | public/bear-tracks.js:3-39 | With Do-Not-Track "1" the beacon is disabled and sends nothing. Otherwise it holds the stored token and sends exactly one request for the current pathname. |
| Beacon.OnMutation | public/bear-tracks.js:42-49 | A DOM mutation sends a request carrying the held token exactly when the pathname differs from the last one reported, and then records it. |
| Beacon.OnReply | public/bear-tracks.js:27-35 | The state changes exactly when no token is held and the reply carries a non-empty new `sessionId`. A thrown request changes nothing. |
| Beacon.DoNotTrackSendsNothing | public/bear-tracks.js:3 | With Do-Not-Track on, no run of events ever sends a request. |
| Beacon.TokenIsSticky | public/bear-tracks.js:29-32 | Once a token is held it is never replaced, and every later request carries it. |
| Beacon.OneRequestPerChange | public/bear-tracks.js:39-49 | The requests a run sends after load number exactly the navigations to a pathname other than the last one reported. |
| Beacon.BeaconKeepsOneSession | public/bear-tracks.js:12-49 | Beacon and endpoint together: a first visit adopts the minted id, and the next navigation's page view lands under the same session as the first. |
| Metrics.TotalVisits | src/lib/supabase/metrics.ts:3-14 | The number of page views, or 0 on error. |
| Metrics.ActiveSessions | src/lib/supabase/metrics.ts:16-31 | The number of sessions whose `last_seen` is strictly after now − 30 min, or 0 on error. |
| Metrics.PagesPerSession | src/lib/supabase/metrics.ts:33-58 | 0 on either error or with no sessions. Otherwise views ÷ sessions rounded half-up to tenths, counting every page view, dangling ones included. |
| Metrics.AverageDuration | src/lib/supabase/metrics.ts:60-86 | "0m" on error or with no sessions. "< 1m" exactly when the mean is under a minute, negative means included. Otherwise digits then "m", the digits reading back as the mean in minutes rounded to nearest. |
| Metrics.ActiveWindowSlides | src/lib/supabase/metrics.ts:16-23 | A later clock never counts more sessions as active. |
| Metrics.IngestCountsOneVisit | src/lib/supabase/metrics.ts:3-14 | One `POST` adds exactly one visit when its page-view insert happens, and none otherwise. |
| Metrics.IngestActivity | src/lib/supabase/metrics.ts:16-23 | One `POST` at clock `now` raises the active count at `now` by one exactly when it creates a session or revives an inactive one, and otherwise leaves it unchanged. |
| Metrics.TwoCallExample | src/lib/supabase/metrics.ts:52-57 | Two calls, the second carrying the minted token, give one session spanning both clocks, 2 visits and 2.0 pages per session. |
| Analytics.Zeros | src/lib/supabase/analytics.ts:25-31 | The zero-filled series holds each of `n` consecutive days once, with 0 visits. |
| Analytics.AddFacts | src/lib/supabase/analytics.ts:34-37 | Adding one row's day keeps the series ascending and adds one visit to exactly that day. |
| Analytics.FillFacts | src/lib/supabase/analytics.ts:25-42 | The fold is ascending with no repeated day. A day is present iff it is zero-filled or some counted row falls on it. Each day holds the rows on it, and the total is the number of counted rows. |
| Analytics.DailyVisits | src/lib/supabase/analytics.ts:8-43 | Empty on error. Otherwise every day from `days` days ago through today plus every day a counted row falls on, each once, ascending, with the count of rows since the start instant on that UTC day. The visits sum to the rows counted. |
| Analytics.StartDay | src/lib/supabase/analytics.ts:9-31 | A row at or after the start instant falls on a day no earlier than the first zero-filled day. |
| Analytics.NoRowsAllZero | src/lib/supabase/analytics.ts:25-42 | With no rows the output is exactly `days + 1` zero entries, ending today. |
| SessionsPage.SessionMetrics | src/app/dashboard/sessions/page.tsx:26-67 | As written. A failed query keeps the cards. Otherwise the session count, the mean duration rounded to minutes, the bounce rate to one decimal, and "15%". With no sessions the two quotients are NaN. |
| SessionsPage.AverageText | src/app/dashboard/sessions/page.tsx:42-60 | The text is a whole number of minutes then "m", the mean duration rounded to nearest, with no "< 1m" case. |
| SessionsPage.BounceText | src/app/dashboard/sessions/page.tsx:50-61 | The text is tenths of a percent, at most 100.0, then "%": bounced ÷ total × 100 rounded half-up to one decimal. |
| SessionsPage.NoSessionsShowsNaN | src/app/dashboard/sessions/page.tsx:47-53 | A successful load of no sessions shows "NaNm" and "NaN%". |
| SessionsPage.SessionMetricsGuarded | src/app/dashboard/sessions/page.tsx:39-63 | Corrected variant: with no sessions the cards show "0m" and "0%". Otherwise it equals the as-written page. |
| SessionsPage.AllSingleViewsBounce | src/app/dashboard/sessions/page.tsx:50-61 | If every session has exactly one page view, the bounce rate reads "100.0%". |
| SessionsPage.BounceAtMostAll | src/app/dashboard/sessions/page.tsx:50-53 | At most every session bounced, so the rate never exceeds 100.0%. |
| SessionsPage.AgreesWithOverview | src/app/dashboard/sessions/page.tsx:42-60 | From a mean of one minute up, this card and the overview's average duration show the same text. |
| SessionsPage.HalfMinuteDisagrees | src/app/dashboard/sessions/page.tsx:60 | A single 30-second session reads "1m" here and "< 1m" on the overview. |
| SessionDurations.RangeOf | src/components/dashboard/sessions/session-durations.tsx:41-47 | Each duration lands in exactly one of five ranges: < 1, [1,5), [5,15), [15,30), ≥ 30 minutes. |
| SessionDurations.DurationData | src/components/dashboard/sessions/session-durations.tsx:17-56 | A failed query keeps the bars. Otherwise five bars in the fixed label order, zeros included, each counting the sessions whose floored minutes fall in its range. |
| SessionDurations.BarsCountEverySession | src/components/dashboard/sessions/session-durations.tsx:41-47 | The bars add up to the number of sessions. |
| SessionDurations.RangeMonotone | src/components/dashboard/sessions/session-durations.tsx:41-47 | A longer session never lands in an earlier range. |
| SessionDurations.NegativeIsUnderOneMinute | src/components/dashboard/sessions/session-durations.tsx:29-42 | A session whose `last_seen` is before its `first_seen` counts under "< 1m". |
| SessionFlow.GroupFoldSpec | src/components/dashboard/sessions/session-flow.tsx:27-33 | The grouping `reduce` holds one group per distinct session id, in first-seen order. Each group holds that session's pages in row order. |
| SessionFlow.Stats | src/components/dashboard/sessions/session-flow.tsx:36-54 | One row per page. A page's entries are the sessions starting on it and its exits the sessions ending on it. Entries and exits each total the number of sessions. |
| SessionFlow.RowIffCounted | src/components/dashboard/sessions/session-flow.tsx:42-52 | A page has a row exactly when it starts or ends some session. |
| SessionFlow.FlowData | src/components/dashboard/sessions/session-flow.tsx:17-65 | A failed query keeps the rows. Otherwise min(pages, 10) rows, ranked by entries, each page once, a sub-multiset of the per-page rows. No page left out has more entries than a page shown. Pages with equal entries keep their per-page order, a leading part of each tie class shown. With 10 or fewer pages it is a permutation of them. |
| SessionFlow.Ranked | src/components/dashboard/sessions/session-flow.tsx:57-63 | The sort-and-slice on any per-page rows with distinct pages: the same facts as `FlowData`'s success case. |
| SessionFlow.EntriesEqualExits | src/components/dashboard/sessions/session-flow.tsx:38-54 | Before truncation, total entries = total exits = number of distinct session ids. |
| SessionFlow.RoundTripSession | src/components/dashboard/sessions/session-flow.tsx:41-52 | A session A, B, A gives A one entry and one exit, and gives B no row. |
| SessionFlow.SinglePageSession | src/components/dashboard/sessions/session-flow.tsx:41-52 | A one-page session is both the entry and the exit of its page. |
| Timing.SlotsFacts | src/app/dashboard/timing/page.tsx:36-52 | The enumerated keys are exactly the hours (or days) with a count, each once, in ascending order. |
| Timing.PeakBySort | src/app/dashboard/timing/page.tsx:52-57 | The first entry after the stable descending sort is the earliest index with the largest count. |
| Timing.PeakIsFirstMax | src/app/dashboard/timing/page.tsx:52-57 | The head of the stable descending sort of the set keys has the largest count, and no earlier key has it. |
| Timing.Compute | src/app/dashboard/timing/page.tsx:39-69 | The peak hour and the peak day are the earliest busiest ones. Each average is the visits ÷ the number of hours (or days) seen, rounded to nearest, with the divisor at least 1. |
| Timing.TimingMetricsOf | src/app/dashboard/timing/page.tsx:27-75 | As written. A failed query, or no page views (the `[0][0]` throws), keeps the metrics. Otherwise the peak hour is the earliest busiest hour, and the peak day is printed as the name of weekday `(d + 4) mod 7` for the earliest busiest weekday `d`. The averages per hour and per day are the page views over the number of non-empty hours and days, rounded half up. |
| Timing.FormatDay | src/app/dashboard/timing/page.tsx:87-91 | As written: the result is a weekday name. |
| Timing.FormatDayShifted | src/app/dashboard/timing/page.tsx:87-91 | As written, `formatDay(d)` names weekday `(d + 4) mod 7`, since 2024-01-01 was a Monday. So 0 (Sunday) prints "Thursday". |
| Timing.FormatDayCorrected | src/app/dashboard/timing/page.tsx:87-91 | Corrected: `getDay()` value `d` prints the name of weekday `d`. |
| Timing.TimingMetricsCorrected | src/app/dashboard/timing/page.tsx:27-75 | With the corrected `formatDay`, the peak-day card names the earliest busiest weekday; the peak hour and both averages are as in `TimingMetricsOf`. |
| Timing.EveryViewCountedOnce | src/app/dashboard/timing/page.tsx:39-49 | Each page view adds one to exactly one hour and one weekday, so both tallies sum to the visits. |
| Timing.TieGoesToEarlierHour | src/app/dashboard/timing/page.tsx:52-53 | Two equally busy hours report the earlier. |
| HourlyHeatmap.ZeroGrid | src/components/dashboard/timing/hourly-heatmap.tsx:27-32 | The grid has 24 hours of 7 cells each, all 0. |
| HourlyHeatmap.Increment | src/components/dashboard/timing/hourly-heatmap.tsx:39 | Exactly one cell goes up by one. |
| HourlyHeatmap.Fill | src/components/dashboard/timing/hourly-heatmap.tsx:27-40 | Cell (h, d) holds the number of page views in local hour h on weekday d. |
| HourlyHeatmap.HourlyData | src/components/dashboard/timing/hourly-heatmap.tsx:17-48 | A failed query keeps the data. Otherwise a full 24 × 7 grid of per-cell counts. |
| HourlyHeatmap.EveryViewInOneCell | src/components/dashboard/timing/hourly-heatmap.tsx:27-40 | The cells add up to the number of page views. |
| HourlyHeatmap.MaxValue | src/components/dashboard/timing/hourly-heatmap.tsx:58-60 | The largest value is at least every cell and equal to some cell. It is absent (`-Infinity`) only when there are no cells. |
| HourlyHeatmap.LoadedHasMax | src/components/dashboard/timing/hourly-heatmap.tsx:58-60 | After a load the grid has a maximum that bounds every cell and is attained. |
| HourlyHeatmap.NoViewsMaxZero | src/components/dashboard/timing/hourly-heatmap.tsx:27-60 | With no page views the maximum is 0. |
| HourlyHeatmap.EmptyDataHasNoMax | src/components/dashboard/timing/hourly-heatmap.tsx:58-60 | Before any load the data is empty and the maximum is `-Infinity`. |
| HourlyHeatmap.ViewLandsInItsCell | src/components/dashboard/timing/hourly-heatmap.tsx:36-39 | A page view counts in cell (h, d) exactly when h is its local hour and d its weekday. |
| DailyTrends.Counts | src/components/dashboard/timing/daily-trends.tsx:26-41 | Seven counters; counter d holds the page views on local weekday d. |
| DailyTrends.DailyData | src/components/dashboard/timing/daily-trends.tsx:17-50 | A failed query keeps the rows. Otherwise exactly 7 rows, Sunday through Saturday, each with its weekday's count. |
| DailyTrends.VisitsAddUp | src/components/dashboard/timing/daily-trends.tsx:26-47 | The seven rows add up to the number of page views. |
| DailyTrends.SameAsTimingDays | src/components/dashboard/timing/daily-trends.tsx:36-41 | The weekday counters equal the timing page's per-day tally. |
| DailyTrends.PeakDayIsBusiestRow | src/app/dashboard/timing/page.tsx:56-66 | With the corrected `formatDay`, the peak-day card names the earliest trend row with the most visits. |
| DailyTrends.AsWrittenPeakDayDisagrees | src/app/dashboard/timing/page.tsx:87-91 | As written, one Sunday visit tops the "Sunday" trend row while the peak-day card reads "Thursday". |
| Geography.CountryKey | src/app/dashboard/geography/page.tsx:30 | A null or empty country counts as "Unknown"; any other country as itself. |
| Geography.CountryBreakdown | src/app/dashboard/geography/page.tsx:20-53 | A failed query keeps the rows. Otherwise the rows are ranked by visits. Each country appears once, and exactly the countries counted appear. Visits are the occurrences of the country, all positive. The percentage is visits ÷ total × 100. |
| Geography.VisitsAddUp | src/app/dashboard/geography/page.tsx:29-36 | The visits add up to the number of page views. |
| Geography.PercentagesAddUp | src/app/dashboard/geography/page.tsx:36-44 | With at least one page view the percentages add up to exactly 100. |
| Geography.NoViewsNoCountries | src/app/dashboard/geography/page.tsx:36-45 | No page views give no rows, and no division happens. |
| Geography.TiesKeepFirstSeenOrder | src/app/dashboard/geography/page.tsx:39-45 | Countries with equal visits keep their first-seen order (stable sort). |
| Geography.TotalCountriesIsDistinctCountries | src/app/dashboard/geography/page.tsx:75 | The "Total Countries" card is the number of distinct country keys. |
| Geography.TopCountryIsBusiest | src/app/dashboard/geography/page.tsx:85 | With page views the "Top Country" card names a country with the most visits. With none it reads "N/A". |
| WorldMap.GetColor | src/components/dashboard/geography/world-map.tsx:130-140 | The no-visit colour for absent or 0 visits. Otherwise six bands with strict thresholds 10, 50, 100, 500 and 1000. |
| WorldMap.ColorMonotone | src/components/dashboard/geography/world-map.tsx:130-140 | More visits never give a lighter band, and any visit is darker than none. |
| WorldMap.CountryVisitsFacts | src/components/dashboard/geography/world-map.tsx:101-106 | The keys are exactly the rows' countries. A key holds the visits of the last row naming it, so later duplicates overwrite. |
| WorldMap.DistinctRowsAllFound | src/components/dashboard/geography/world-map.tsx:101-106 | With one row per country, every row's visits are found under its country. |
| WorldMap.TopIndex | src/components/dashboard/geography/world-map.tsx:111-113 | The reduce with strict `>` picks the first row with the most visits. |
| WorldMap.FocusTop | src/components/dashboard/geography/world-map.tsx:109-123 | If the top country's coordinates are known, move there at zoom 4. Otherwise, or with no rows, keep the position. |
| WorldMap.ResetView | src/components/dashboard/geography/world-map.tsx:88-127 | Back to centre (0, 0) at zoom 1. |
| WorldMap.HoverVisits | src/components/dashboard/geography/world-map.tsx:224-227 | The tooltip count is the country's visits, or 0 when it has no entry. |
| WorldMap.NoVisitColorIffZero | src/components/dashboard/geography/world-map.tsx:197-227 | A country is drawn in the no-visit colour exactly when its tooltip shows 0. |
| WorldMap.FocusesTopCountryCard | src/components/dashboard/geography/world-map.tsx:109-123 | On the geography page, the map focuses the country the "Top Country" card names. |
| ActivePages.PageCountsFacts | src/components/dashboard/realtime/active-pages.tsx:29-32 | One row per distinct page URL in the window, in first-seen order, carrying its count; the counts sum to the window's page views. |
| Sorting.TopSelection | src/components/dashboard/realtime/active-pages.tsx:35-38 | `.sort(by key, descending).slice(0, n)` returns min(length, n) elements drawn from the input (as a multiset). None left out ranks above one kept. Each class of equal keys is cut to a leading part, in input order. |
| ActivePages.ActivePagesOf | src/components/dashboard/realtime/active-pages.tsx:15-41 | A failed query keeps the list. Otherwise min(distinct pages in the window, 10) pages, ranked by visitors, each once, with counts that are the page's views in the window. No unlisted page of the window has more views than a listed one. Pages with equal counts keep first-seen order, a leading part of each tie class listed. With 10 or fewer pages, all are listed. |
| ActivePages.RankedLeftOut | src/components/dashboard/realtime/active-pages.tsx:35-38 | A page of the window left off the list has no more views than any listed page. |
| ActivePages.ListedAtMostWindow | src/components/dashboard/realtime/active-pages.tsx:28-38 | The listed counts sum to at most the window's page views, with equality when there are 10 or fewer pages. |
| ActivePages.PageLabel | src/components/dashboard/realtime/active-pages.tsx:56 | An empty URL shows as "/". |
| ActivePages.VisitorLabelRoundTrip | src/components/dashboard/realtime/active-pages.tsx:59 | The label starts with digits that read back as the count, followed by a space. |
| Realtime.FetchRealtimeMetrics | src/app/dashboard/realtime/page.tsx:18-39 | Active visitors are the sessions seen strictly after now − 30 min. Pages last minute are the page views strictly after now − 60 s. A failed count shows 0. The average page time is always "45s". |
| Realtime.AgreesWithOverview | src/app/dashboard/realtime/page.tsx:20-27 | The active-visitors card equals the overview's active-session count. |
| Realtime.LastMinuteWithinActiveWindow | src/app/dashboard/realtime/page.tsx:21-33 | The last-minute count never exceeds the page views in the active-pages window. |
| Feed.Prepend | src/components/dashboard/realtime/live-visitors.tsx:20-23 | The new row comes first, followed by the existing rows in order, cut so the list holds at most the cap. |
| Feed.PrependDropsOnlyOldest | src/components/dashboard/realtime/live-visitors.tsx:22 | Below the cap nothing is dropped. At the cap exactly the oldest row is dropped. |
| Feed.PrependKeepsNewestFirst | src/components/dashboard/realtime/live-visitors.tsx:20-23 | A row no older than the head keeps the list newest first. |
| Feed.Latest | src/components/dashboard/realtime/live-visitors.tsx:30-34 | The query returns min(rows, cap) rows, newest first, a sub-multiset of the table (no row twice), with no omitted row newer than a listed one. |
| Feed.AgeSeconds | src/components/dashboard/realtime/live-visitors.tsx:52 | The whole seconds elapsed, floored, also for a future timestamp. |
| LiveVisitors.OnInsert | src/components/dashboard/realtime/live-visitors.tsx:20-23 | The new row comes first and at most 20 rows are kept. When full, exactly the oldest is dropped. |
| LiveVisitors.InitialLoad | src/components/dashboard/realtime/live-visitors.tsx:29-41 | An error leaves the list unchanged. Otherwise the 20 newest rows (or all rows), newest first, each row of the table at most as often as it is there. |
| LiveVisitors.FormatTimeAgo | src/components/dashboard/realtime/live-visitors.tsx:51-56 | "just now" under 60 s. Under an hour the whole minutes (1-59) then "m ago". Otherwise the whole hours then "h ago", with no day unit. |
| LiveVisitors.InsertsKeepNewestFirst | src/components/dashboard/realtime/live-visitors.tsx:20-23 | Inserts arriving in time order keep the list newest first and at most 20 long. |
| Feed.CountryLabel | src/components/dashboard/realtime/live-visitors.tsx:67 | A null or empty country shows as "Unknown". |
| LiveVisitors.DeviceLabel | src/components/dashboard/realtime/live-visitors.tsx:67 | A null or empty device type shows as "Unknown". |
| RecentVisitors.OnInsert | src/components/dashboard/recent-visitors.tsx:84-88 | The new row comes first and at most 10 rows are kept. When full, exactly the oldest is dropped. |
| RecentVisitors.InitialLoad | src/components/dashboard/recent-visitors.tsx:55-70 | A thrown error leaves the list unchanged. Otherwise the 10 newest rows (or all rows), newest first, each row of the table at most as often as it is there. |
| RecentVisitors.GetDeviceIcon | src/components/dashboard/recent-visitors.tsx:8-17 | Smartphone exactly for "mobile" in any letter case. Tablet exactly for "tablet". Everything else, null included, gets the monitor. |
| RecentVisitors.IconMatchesCollectorClass | src/components/dashboard/recent-visitors.tsx:8-17 | The device classes the endpoint stores map to the smartphone, tablet and monitor icons. |
| RecentVisitors.FormatTimeAgo | src/components/dashboard/recent-visitors.tsx:19-36 | "just now" under 60 s, future times included. Then whole minutes, whole hours under a day, and whole days. |
| RecentVisitors.AgreesWithLiveListForADay | src/components/dashboard/recent-visitors.tsx:29-35 | Under a day both lists show the same label. At exactly one day this one reads "1d ago" and the live list "24h ago". |
| RecentVisitors.Clean | src/components/dashboard/recent-visitors.tsx:40 | The result neither starts nor ends with "/". |
| RecentVisitors.CleanIsInterior | src/components/dashboard/recent-visitors.tsx:40 | The cleaned path is the slice between a leading and a trailing run of slashes, with interior slashes kept. |
| RecentVisitors.FormatPath | src/components/dashboard/recent-visitors.tsx:38-48 | The result is non-empty and at most 30 long. It is "/" exactly when nothing is left after stripping. A cleaned path of at most 30 is shown whole; a longer one as its first 27 characters plus "...". |
| RecentVisitors.FormatPathIdempotent | src/components/dashboard/recent-visitors.tsx:38-48 | Formatting a formatted path changes nothing. |
| RecentVisitors.DeviceLabel | src/components/dashboard/recent-visitors.tsx:119 | A null or empty device type shows as "Unknown device". |
| RecentVisitors.ReferrerLabel | src/components/dashboard/recent-visitors.tsx:122-127 | The "from …" note appears exactly when the referrer is non-empty. |
| ImageLoader.Quality | src/lib/image-loader.ts:20 | A missing or zero quality means 75; any other value is used as given. |
| ImageLoader.TargetUrl | src/lib/image-loader.ts:25-27 | A source starting with "/" is prefixed by the site URL, or by nothing when unset. Any other source is used as-is. |
| ImageLoader.NetlifyImageLoader | src/lib/image-loader.ts:7-31 | Outside production the source is returned unchanged. In production the address starts with the image endpoint and `w=`, and ends with `&url=` and the encoded target. |
| ImageLoader.ServiceReadsBackRequest | src/lib/image-loader.ts:18-30 | In production, reading the address back gives exactly the width, the effective quality, `fit=cover` and the encoded target, in that order. |
| ImageLoader.DefaultQualityIsSeventyFive | src/lib/image-loader.ts:20 | No quality, quality 0 and quality 75 produce the same address. |

## Left out

- CORS headers, the `OPTIONS` handler and the response envelope of the endpoint: transport only.
- The Supabase client, realtime subscriptions, `setInterval` polling and React state. Every query is an input (`Fetch<T>`). Every component whose error path keeps its state takes the previous value as a parameter.
- Concurrency. The model is sequential, so it leaves out:
  - parallel beacons minting several sessions;
  - concurrent `last_seen` overwrites;
  - an insert reaching the live list before its initial load replaces it.
- Fresh ids: `crypto.randomUUID` is a parameter (`Env.freshId`).
- The request body is typed as the beacon sends it (`Track.Body`): a string-or-absent `sessionId`, a string `pageUrl` and a string-or-absent `referrer`. Other JSON bodies that the handler destructures without complaint, such as a numeric `sessionId` or a missing `pageUrl`, are not modelled.
- `fetch`, `localStorage`, `MutationObserver` and `document.currentScript` in the beacon. Only the state transitions are kept.
- Time zones: a fixed offset `tz` replaces the browser's local zone. Daylight saving time and locale formatting are not modelled.
- `formatHour`: its ICU 12-hour rendering is not modelled. The peak hour is kept as the hour number.
- ISO date strings: dates are day numbers since the epoch. Ascending day numbers order like ascending `YYYY-MM-DD` keys.
- Floating point. Rounding is exact integer half-up. Percentages are exact rationals (`real`).
- Metrics.PagesPerSession: rounds the exact quotient half-up to tenths, while `Number((views / sessions).toFixed(1))` rounds the nearest double. At a decimal midpoint that is not a double, the source can print one tenth less: 3 page views over 20 sessions give 0.2 here, but `3 / 20` is the double just below 0.15, which prints as 0.1.
- SessionsPage.BounceText: the same exact half-up rounding of the bounce percentage to tenths. `toFixed(1)` on the nearest double can print one tenth less at a decimal midpoint that is not a double.
- The heatmap's CSS intensity colour and the tooltips: rendering only.
- `encodeURIComponent`: a parameter. `URLSearchParams` serialisation is written out for the only values it sees here: decimal digits and `cover`, which it leaves as they are.
- The map's coordinate table contents and its projection: the table is a parameter map.
- JavaScript object keys such as `__proto__` are not modelled.
  - Page URLs, countries and session ids are assumed never integer-like (such as "42"). Integer-like keys would enumerate ahead of the others.
  - The timing page's hour and day keys are always integer-like; the model enumerates them ascending.
- String lengths are counted in characters, not UTF-16 code units, in `formatPath`. Lower-casing is ASCII only, which is exact for comparing with "mobile" and "tablet".
- Store.WritesStayChronological: the database's clock (the column defaults behind `first_seen`, `last_seen` and `created_at` on insert) and the server's `new Date()` written by `updateSessionLastSeen` are one clock `now` here. The lemma does not cover skew between the two, under which `last_seen` can fall below a store-assigned `first_seen`.
- Track.TokenRoundTrip: the same single clock; the stored `first_seen` and `created_at` are the server's clock reading, not the database's.
- The `created_at` ordering of the session-flow query: `SessionFlow.FlowData` takes the rows in the order given, which stands for the query's ascending `created_at` order. The database's sort is not modelled, so a session's entry and exit are its first and last row as given.
- The order a database query returns rows with equal `created_at`: `Feed.Latest` picks the stable order of the rows given.
- Head-count queries that return neither a count nor an error are modelled as the rows they count. `count || 0` covers only the failed query.
- `Beacon.OnReply`: the reply is modelled as a parsed JSON object; a body that is not JSON is a lost request, as in the source's `catch`.
- `ImageLoader.NetlifyImageLoader`: widths and qualities are whole numbers; `toString()` of a fractional or `NaN` width is not modelled.
- `LiveVisitors.DeviceLabel`: the separator between the two labels on line 67 is not modelled; only the two fallbacks are.

## Findings

| source | as written | input that shows it | evidently intended | confidence | as-written member | corrected member |
|---|---|---|---|---|---|---|
| src/app/dashboard/timing/page.tsx:87-91 | `formatDay(d)` formats 2024-01-(d+4), and 2024-01-01 was a Monday, so it names weekday (d + 4) mod 7 | a single page view on a Sunday: `getDay()` is 0 and the peak-day card reads "Thursday" | the name of weekday `d`, as the daily-trends chart shows it | not executed | Timing.FormatDayShifted | Timing.FormatDayCorrected |
| src/app/dashboard/sessions/page.tsx:47-53 | with no sessions both the mean duration and the bounce rate are 0 / 0 | a successful query returning no sessions: the cards read "NaNm" and "NaN%" | the initial "0m" and "0%" | not executed | SessionsPage.NoSessionsShowsNaN | SessionsPage.SessionMetricsGuarded |

=== FILE: active_pages.dfy ===
/**
 * Pages viewed in the last thirty minutes (`fetchActivePages` in
 * `components/dashboard/realtime/active-pages.tsx`): the page views after
 * the window start are counted per page URL, ranked by count with a stable
 * sort, and the first ten kept; each row is labelled with its visitor
 * count.
 */
module ActivePages {
  import opened Seqs
  import opened Text
  import opened Clock
  import opened Rows
  import opened Sorting
  import Tally

  /** One row: `{ page_url, visitors }`. */
  datatype ActivePage = ActivePage(pageUrl: string, visitors: nat)

  const Window: nat := 30 * MsPerMinute
  const TopN: nat := 10

  /** `.gt('created_at', thirtyMinutesAgo)`. */
  function InWindow(now: int): PageView -> bool {
    (v: PageView) => v.createdAt > now - Window
  }

  function Urls(rows: seq<PageView>): (us: seq<string>)
    ensures |us| == |rows|
    ensures forall i :: 0 <= i < |rows| ==> us[i] == rows[i].pageUrl
  {
    seq(|rows|, i requires 0 <= i < |rows| => rows[i].pageUrl)
  }

  /** The URLs of the page views inside the window, in row order. */
  function WindowUrls(rows: seq<PageView>, now: int): seq<string> {
    Urls(Filter(rows, InWindow(now)))
  }

  function Visitors(p: ActivePage): int {
    p.visitors
  }

  function Url(p: ActivePage): string {
    p.pageUrl
  }

  function AsPages(t: seq<Tally.Entry>): (r: seq<ActivePage>)
    ensures |r| == |t|
    ensures forall i :: 0 <= i < |t| ==> r[i] == ActivePage(t[i].key, t[i].count)
  {
    seq(|t|, i requires 0 <= i < |t| => ActivePage(t[i].key, t[i].count))
  }

  /** Every page of the window once, with its count: the rows before ranking. */
  function PageCounts(rows: seq<PageView>, now: int): seq<ActivePage> {
    AsPages(Tally.Count(WindowUrls(rows, now)))
  }

  lemma PageCountsFacts(rows: seq<PageView>, now: int)
    ensures var (u, us) := (PageCounts(rows, now), WindowUrls(rows, now));
      && DistinctBy(u, Url)
      && |u| == |Tally.FirstSeen(us)|
      && (forall i :: 0 <= i < |u| ==> u[i].pageUrl == Tally.FirstSeen(us)[i])
      && (forall x :: x in u ==> x.visitors == Occurrences(us, x.pageUrl) > 0)
      && (forall k :: k in us ==> exists j :: 0 <= j < |u| && u[j].pageUrl == k)
      && Sum(u, Visitors) == |us|
  {
    PageCountsDistinct(WindowUrls(rows, now));
    PageCountsCover(WindowUrls(rows, now));
    PageCountsVisitors(WindowUrls(rows, now));
    PageCountsSum(WindowUrls(rows, now));
  }

  lemma PageCountsDistinct(us: seq<string>)
    ensures DistinctBy(AsPages(Tally.Count(us)), Url)
    ensures |AsPages(Tally.Count(us))| == |Tally.FirstSeen(us)|
    ensures forall i :: 0 <= i < |AsPages(Tally.Count(us))| ==> AsPages(Tally.Count(us))[i].pageUrl == Tally.FirstSeen(us)[i]
  {
    var t := Tally.Count(us);
    var u := AsPages(t);
    assert Tally.Keys(t) == Tally.FirstSeen(us);
    forall i, j | 0 <= i < j < |u| ensures Url(u[i]) != Url(u[j]) {
      assert Tally.Keys(t)[i] != Tally.Keys(t)[j];
    }
  }

  /** Page `k` has a row in `u`. */
  predicate Listed(u: seq<ActivePage>, k: string) {
    exists j :: 0 <= j < |u| && u[j].pageUrl == k
  }

  lemma PageCountsCover(us: seq<string>)
    ensures forall k :: k in us ==> Listed(AsPages(Tally.Count(us)), k)
  {
    var t := Tally.Count(us);
    var u := AsPages(t);
    assert Tally.Keys(t) == Tally.FirstSeen(us);
    forall k | k in us ensures Listed(u, k) {
      assert k in Tally.Keys(t);
      var j :| 0 <= j < |Tally.Keys(t)| && Tally.Keys(t)[j] == k;
      assert u[j].pageUrl == k;
    }
  }

  lemma PageCountsVisitors(us: seq<string>)
    ensures forall x :: x in AsPages(Tally.Count(us)) ==> x.visitors == Occurrences(us, x.pageUrl) > 0
  {
    var t := Tally.Count(us);
    var u := AsPages(t);
    Tally.CountEntries(us);
    forall x | x in u ensures x.visitors == Occurrences(us, x.pageUrl) > 0 {
      var j :| 0 <= j < |u| && u[j] == x;
      assert t[j] in t;
    }
  }

  lemma PageCountsSum(us: seq<string>)
    ensures Sum(AsPages(Tally.Count(us)), Visitors) == |us|
  {
    var t := Tally.Count(us);
    Tally.TotalIsSum(t);
    SumPointwise(AsPages(t), Visitors, t, (e: Tally.Entry) => e.count);
  }

  /**
   * The list after a fetch; a failed query keeps the previous list. At most
   * ten pages, as many as the window has up to ten, ranked by visitors,
   * each once, each with the number of page views in the window that
   * opened it; no page left out has more views than a page listed, and
   * pages with equal counts keep the order in which the window first saw
   * them (the order of `PageCounts`).
   */
  function ActivePagesOf(views: Fetch<PageView>, now: int, prev: seq<ActivePage>): (r: seq<ActivePage>)
    ensures views.FetchFailed? ==> r == prev
    ensures views.Fetched? ==>
      var us := WindowUrls(views.rows, now);
      && |r| == (if |Tally.FirstSeen(us)| < TopN then |Tally.FirstSeen(us)| else TopN)
      && SortedDesc(r, Visitors)
      && DistinctBy(r, Url)
      && (forall x :: x in r ==> x.visitors == Occurrences(us, x.pageUrl) > 0)
      && (forall k, y :: k in us && !Listed(r, k) && y in r ==> Occurrences(us, k) <= y.visitors)
      && (forall c :: IsPrefix(KeyClass(r, Visitors, c), KeyClass(PageCounts(views.rows, now), Visitors, c)))
      && (|Tally.FirstSeen(us)| <= TopN ==> forall k :: k in us ==> exists j :: 0 <= j < |r| && r[j].pageUrl == k)
  {
    if views.FetchFailed? then prev
    else
      RankedFacts(views.rows, now);
      RankedLeftOut(views.rows, now);
      Take(SortDesc(PageCounts(views.rows, now), Visitors), TopN)
  }

  lemma RankedFacts(rows: seq<PageView>, now: int)
    ensures
      var (us, r) := (WindowUrls(rows, now), Take(SortDesc(PageCounts(rows, now), Visitors), TopN));
      && |r| == (if |Tally.FirstSeen(us)| < TopN then |Tally.FirstSeen(us)| else TopN)
      && SortedDesc(r, Visitors)
      && DistinctBy(r, Url)
      && (forall x :: x in r ==> x.visitors == Occurrences(us, x.pageUrl) > 0)
      && (forall c :: IsPrefix(KeyClass(r, Visitors, c), KeyClass(PageCounts(rows, now), Visitors, c)))
      && (|Tally.FirstSeen(us)| <= TopN ==> forall k :: k in us ==> exists j :: 0 <= j < |r| && r[j].pageUrl == k)
  {
    var us := WindowUrls(rows, now);
    var u := PageCounts(rows, now);
    var sorted := SortDesc(u, Visitors);
    PageCountsFacts(rows, now);
    SortDescCorrect(u, Visitors);
    SortDescLength(u, Visitors);
    SortDescDistinctBy(u, Visitors, Url);
    TakeKeepsOrder(sorted, TopN, Visitors, Url);
    TopSelection(u, TopN, Visitors);
    assert forall x :: x in sorted ==> x in multiset(u);
    var r := Take(sorted, TopN);
    if |Tally.FirstSeen(us)| <= TopN {
      forall k | k in us ensures exists j :: 0 <= j < |r| && r[j].pageUrl == k {
        var j :| 0 <= j < |u| && u[j].pageUrl == k;
        assert u[j] in multiset(sorted);
        var i :| 0 <= i < |sorted| && sorted[i] == u[j];
        assert r[i].pageUrl == k;
      }
    }
  }

  /** A page of the window left off the list has no more views than any listed page. */
  lemma RankedLeftOut(rows: seq<PageView>, now: int)
    ensures
      var (us, r) := (WindowUrls(rows, now), Take(SortDesc(PageCounts(rows, now), Visitors), TopN));
      forall k, y :: k in us && !Listed(r, k) && y in r ==> Occurrences(us, k) <= y.visitors
  {
    var us := WindowUrls(rows, now);
    var u := PageCounts(rows, now);
    PageCountsCover(us);
    PageCountsVisitors(us);
    TopSelection(u, TopN, Visitors);
    LeftOutBelow(us, u, Take(SortDesc(u, Visitors), TopN));
  }

  lemma LeftOutBelow(us: seq<string>, u: seq<ActivePage>, r: seq<ActivePage>)
    requires forall k :: k in us ==> Listed(u, k)
    requires forall x :: x in u ==> x.visitors == Occurrences(us, x.pageUrl)
    requires forall x, y :: x in u && x !in r && y in r ==> Visitors(x) <= Visitors(y)
    ensures forall k, y :: k in us && !Listed(r, k) && y in r ==> Occurrences(us, k) <= y.visitors
  {
    forall k, y | k in us && !Listed(r, k) && y in r ensures Occurrences(us, k) <= y.visitors {
      var j :| 0 <= j < |u| && u[j].pageUrl == k;
      assert Visitors(u[j]) <= Visitors(y);
    }
  }

  /**
   * The listed counts add up to at most the page views in the window, and
   * to exactly that number when the window has ten pages or fewer.
   */
  lemma ListedAtMostWindow(rows: seq<PageView>, now: int, prev: seq<ActivePage>)
    ensures var (r, n) := (ActivePagesOf(Fetched(rows), now, prev), Count(rows, InWindow(now)));
      && Sum(r, Visitors) <= n
      && (|Tally.FirstSeen(WindowUrls(rows, now))| <= TopN ==> Sum(r, Visitors) == n)
  {
    var u := PageCounts(rows, now);
    var sorted := SortDesc(u, Visitors);
    PageCountsFacts(rows, now);
    SortDescSum(u, Visitors, Visitors);
    SortDescLength(u, Visitors);
    TakeSum(sorted, TopN, Visitors);
  }

  /** `page.page_url || '/'`. */
  function PageLabel(url: string): (s: string)
    ensures url != "" ==> s == url
    ensures url == "" ==> s == "/"
  {
    if url == "" then "/" else url
  }

  /** `{page.visitors} {page.visitors === 1 ? 'visitor' : 'visitors'}`. */
  function VisitorLabel(n: nat): (s: string)
    ensures n == 1 ==> s == "1 visitor"
    ensures n != 1 ==> s == NatToString(n) + " visitors"
  {
    NatToString(n) + " " + (if n == 1 then "visitor" else "visitors")
  }

  /** The visitor label reads back the count it was built from. */
  lemma VisitorLabelRoundTrip(n: nat)
    ensures var s := VisitorLabel(n);
      exists k :: 0 < k < |s| && AllDigits(s[..k]) && ParseNat(s[..k]) == n && s[k] == ' '
  {
    var s := VisitorLabel(n);
    var d := NatToString(n);
    assert s[..|d|] == d;
    assert s[|d|] == ' ';
  }
}

=== FILE: analytics.dfy ===
/**
 * `getDailyVisits` (`lib/supabase/analytics.ts`): page views since `days`
 * days ago, counted per UTC calendar day, with every day from `days` days
 * ago through today present even when it has no visits, in ascending date
 * order. A date is its day number since the epoch (`UtcDay`); ascending day
 * numbers are ascending `YYYY-MM-DD` keys.
 */
module Analytics {
  import opened Seqs
  import opened Clock
  import opened Rows

  datatype DayVisits = DayVisits(day: int, visits: nat)

  /** The UTC calendar day of a page view (`toISOString().split('T')[0]`). */
  function DayOf(v: PageView): int {
    UtcDay(v.createdAt)
  }

  /** The `.gte('created_at', start)` filter. */
  function Since(start: int): PageView -> bool {
    (v: PageView) => v.createdAt >= start
  }

  /** Rows the filter lets through that fall on day `d`. */
  function SinceOn(start: int, d: int): PageView -> bool {
    (v: PageView) => v.createdAt >= start && DayOf(v) == d
  }

  /** Strictly ascending days, so no day appears twice. */
  predicate Ascending(h: seq<DayVisits>) {
    forall i, j :: 0 <= i < j < |h| ==> h[i].day < h[j].day
  }

  predicate Has(h: seq<DayVisits>, d: int) {
    exists i :: 0 <= i < |h| && h[i].day == d
  }

  /** The visits recorded for day `d`, 0 when the day is absent. */
  function VisitsOn(h: seq<DayVisits>, d: int): nat {
    if |h| == 0 then 0
    else if h[0].day == d then h[0].visits
    else VisitsOn(h[1..], d)
  }

  function SumVisits(h: seq<DayVisits>): nat {
    if |h| == 0 then 0 else h[0].visits + SumVisits(h[1..])
  }

  /** The zero-filled days `lo .. lo + n - 1`. */
  function Zeros(lo: int, n: nat): (h: seq<DayVisits>)
    ensures |h| == n
    ensures forall i :: 0 <= i < n ==> h[i] == DayVisits(lo + i, 0)
  {
    seq(n, i requires 0 <= i < n => DayVisits(lo + i, 0))
  }

  lemma {:induction false} ZerosFacts(lo: int, n: nat)
    ensures Ascending(Zeros(lo, n))
    ensures forall d :: Has(Zeros(lo, n), d) <==> lo <= d < lo + n
    ensures forall d :: VisitsOn(Zeros(lo, n), d) == 0
    ensures SumVisits(Zeros(lo, n)) == 0
    decreases n
  {
    var h := Zeros(lo, n);
    forall d ensures Has(h, d) <==> lo <= d < lo + n {
      if lo <= d < lo + n {
        assert h[d - lo].day == d;
      }
    }
    if n > 0 {
      ZerosFacts(lo + 1, n - 1);
      assert h[1..] == Zeros(lo + 1, n - 1);
    }
  }

  /** `visitsByDate.set(d, (visitsByDate.get(d) || 0) + 1)` on the ascending list. */
  function Add(h: seq<DayVisits>, d: int): seq<DayVisits> {
    if |h| == 0 then [DayVisits(d, 1)]
    else if h[0].day == d then [DayVisits(d, h[0].visits + 1)] + h[1..]
    else if d < h[0].day then [DayVisits(d, 1)] + h
    else [h[0]] + Add(h[1..], d)
  }

  /** Adding a visit keeps the list ascending and bumps exactly day `d`. */
  lemma AddFacts(h: seq<DayVisits>, d: int)
    requires Ascending(h)
    ensures Ascending(Add(h, d))
    ensures forall e :: Has(Add(h, d), e) <==> Has(h, e) || e == d
    ensures forall e :: VisitsOn(Add(h, d), e) == VisitsOn(h, e) + (if e == d then 1 else 0)
    ensures SumVisits(Add(h, d)) == SumVisits(h) + 1
  {
    AddHas(h, d);
    AddAscending(h, d);
    AddVisits(h, d);
    AddSum(h, d);
  }

  lemma {:induction false} AddHas(h: seq<DayVisits>, d: int)
    ensures forall e :: Has(Add(h, d), e) <==> Has(h, e) || e == d
  {
    var r := Add(h, d);
    if |h| > 0 {
      HasCons(h);
      HasCons(r);
      if h[0].day == d {
        assert r[1..] == h[1..];
      } else if d < h[0].day {
        assert r[1..] == h;
      } else {
        AddHas(h[1..], d);
        assert r[1..] == Add(h[1..], d);
      }
    } else {
      assert r[0].day == d;
    }
  }

  lemma {:induction false} AddAscending(h: seq<DayVisits>, d: int)
    requires Ascending(h)
    ensures Ascending(Add(h, d))
  {
    var r := Add(h, d);
    if |h| > 0 && d > h[0].day {
      AddAscending(h[1..], d);
      AddHas(h[1..], d);
      assert r[1..] == Add(h[1..], d);
      forall i, j | 0 <= i < j < |r| ensures r[i].day < r[j].day {
        if i == 0 {
          assert Has(r[1..], r[j].day) by { assert r[1..][j - 1] == r[j]; }
          if r[j].day != d {
            var k :| 0 <= k < |h[1..]| && h[1..][k].day == r[j].day;
            assert h[k + 1].day == r[j].day;
          }
        }
      }
    }
  }

  lemma {:induction false} AddVisits(h: seq<DayVisits>, d: int)
    requires Ascending(h)
    ensures forall e :: VisitsOn(Add(h, d), e) == VisitsOn(h, e) + (if e == d then 1 else 0)
  {
    var r := Add(h, d);
    if |h| == 0 {
    } else if h[0].day == d {
      assert r[1..] == h[1..];
      VisitsAbsent(h[1..], d);
    } else if d < h[0].day {
      assert r[1..] == h;
      VisitsAbsent(h, d);
    } else {
      AddVisits(h[1..], d);
      assert r[1..] == Add(h[1..], d);
    }
  }

  lemma {:induction false} AddSum(h: seq<DayVisits>, d: int)
    ensures SumVisits(Add(h, d)) == SumVisits(h) + 1
  {
    var r := Add(h, d);
    if |h| > 0 {
      if h[0].day == d {
        assert r[1..] == h[1..];
      } else if d < h[0].day {
        assert r[1..] == h;
      } else {
        AddSum(h[1..], d);
        assert r[1..] == Add(h[1..], d);
      }
    }
  }

  /** `Has` unfolded once at the head. */
  lemma HasCons(h: seq<DayVisits>)
    requires |h| > 0
    ensures forall e :: Has(h, e) <==> h[0].day == e || Has(h[1..], e)
  {
    forall e | Has(h, e) && h[0].day != e ensures Has(h[1..], e) {
      var i :| 0 <= i < |h| && h[i].day == e;
      assert h[1..][i - 1] == h[i];
    }
    forall e | Has(h[1..], e) ensures Has(h, e) {
      var i :| 0 <= i < |h[1..]| && h[1..][i].day == e;
      assert h[i + 1] == h[1..][i];
    }
  }

  /** In an ascending list, a day below the head has no visits. */
  lemma {:induction false} VisitsAbsent(h: seq<DayVisits>, d: int)
    requires Ascending(h)
    requires |h| == 0 || d < h[0].day
    ensures VisitsOn(h, d) == 0
  {
    if |h| > 0 {
      if |h| > 1 {
        assert h[0].day < h[1].day;
      }
      VisitsAbsent(h[1..], d);
    }
  }

  /**
   * The fold over the fetched rows: start from the zero-filled days
   * `lo .. lo + n - 1`, then add every row the filter lets through.
   */
  function Fill(rows: seq<PageView>, start: int, lo: int, n: nat): seq<DayVisits> {
    if |rows| == 0 then Zeros(lo, n)
    else
      var v := rows[|rows| - 1];
      var h := Fill(rows[..|rows| - 1], start, lo, n);
      if v.createdAt >= start then Add(h, DayOf(v)) else h
  }

  /**
   * The fold yields each zero-filled day and each day a counted row falls
   * on, once and ascending, with the number of counted rows on that day.
   */
  lemma FillFacts(rows: seq<PageView>, start: int, lo: int, n: nat)
    ensures Ascending(Fill(rows, start, lo, n))
    ensures forall d :: Has(Fill(rows, start, lo, n), d) <==>
      lo <= d < lo + n || exists v :: v in rows && SinceOn(start, d)(v)
    ensures forall d :: VisitsOn(Fill(rows, start, lo, n), d) == Count(rows, SinceOn(start, d))
    ensures SumVisits(Fill(rows, start, lo, n)) == Count(rows, Since(start))
  {
    FillAscending(rows, start, lo, n);
    FillHas(rows, start, lo, n);
    FillVisits(rows, start, lo, n);
    FillSum(rows, start, lo, n);
  }

  lemma {:induction false} FillAscending(rows: seq<PageView>, start: int, lo: int, n: nat)
    ensures Ascending(Fill(rows, start, lo, n))
  {
    if |rows| == 0 {
      ZerosFacts(lo, n);
    } else {
      var v := rows[|rows| - 1];
      FillAscending(rows[..|rows| - 1], start, lo, n);
      if v.createdAt >= start {
        AddAscending(Fill(rows[..|rows| - 1], start, lo, n), DayOf(v));
      }
    }
  }

  lemma {:induction false} FillHas(rows: seq<PageView>, start: int, lo: int, n: nat)
    ensures forall d :: Has(Fill(rows, start, lo, n), d) <==>
      lo <= d < lo + n || exists v :: v in rows && SinceOn(start, d)(v)
  {
    if |rows| == 0 {
      ZerosFacts(lo, n);
    } else {
      var rest := rows[..|rows| - 1];
      var v := rows[|rows| - 1];
      var h := Fill(rest, start, lo, n);
      FillHas(rest, start, lo, n);
      if v.createdAt >= start {
        AddHas(h, DayOf(v));
      }
      assert Fill(rows, start, lo, n) == if v.createdAt >= start then Add(h, DayOf(v)) else h;
      assert rows == rest + [v];
      forall d ensures Has(Fill(rows, start, lo, n), d) <==>
        lo <= d < lo + n || exists w :: w in rows && SinceOn(start, d)(w)
      {
        var inRows := exists w :: w in rows && SinceOn(start, d)(w);
        var inRest := exists w :: w in rest && SinceOn(start, d)(w);
        assert SinceOn(start, d)(v) <==> v.createdAt >= start && DayOf(v) == d;
        if inRows {
          var w :| w in rows && SinceOn(start, d)(w);
          if w != v {
            assert w in rest;
          }
        }
        if inRest {
          var w :| w in rest && SinceOn(start, d)(w);
          assert w in rows;
        }
        assert inRows <==> inRest || SinceOn(start, d)(v);
        assert Has(h, d) <==> lo <= d < lo + n || inRest;
      }
    }
  }

  lemma {:induction false} FillVisits(rows: seq<PageView>, start: int, lo: int, n: nat)
    ensures forall d :: VisitsOn(Fill(rows, start, lo, n), d) == Count(rows, SinceOn(start, d))
  {
    if |rows| == 0 {
      ZerosFacts(lo, n);
    } else {
      var rest := rows[..|rows| - 1];
      var v := rows[|rows| - 1];
      var h := Fill(rest, start, lo, n);
      FillVisits(rest, start, lo, n);
      if v.createdAt >= start {
        FillAscending(rest, start, lo, n);
        AddVisits(h, DayOf(v));
      }
      forall d ensures VisitsOn(Fill(rows, start, lo, n), d) == Count(rows, SinceOn(start, d)) {
        assert Count(rows, SinceOn(start, d)) == Count(rest, SinceOn(start, d)) + (if SinceOn(start, d)(v) then 1 else 0);
      }
    }
  }

  lemma {:induction false} FillSum(rows: seq<PageView>, start: int, lo: int, n: nat)
    ensures SumVisits(Fill(rows, start, lo, n)) == Count(rows, Since(start))
  {
    if |rows| == 0 {
      ZerosFacts(lo, n);
    } else {
      var v := rows[|rows| - 1];
      FillSum(rows[..|rows| - 1], start, lo, n);
      if v.createdAt >= start {
        AddSum(Fill(rows[..|rows| - 1], start, lo, n), DayOf(v));
      }
    }
  }

  /**
   * `getDailyVisits(days)` at clock `now`: the empty list on a store error;
   * otherwise the days from `days` days ago through today, plus any later
   * day a counted row falls on, each once and in ascending order, with the
   * number of rows since the start instant that fall on it.
   */
  function DailyVisits(views: Fetch<PageView>, now: int, days: nat): (r: seq<DayVisits>)
    ensures views.FetchFailed? ==> r == []
    ensures views.Fetched? ==>
      var (rows, start, today) := (views.rows, now - days * MsPerDay, UtcDay(now));
      && Ascending(r)
      && (forall d :: Has(r, d) <==>
            today - days <= d <= today || exists v :: v in rows && SinceOn(start, d)(v))
      && (forall d :: VisitsOn(r, d) == Count(rows, SinceOn(start, d)))
      && SumVisits(r) == Count(rows, Since(start))
  {
    if views.FetchFailed? then []
    else
      FillFacts(views.rows, now - days * MsPerDay, UtcDay(now) - days, days + 1);
      Fill(views.rows, now - days * MsPerDay, UtcDay(now) - days, days + 1)
  }

  /** Every counted row's day is no earlier than the first zero-filled day. */
  lemma StartDay(now: int, days: nat, v: PageView)
    requires Since(now - days * MsPerDay)(v)
    ensures DayOf(v) >= UtcDay(now) - days
  {
    assert (now - days * MsPerDay) / MsPerDay == now / MsPerDay - days;
  }

  /** With no rows the series is exactly `days + 1` zero entries, today last. */
  lemma NoRowsAllZero(now: int, days: nat)
    ensures
      var r := DailyVisits(Fetched([]), now, days);
      && |r| == days + 1
      && r[days].day == UtcDay(now)
      && forall i :: 0 <= i < |r| ==> r[i] == DayVisits(UtcDay(now) - days + i, 0)
  {
  }
}

=== FILE: beacon.dfy ===
/**
 * The tracking beacon (`bear-tracks.js`) as a client state machine: it holds
 * at most one session token, remembers the last pathname it reported, and
 * emits one request on load and one per pathname change. `fetch`,
 * `localStorage` and the `MutationObserver` are the events driving it.
 */
module Beacon {
  import opened Wrappers
  import Store
  import Track

  /** A request the beacon sends: the token it holds now, the pathname, the referrer. */
  datatype Send = Send(sessionId: Option<string>, pageUrl: string, referrer: string)

  /**
   * `Disabled` when Do-Not-Track is on (the script returns at once).
   * Otherwise the held token, the last reported pathname and the page's
   * `document.referrer`.
   */
  datatype State = Disabled | Tracking(sessionId: Option<string>, lastUrl: string, referrer: string)

  /** How a request ended: a parsed JSON reply (with or without `sessionId`), or a thrown error. */
  datatype Reply = Delivered(sessionId: Option<string>) | Lost

  /** What can happen to a running beacon. */
  datatype Event = Navigated(pathname: string) | Answered(reply: Reply)

  /** A transition's result: the new state and the requests it sent, in order. */
  datatype Step = Step(state: State, sent: seq<Send>)

  /** `track()`: a request built from the token held at this moment. */
  function Report(s: State, pathname: string): Send
    requires s.Tracking?
  {
    Send(s.sessionId, pathname, s.referrer)
  }

  /**
   * Script start: with `navigator.doNotTrack === "1"` nothing happens;
   * otherwise the stored token (if any) is picked up and exactly one
   * request is sent for the current pathname.
   */
  function Load(doNotTrack: Option<string>, stored: Option<string>, pathname: string, referrer: string): (r: Step)
    ensures doNotTrack == Some("1") <==> r.state.Disabled?
    ensures doNotTrack == Some("1") ==> r.sent == []
    ensures doNotTrack != Some("1") ==>
      && r.state == Tracking(stored, pathname, referrer)
      && r.sent == [Send(stored, pathname, referrer)]
  {
    if doNotTrack == Some("1") then Step(Disabled, [])
    else
      var s := Tracking(stored, pathname, referrer);
      Step(s, [Report(s, pathname)])
  }

  /** A DOM mutation: report the pathname iff it differs from the last one reported. */
  function OnMutation(s: State, pathname: string): (r: Step)
    ensures s.Disabled? ==> r == Step(s, [])
    ensures s.Tracking? && pathname == s.lastUrl ==> r == Step(s, [])
    ensures s.Tracking? && pathname != s.lastUrl ==>
      && r.state == s.(lastUrl := pathname)
      && r.sent == [Send(s.sessionId, pathname, s.referrer)]
  {
    if s.Disabled? || pathname == s.lastUrl then Step(s, [])
    else
      var s' := s.(lastUrl := pathname);
      Step(s', [Report(s', pathname)])
  }

  /**
   * A reply arrives: a returned `sessionId` is adopted only when the beacon
   * holds none (`data.sessionId && !sessionId`); a lost request changes nothing.
   */
  function OnReply(s: State, reply: Reply): (r: State)
    ensures s.Disabled? ==> r == s
    ensures reply.Lost? ==> r == s
    ensures s.Tracking? && Truthy(s.sessionId) ==> r == s
    ensures s.Tracking? ==> r.Tracking? && r.lastUrl == s.lastUrl && r.referrer == s.referrer
    ensures r != s <==>
      s.Tracking? && !Truthy(s.sessionId) && reply.Delivered? && Truthy(reply.sessionId)
      && reply.sessionId != s.sessionId
  {
    if s.Tracking? && reply.Delivered? && Truthy(reply.sessionId) && !Truthy(s.sessionId)
    then s.(sessionId := reply.sessionId)
    else s
  }

  function Apply(s: State, e: Event): Step {
    match e
    case Navigated(p) => OnMutation(s, p)
    case Answered(reply) => Step(OnReply(s, reply), [])
  }

  /** A run: the events in order, accumulating every request sent. */
  function Run(s: State, events: seq<Event>): Step
    decreases |events|
  {
    if |events| == 0 then Step(s, [])
    else
      var first := Apply(s, events[0]);
      var rest := Run(first.state, events[1..]);
      Step(rest.state, first.sent + rest.sent)
  }

  /** Do-Not-Track: whatever happens afterwards, the beacon never sends anything. */
  lemma {:induction false} DoNotTrackSendsNothing(stored: Option<string>, pathname: string, referrer: string, events: seq<Event>)
    ensures
      var l := Load(Some("1"), stored, pathname, referrer);
      l.sent == [] && Run(l.state, events).sent == []
  {
    DisabledStaysSilent(events);
  }

  lemma {:induction false} DisabledStaysSilent(events: seq<Event>)
    ensures Run(Disabled, events) == Step(Disabled, [])
    decreases |events|
  {
    if |events| > 0 {
      DisabledStaysSilent(events[1..]);
    }
  }

  /** Once a token is held it is never replaced, over any run. */
  lemma {:induction false} TokenIsSticky(s: State, events: seq<Event>)
    requires s.Tracking? && Truthy(s.sessionId)
    ensures Run(s, events).state.Tracking?
    ensures Run(s, events).state.sessionId == s.sessionId
    ensures forall q :: q in Run(s, events).sent ==> q.sessionId == s.sessionId
    decreases |events|
  {
    if |events| > 0 {
      var first := Apply(s, events[0]);
      assert first.state.Tracking? && first.state.sessionId == s.sessionId;
      TokenIsSticky(first.state, events[1..]);
    }
  }

  /** A run sends exactly one request per reported pathname change. */
  lemma {:induction false} OneRequestPerChange(s: State, events: seq<Event>)
    requires s.Tracking?
    ensures |Run(s, events).sent| == Changes(s.lastUrl, events)
    decreases |events|
  {
    if |events| > 0 {
      var first := Apply(s, events[0]);
      OneRequestPerChange(first.state, events[1..]);
    }
  }

  /** The number of navigations to a pathname other than the one reported last. */
  function Changes(lastUrl: string, events: seq<Event>): nat
    decreases |events|
  {
    if |events| == 0 then 0
    else match events[0]
      case Navigated(p) => (if p != lastUrl then 1 else 0) + Changes(p, events[1..])
      case Answered(_) => Changes(lastUrl, events[1..])
  }

  /** The request the server sees for a beacon send, given the two headers. */
  function ToRequest(q: Send, country: Option<string>, userAgent: Option<string>): Track.Request {
    Track.Request(Some(Track.Body(q.sessionId, q.pageUrl, Some(q.referrer))), country, userAgent)
  }

  /** What the beacon reads from the server's reply. */
  function ReplyOf(r: Track.Response): Reply {
    match r
    case Tracked(sid) => Delivered(Some(sid))
    case Failed(_, _) => Delivered(None)
  }

  /**
   * Beacon and endpoint together: a first visit with no stored token gets a
   * fresh id minted, adopts it, and the next navigation's page view lands
   * under the same session id as the first.
   */
  lemma BeaconKeepsOneSession(
    st: Store.Store, path1: string, path2: string, referrer: string,
    country: Option<string>, userAgent: Option<string>, e1: Track.Env, e2: Track.Env)
    requires Store.Valid(st) && path1 != path2
    requires !e1.createFails && !Store.HasSession(st, e1.freshId) && e1.freshId != ""
    requires !e1.insertFails && !e2.insertFails
    ensures
      var l := Load(None, None, path1, referrer);
      var o1 := Track.Post(st, ToRequest(l.sent[0], country, userAgent), e1);
      var s1 := OnReply(l.state, ReplyOf(o1.response));
      var m := OnMutation(s1, path2);
      var o2 := Track.Post(o1.store, ToRequest(m.sent[0], country, userAgent), e2);
      && s1.sessionId == Some(e1.freshId)
      && m.sent == [Send(Some(e1.freshId), path2, referrer)]
      && |o2.store.views| == |st.views| + 2
      && o2.store.views[|st.views|].sessionId == e1.freshId
      && o2.store.views[|st.views| + 1].sessionId == e1.freshId
      && o2.store.views[|st.views|].pageUrl == path1
      && o2.store.views[|st.views| + 1].pageUrl == path2
  {
  }
}

=== FILE: clock.dfy ===
/**
 * Calendar arithmetic on integer millisecond timestamps. Local time is UTC
 * shifted by a fixed offset `tz` (milliseconds east of UTC); there is no
 * daylight-saving rule. 1970-01-01 (day 0) was a Thursday.
 */
module Clock {

  const MsPerSecond: nat := 1000
  const MsPerMinute: nat := 60 * MsPerSecond
  const MsPerHour: nat := 60 * MsPerMinute
  const MsPerDay: nat := 24 * MsPerHour

  /** Weekday numbering of `Date.prototype.getDay`: Sunday = 0 ... Saturday = 6. */
  const Thursday: nat := 4

  /** Day number since the epoch of a timestamp, in UTC (`toISOString().split('T')[0]`). */
  function UtcDay(t: int): int {
    t / MsPerDay
  }

  /** `getHours()` under the fixed offset. */
  function LocalHour(t: int, tz: int): (h: nat)
    ensures h < 24
  {
    ((t + tz) / MsPerHour) % 24
  }

  /** `getDay()` under the fixed offset. */
  function LocalWeekday(t: int, tz: int): (d: nat)
    ensures d < 7
  {
    ((t + tz) / MsPerDay + Thursday) % 7
  }

  /** `toLocaleDateString('en-US', { weekday: 'long' })`, indexed by `getDay()`. */
  const LongDayNames: seq<string> :=
    ["Sunday", "Monday", "Tuesday", "Wednesday", "Thursday", "Friday", "Saturday"]

  /** `toLocaleDateString('en-US', { weekday: 'short' })`, indexed by `getDay()`. */
  const ShortDayNames: seq<string> := ["Sun", "Mon", "Tue", "Wed", "Thu", "Fri", "Sat"]

  /** A whole day later is the next weekday, at the same hour. */
  lemma NextDay(t: int, tz: int)
    ensures LocalWeekday(t + MsPerDay, tz) == (LocalWeekday(t, tz) + 1) % 7
    ensures LocalHour(t + MsPerDay, tz) == LocalHour(t, tz)
  {
    var u := t + tz;
    assert (u + MsPerDay) / MsPerDay == u / MsPerDay + 1;
    assert (u + MsPerDay) / MsPerHour == u / MsPerHour + 24;
  }
}

=== FILE: daily_trends.dfy ===
/**
 * The weekday trend (`fetchDailyData` in
 * `components/dashboard/timing/daily-trends.tsx`): seven counters keyed by
 * the long weekday name, all starting at zero, one added per page view on
 * its local weekday, reported as seven rows in insertion order, Sunday
 * through Saturday.
 */
module DailyTrends {
  import opened Wrappers
  import opened Seqs
  import opened Clock
  import opened Rows
  import Timing

  datatype DayRow = DayRow(day: string, visits: nat)

  /** Page views on local weekday `d`. */
  function OnWeekday(tz: int, d: nat): PageView -> bool {
    (v: PageView) => LocalWeekday(v.createdAt, tz) == d
  }

  /** The counters after processing `rows` in order, indexed by `getDay()`. */
  function Counts(rows: seq<PageView>, tz: int): (c: seq<nat>)
    ensures |c| == 7
    ensures forall d :: 0 <= d < 7 ==> c[d] == Count(rows, OnWeekday(tz, d))
  {
    if |rows| == 0 then [0, 0, 0, 0, 0, 0, 0]
    else
      var c := Counts(rows[..|rows| - 1], tz);
      var d := LocalWeekday(rows[|rows| - 1].createdAt, tz);
      c[d := c[d] + 1]
  }

  /** The chart data; a failed query keeps the previous rows (initially none). */
  function DailyData(views: Fetch<PageView>, tz: int, prev: seq<DayRow>): (r: seq<DayRow>)
    ensures views.FetchFailed? ==> r == prev
    ensures views.Fetched? ==>
      && |r| == 7
      && forall d :: 0 <= d < 7 ==> r[d] == DayRow(LongDayNames[d], Count(views.rows, OnWeekday(tz, d)))
  {
    if views.FetchFailed? then prev
    else
      var c := Counts(views.rows, tz);
      seq(7, d requires 0 <= d < 7 => DayRow(LongDayNames[d], c[d]))
  }

  function RowTotal(r: seq<DayRow>): nat {
    if |r| == 0 then 0 else RowTotal(r[..|r| - 1]) + r[|r| - 1].visits
  }

  /** The counters add up to the number of page views: each lands on exactly one weekday. */
  lemma {:induction false} CountsTotal(rows: seq<PageView>, tz: int)
    ensures Total(Counts(rows, tz)) == |rows|
  {
    if |rows| == 0 {
      ZeroTotal(Counts(rows, tz));
    } else {
      var a := Counts(rows[..|rows| - 1], tz);
      var d := LocalWeekday(rows[|rows| - 1].createdAt, tz);
      CountsTotal(rows[..|rows| - 1], tz);
      TotalBump(a, Counts(rows, tz), d);
    }
  }

  lemma {:induction false} RowTotalIsTotal(r: seq<DayRow>, c: seq<nat>)
    requires |r| == |c| && forall i :: 0 <= i < |r| ==> r[i].visits == c[i]
    ensures RowTotal(r) == Total(c)
  {
    if |r| > 0 {
      RowTotalIsTotal(r[..|r| - 1], c[..|c| - 1]);
    }
  }

  /** The seven rows add up to the number of page views. */
  lemma VisitsAddUp(views: seq<PageView>, tz: int, prev: seq<DayRow>)
    ensures RowTotal(DailyData(Fetched(views), tz, prev)) == |views|
  {
    CountsTotal(views, tz);
    RowTotalIsTotal(DailyData(Fetched(views), tz, prev), Counts(views, tz));
  }

  /** The weekday counters here are the timing page's per-day counts. */
  lemma SameAsTimingDays(views: seq<PageView>, tz: int)
    ensures Counts(views, tz) == Histogram(views, Timing.WeekdayOf(tz), 7)
  {
    var c := Counts(views, tz);
    var h := Histogram(views, Timing.WeekdayOf(tz), 7);
    forall d | 0 <= d < 7 ensures c[d] == h[d] {
      CountCongruent(views, OnWeekday(tz, d), InBucket(Timing.WeekdayOf(tz), d));
    }
  }

  /** Row `d` has the most visits, and every earlier row has fewer. */
  predicate FirstBusiest(r: seq<DayRow>, d: nat) {
    && d < |r|
    && (forall e :: 0 <= e < |r| ==> r[e].visits <= r[d].visits)
    && (forall e :: 0 <= e < d ==> r[e].visits < r[d].visits)
  }

  /**
   * With the corrected `formatDay`, the timing page's peak day is the label
   * of a trend row with the most visits, the earliest such row.
   */
  lemma PeakDayIsBusiestRow(views: seq<PageView>, tz: int, prev: seq<DayRow>, tprev: Timing.TimingMetrics)
    requires |views| > 0
    ensures
      var r := DailyData(Fetched(views), tz, prev);
      exists d: nat :: FirstBusiest(r, d) && r[d].day == Timing.TimingMetricsCorrected(Fetched(views), tz, tprev).peakDay
  {
    SameAsTimingDays(views, tz);
    var r := DailyData(Fetched(views), tz, prev);
    var m := Timing.TimingMetricsCorrected(Fetched(views), tz, tprev);
    var days := Histogram(views, Timing.WeekdayOf(tz), 7);
    var d: nat :| Timing.IsFirstMax(days, d) && m.peakDay == LongDayNames[d];
    assert forall e :: 0 <= e < 7 ==> r[e].visits == days[e];
    assert FirstBusiest(r, d) && r[d].day == m.peakDay;
  }

  /**
   * As written, the timing page names a different day: a single Sunday
   * visit tops the "Sunday" trend row while the peak-day card reads
   * "Thursday".
   */
  lemma AsWrittenPeakDayDisagrees(prev: seq<DayRow>, tprev: Timing.TimingMetrics)
    ensures
      var views := [PageView(1, "s", "/", None, None, None, None, 3 * MsPerDay)];
      && DailyData(Fetched(views), 0, prev)[0] == DayRow("Sunday", 1)
      && Timing.TimingMetricsOf(Fetched(views), 0, tprev).peakDay == "Thursday"
  {
    var views := [PageView(1, "s", "/", None, None, None, None, 3 * MsPerDay)];
    assert LocalWeekday(3 * MsPerDay, 0) == 0;
    var days := Histogram(views, Timing.WeekdayOf(0), 7);
    assert views[..0] == [];
    assert days[0] == 1;
    var m := Timing.TimingMetricsOf(Fetched(views), 0, tprev);
    var d: nat :| Timing.IsFirstMax(days, d) && m.peakDay == LongDayNames[(d + 4) % 7];
    assert d == 0;
  }
}

=== FILE: feed.dfy ===
/**
 * The most-recent-visits lists shared by the live-visitors and the
 * recent-visitors components: an initial query for the newest page views,
 * then every inserted page view put in front of the list, which is cut to
 * a fixed capacity.
 */
module Feed {
  import opened Wrappers
  import opened Seqs
  import opened Rows
  import opened Sorting
  import opened Clock
  import Numbers

  function CreatedAt(v: PageView): int {
    v.createdAt
  }

  /** Newest first: `created_at` never increases along the list. */
  predicate NewestFirst(s: seq<PageView>) {
    SortedDesc(s, CreatedAt)
  }

  /** `[newVisit, ...current.slice(0, cap - 1)]`. */
  function Prepend(current: seq<PageView>, v: PageView, cap: nat): (r: seq<PageView>)
    requires cap > 0
    ensures |r| == if |current| < cap then |current| + 1 else cap
    ensures r[0] == v
    ensures r[1..] == current[..|r| - 1]
  {
    [v] + Take(current, cap - 1)
  }

  /** Below capacity nothing is dropped; at capacity exactly the oldest row is. */
  lemma PrependDropsOnlyOldest(current: seq<PageView>, v: PageView, cap: nat)
    requires cap > 0
    ensures |current| < cap ==> Prepend(current, v, cap) == [v] + current
    ensures |current| == cap ==> Prepend(current, v, cap) == [v] + current[..cap - 1]
  {
  }

  /** A page view no older than the head keeps the list newest first. */
  lemma PrependKeepsNewestFirst(current: seq<PageView>, v: PageView, cap: nat)
    requires cap > 0 && NewestFirst(current)
    requires |current| == 0 || v.createdAt >= current[0].createdAt
    ensures NewestFirst(Prepend(current, v, cap))
  {
    var r := Prepend(current, v, cap);
    forall i, j | 0 <= i < j < |r| ensures CreatedAt(r[i]) >= CreatedAt(r[j]) {
      if i == 0 {
        assert r[j] == current[j - 1];
        assert CreatedAt(current[0]) >= CreatedAt(current[j - 1]);
      } else {
        assert r[i] == current[i - 1] && r[j] == current[j - 1];
      }
    }
  }

  /**
   * `.order('created_at', { ascending: false }).limit(cap)`: the `cap`
   * newest rows, newest first (ties in the order the rows are given).
   */
  function Latest(rows: seq<PageView>, cap: nat): (r: seq<PageView>)
    ensures |r| == if |rows| < cap then |rows| else cap
    ensures NewestFirst(r)
    ensures multiset(r) <= multiset(rows)
    ensures forall x :: x in r ==> x in rows
    ensures forall x, y :: x in rows && x !in r && y in r ==> x.createdAt <= y.createdAt
  {
    var r := Take(SortDesc(rows, CreatedAt), cap);
    SortDescSorted(rows, CreatedAt);
    TopSelection(rows, cap, CreatedAt);
    TakeKeepsOrder(SortDesc(rows, CreatedAt), cap, CreatedAt, CreatedAt);
    forall x | x in r ensures x in rows {
      assert x in multiset(r);
    }
    forall x, y | x in rows && x !in r && y in r ensures x.createdAt <= y.createdAt {
      assert CreatedAt(x) <= CreatedAt(y);
    }
    r
  }

  /** The initial load: on an error the list is left as it is. */
  function Load(rows: Fetch<PageView>, current: seq<PageView>, cap: nat): (r: seq<PageView>)
    ensures rows.FetchFailed? ==> r == current
    ensures rows.Fetched? ==> r == Latest(rows.rows, cap)
  {
    if rows.FetchFailed? then current else Latest(rows.rows, cap)
  }

  /**
   * `Math.floor((now - createdAt) / 1000)`: the whole seconds since a page
   * view at clock `now`; negative when the row's clock is ahead.
   */
  function AgeSeconds(now: int, createdAt: int): (s: int)
    ensures MsPerSecond * s <= now - createdAt < MsPerSecond * s + MsPerSecond
  {
    Numbers.FloorDiv(now - createdAt, MsPerSecond)
  }

  /** `visit.country || 'Unknown'`. */
  function CountryLabel(v: PageView): (s: string)
    ensures Truthy(v.country) ==> s == v.country.value
    ensures !Truthy(v.country) ==> s == "Unknown"
  {
    OrElse(v.country, "Unknown")
  }
}

=== FILE: geography_page.dfy ===
/**
 * The country breakdown (`fetchGeographyData` in
 * `app/dashboard/geography/page.tsx`): page views counted per country, a
 * missing or empty country counted under "Unknown", each country's share
 * of all visits in percent, ranked by visits with a stable sort; and the
 * two cards, total countries and top country.
 *
 * Percentages are kept as exact rationals (`real`); their floating-point
 * rounding is not modelled.
 */
module Geography {
  import opened Wrappers
  import opened Seqs
  import opened Rows
  import opened Sorting
  import Tally

  /** One row of the breakdown: `{ country, visits, percentage }`. */
  datatype CountryData = CountryData(country: string, visits: nat, percentage: real)

  /** `curr.country || 'Unknown'`. */
  function CountryKey(v: PageView): (k: string)
    ensures k != ""
    ensures Truthy(v.country) ==> k == v.country.value
    ensures !Truthy(v.country) ==> k == "Unknown"
  {
    OrElse(v.country, "Unknown")
  }

  function CountryKeys(rows: seq<PageView>): (ks: seq<string>)
    ensures |ks| == |rows|
    ensures forall i :: 0 <= i < |rows| ==> ks[i] == CountryKey(rows[i])
  {
    seq(|rows|, i requires 0 <= i < |rows| => CountryKey(rows[i]))
  }

  function Visits(c: CountryData): int {
    c.visits
  }

  function Name(c: CountryData): string {
    c.country
  }

  /** `(visits / totalVisits) * 100`. */
  function Share(visits: int, total: nat): real
    requires total > 0
  {
    (visits as real / total as real) * 100.0
  }

  lemma ShareAdd(a: int, b: int, total: nat)
    requires total > 0
    ensures Share(a + b, total) == Share(a, total) + Share(b, total)
  {
  }

  lemma ShareOfAll(total: nat)
    requires total > 0
    ensures Share(total, total) == 100.0
  {
  }

  /** The `map` step: every tally entry with its share of `total`. */
  function WithShares(t: seq<Tally.Entry>, total: nat): (r: seq<CountryData>)
    requires |t| > 0 ==> total > 0
    ensures |r| == |t|
    ensures forall i :: 0 <= i < |t| ==>
      r[i] == CountryData(t[i].key, t[i].count, Share(t[i].count, total))
  {
    seq(|t|, i requires 0 <= i < |t| => CountryData(t[i].key, t[i].count, Share(t[i].count, total)))
  }

  /**
   * The breakdown after a fetch; a failed query keeps the previous rows.
   * Every country a row counts under appears once, with the number of rows
   * counted under it and its share of all rows, ranked by visits.
   */
  function CountryBreakdown(views: Fetch<PageView>, prev: seq<CountryData>): (r: seq<CountryData>)
    ensures views.FetchFailed? ==> r == prev
    ensures views.Fetched? ==>
      var (rows, keys) := (views.rows, CountryKeys(views.rows));
      && SortedDesc(r, Visits)
      && DistinctBy(r, Name)
      && (forall k :: k in keys <==> exists i :: 0 <= i < |r| && r[i].country == k)
      && (forall x :: x in r ==> x.visits == Occurrences(keys, x.country) > 0)
      && (forall x :: x in r ==> x.percentage == Share(x.visits, |rows|))
  {
    if views.FetchFailed? then prev
    else
      var keys := CountryKeys(views.rows);
      var t := Tally.Count(keys);
      var u := WithShares(t, |views.rows|);
      var r := SortDesc(u, Visits);
      SortDescCorrect(u, Visits);
      Facts(keys, |views.rows|, u);
      SortDescDistinctBy(u, Visits, Name);
      forall k ensures k in keys <==> exists i :: 0 <= i < |r| && r[i].country == k {
        if k in keys {
          var j :| 0 <= j < |u| && u[j].country == k;
          assert u[j] in multiset(r);
          var i :| 0 <= i < |r| && r[i] == u[j];
        } else if exists i :: 0 <= i < |r| && r[i].country == k {
          var i :| 0 <= i < |r| && r[i].country == k;
          assert r[i] in multiset(u);
        }
      }
      assert forall x :: x in r ==> x in multiset(u);
      r
  }

  /** What the unsorted rows carry. */
  lemma Facts(keys: seq<string>, total: nat, u: seq<CountryData>)
    requires |keys| == total
    requires u == WithShares(Tally.Count(keys), total)
    ensures DistinctBy(u, Name)
    ensures forall k :: k in keys <==> exists j :: 0 <= j < |u| && u[j].country == k
    ensures forall x :: x in u ==> x.visits == Occurrences(keys, x.country) > 0
    ensures forall x :: x in u ==> total > 0 && x.percentage == Share(x.visits, total)
  {
    var t := Tally.Count(keys);
    Tally.CountEntries(keys);
    assert Tally.Keys(t) == Tally.FirstSeen(keys);
    forall i, j | 0 <= i < j < |u| ensures Name(u[i]) != Name(u[j]) {
      assert Tally.Keys(t)[i] != Tally.Keys(t)[j];
    }
    forall k | k in keys ensures exists j :: 0 <= j < |u| && u[j].country == k {
      var j :| 0 <= j < |Tally.Keys(t)| && Tally.Keys(t)[j] == k;
      assert u[j].country == k;
    }
    forall x | x in u ensures x.visits == Occurrences(keys, x.country) > 0 {
      var j :| 0 <= j < |u| && u[j] == x;
      assert t[j] in t;
    }
  }

  /** The visits add up to the number of page views fetched. */
  lemma VisitsAddUp(rows: seq<PageView>, prev: seq<CountryData>)
    ensures Sum(CountryBreakdown(Fetched(rows), prev), Visits) == |rows|
  {
    var keys := CountryKeys(rows);
    var t := Tally.Count(keys);
    var u := WithShares(t, |rows|);
    SortDescSum(u, Visits, Visits);
    Tally.TotalIsSum(t);
    SumPointwise(u, Visits, t, (e: Tally.Entry) => e.count);
  }

  /** The sum of the percentages. */
  function PercentTotal(r: seq<CountryData>): real {
    if |r| == 0 then 0.0 else PercentTotal(r[..|r| - 1]) + r[|r| - 1].percentage
  }

  lemma {:induction false} PercentTotalIsShare(r: seq<CountryData>, total: nat)
    requires total > 0
    requires forall x :: x in r ==> x.percentage == Share(x.visits, total)
    ensures PercentTotal(r) == Share(Sum(r, Visits), total)
  {
    if |r| > 0 {
      var n := |r| - 1;
      assert forall x :: x in r[..n] ==> x in r;
      PercentTotalIsShare(r[..n], total);
      ShareAdd(Sum(r[..n], Visits), r[n].visits, total);
    }
  }

  /** With at least one page view, the percentages add up to exactly 100. */
  lemma PercentagesAddUp(rows: seq<PageView>, prev: seq<CountryData>)
    requires |rows| > 0
    ensures PercentTotal(CountryBreakdown(Fetched(rows), prev)) == 100.0
  {
    VisitsAddUp(rows, prev);
    PercentTotalIsShare(CountryBreakdown(Fetched(rows), prev), |rows|);
    ShareOfAll(|rows|);
  }

  /** No page views give no rows, and no percentage is computed. */
  lemma NoViewsNoCountries(prev: seq<CountryData>)
    ensures CountryBreakdown(Fetched([]), prev) == []
  {
    var u := WithShares(Tally.Count(CountryKeys([])), 0);
    assert u == [];
  }

  /**
   * The sort is stable: among countries with equal visits the order is the
   * tally's, which is the order in which the countries first appear.
   */
  lemma TiesKeepFirstSeenOrder(rows: seq<PageView>, prev: seq<CountryData>, visits: int)
    ensures
      var u := WithShares(Tally.Count(CountryKeys(rows)), |rows|);
      && KeyClass(CountryBreakdown(Fetched(rows), prev), Visits, visits) == KeyClass(u, Visits, visits)
      && (forall i :: 0 <= i < |u| ==> u[i].country == Tally.FirstSeen(CountryKeys(rows))[i])
  {
    var t := Tally.Count(CountryKeys(rows));
    var u := WithShares(t, |rows|);
    SortDescCorrect(u, Visits);
    assert Tally.Keys(t) == Tally.FirstSeen(CountryKeys(rows));
  }

  /** The "Total Countries" card. */
  function TotalCountries(r: seq<CountryData>): nat {
    |r|
  }

  /** The "Total Countries" card shows the number of distinct countries among the page views. */
  lemma TotalCountriesIsDistinctCountries(rows: seq<PageView>, prev: seq<CountryData>)
    ensures TotalCountries(CountryBreakdown(Fetched(rows), prev)) == |Tally.FirstSeen(CountryKeys(rows))|
  {
    var t := Tally.Count(CountryKeys(rows));
    var u := WithShares(t, |rows|);
    SortDescCorrect(u, Visits);
    assert |multiset(SortDesc(u, Visits))| == |multiset(u)|;
    assert |Tally.Keys(t)| == |t|;
  }

  /** The "Top Country" card: `countryData[0]?.country || 'N/A'`. */
  function TopCountry(r: seq<CountryData>): (s: string)
    ensures |r| == 0 ==> s == "N/A"
    ensures |r| > 0 && r[0].country != "" ==> s == r[0].country
  {
    if |r| == 0 || r[0].country == "" then "N/A" else r[0].country
  }

  /**
   * Once loaded, the top-country card names a country with the most
   * visits; it reads "N/A" when there were no page views.
   */
  lemma TopCountryIsBusiest(rows: seq<PageView>, prev: seq<CountryData>)
    ensures
      var r := CountryBreakdown(Fetched(rows), prev);
      && (|rows| == 0 ==> TopCountry(r) == "N/A")
      && (|rows| > 0 ==> |r| > 0 && TopCountry(r) == r[0].country && forall x :: x in r ==> x.visits <= r[0].visits)
  {
    var r := CountryBreakdown(Fetched(rows), prev);
    var keys := CountryKeys(rows);
    if |rows| > 0 {
      assert keys[0] in keys;
      NamedHead(r, keys);
    } else {
      NoViewsNoCountries(prev);
    }
  }

  /** A ranked list whose countries are all row keys, and which has one, is headed by a named busiest country. */
  lemma NamedHead(r: seq<CountryData>, keys: seq<string>)
    requires SortedDesc(r, Visits)
    requires |keys| > 0 && forall k :: k in keys <==> exists i :: 0 <= i < |r| && r[i].country == k
    requires forall i :: 0 <= i < |keys| ==> keys[i] != ""
    ensures |r| > 0 && TopCountry(r) == r[0].country
    ensures forall x :: x in r ==> x.visits <= r[0].visits
  {
    assert keys[0] in keys;
    assert r[0].country in keys;
    forall x | x in r ensures x.visits <= r[0].visits {
      var k :| 0 <= k < |r| && r[k] == x;
      assert Visits(r[0]) >= Visits(r[k]);
    }
  }
}

=== FILE: hourly_heatmap.dfy ===
/**
 * The hour-by-weekday heatmap (`fetchHourlyData` and `maxValue` in
 * `components/dashboard/timing/hourly-heatmap.tsx`): a grid of 24 local
 * hours by 7 weekdays, all cells starting at zero, each page view adding
 * one to the cell of its hour and weekday; the largest cell scales the
 * colours.
 *
 * The hour keys "0" .. "23" are integer-like and enumerate ascending; the
 * weekday keys "Sun" .. "Sat" enumerate in insertion order, which is the
 * `getDay()` order. So the grid is `g[hour][weekday]`.
 */
module HourlyHeatmap {
  import opened Wrappers
  import opened Seqs
  import opened Clock
  import opened Rows

  type Grid = seq<seq<nat>>

  /** A grid with 24 rows of 7 cells. */
  predicate Shaped(g: Grid) {
    |g| == 24 && forall h :: 0 <= h < 24 ==> |g[h]| == 7
  }

  /** Page views in local hour `h` on weekday `d` (the labels are `ShortDayNames`). */
  function At(tz: int, h: nat, d: nat): PageView -> bool {
    (v: PageView) => LocalHour(v.createdAt, tz) == h && LocalWeekday(v.createdAt, tz) == d
  }

  /** The initialised structure: every cell of every hour is 0. */
  function ZeroGrid(): (g: Grid)
    ensures Shaped(g)
    ensures forall h, d :: 0 <= h < 24 && 0 <= d < 7 ==> g[h][d] == 0
  {
    seq(24, h => [0, 0, 0, 0, 0, 0, 0])
  }

  /** `hourlyData[hour][day]++`. */
  function Increment(g: Grid, h: nat, d: nat): (r: Grid)
    requires Shaped(g) && h < 24 && d < 7
    ensures Shaped(r)
    ensures forall i, j :: 0 <= i < 24 && 0 <= j < 7 ==>
      r[i][j] == g[i][j] + (if i == h && j == d then 1 else 0)
  {
    g[h := g[h][d := g[h][d] + 1]]
  }

  /** The grid after processing `rows` in order. */
  function Fill(rows: seq<PageView>, tz: int): (g: Grid)
    ensures Shaped(g)
    ensures forall h, d :: 0 <= h < 24 && 0 <= d < 7 ==> g[h][d] == Count(rows, At(tz, h, d))
  {
    if |rows| == 0 then ZeroGrid()
    else
      var v := rows[|rows| - 1];
      Increment(Fill(rows[..|rows| - 1], tz), LocalHour(v.createdAt, tz), LocalWeekday(v.createdAt, tz))
  }

  /**
   * The component's data after the fetch: a failed query keeps the
   * previous data (initially the empty object, `[]` here).
   */
  function HourlyData(views: Fetch<PageView>, tz: int, prev: Grid): (g: Grid)
    ensures views.FetchFailed? ==> g == prev
    ensures views.Fetched? ==>
      && Shaped(g)
      && forall h, d :: 0 <= h < 24 && 0 <= d < 7 ==> g[h][d] == Count(views.rows, At(tz, h, d))
  {
    if views.FetchFailed? then prev else Fill(views.rows, tz)
  }

  /** The sum of all cells. */
  function GridTotal(g: Grid): nat {
    if |g| == 0 then 0 else GridTotal(g[..|g| - 1]) + Total(g[|g| - 1])
  }

  /** Adding one to a single cell adds one to the grid total. */
  lemma {:induction false} IncrementTotal(g: Grid, h: nat, d: nat)
    requires Shaped(g) && h < 24 && d < 7
    ensures GridTotal(Increment(g, h, d)) == GridTotal(g) + 1
  {
    var r := Increment(g, h, d);
    TotalBump(g[h], r[h], d);
    GridTotalBump(g, r, h);
  }

  lemma {:induction false} GridTotalBump(g: Grid, r: Grid, h: nat)
    requires |g| == |r| && h < |g|
    requires forall i :: 0 <= i < |g| && i != h ==> g[i] == r[i]
    requires Total(r[h]) == Total(g[h]) + 1
    ensures GridTotal(r) == GridTotal(g) + 1
  {
    var n := |g| - 1;
    if h < n {
      GridTotalBump(g[..n], r[..n], h);
    } else {
      assert g[..n] == r[..n];
    }
  }

  lemma {:induction false} ZeroGridTotal(g: Grid)
    requires forall h :: 0 <= h < |g| ==> forall d :: 0 <= d < |g[h]| ==> g[h][d] == 0
    ensures GridTotal(g) == 0
  {
    if |g| > 0 {
      ZeroGridTotal(g[..|g| - 1]);
      ZeroTotal(g[|g| - 1]);
    }
  }

  /** Each page view lands in exactly one cell, so the cells add up to the page views. */
  lemma {:induction false} EveryViewInOneCell(rows: seq<PageView>, tz: int)
    ensures GridTotal(Fill(rows, tz)) == |rows|
  {
    if |rows| == 0 {
      ZeroGridTotal(ZeroGrid());
    } else {
      var v := rows[|rows| - 1];
      EveryViewInOneCell(rows[..|rows| - 1], tz);
      IncrementTotal(Fill(rows[..|rows| - 1], tz), LocalHour(v.createdAt, tz), LocalWeekday(v.createdAt, tz));
    }
  }

  /** The cells in display order, hour by hour: `Object.values(data).flatMap(Object.values)`. */
  function Cells(g: Grid): (s: seq<nat>)
    ensures forall h, d :: 0 <= h < |g| && 0 <= d < |g[h]| ==> g[h][d] in s
    ensures forall x :: x in s ==> exists h, d :: 0 <= h < |g| && 0 <= d < |g[h]| && g[h][d] == x
  {
    if |g| == 0 then []
    else
      var s := Cells(g[..|g| - 1]) + g[|g| - 1];
      forall h, d | 0 <= h < |g| && 0 <= d < |g[h]| ensures g[h][d] in s {
        if h < |g| - 1 {
          assert g[..|g| - 1][h] == g[h];
        }
      }
      forall x | x in s ensures exists h, d :: 0 <= h < |g| && 0 <= d < |g[h]| && g[h][d] == x {
        if x in Cells(g[..|g| - 1]) {
          var h, d :| 0 <= h < |g| - 1 && 0 <= d < |g[..|g| - 1][h]| && g[..|g| - 1][h][d] == x;
          assert g[h][d] == x;
        } else {
          var d :| 0 <= d < |g[|g| - 1]| && g[|g| - 1][d] == x;
        }
      }
      s
  }

  /**
   * `Math.max(...values)`: the largest value, or `None` for the empty
   * argument list, where JavaScript gives `-Infinity`.
   */
  function Max(s: seq<nat>): (m: Option<nat>)
    ensures m.None? <==> |s| == 0
    ensures m.Some? ==> m.value in s && forall x :: x in s ==> x <= m.value
  {
    if |s| == 0 then None
    else
      var rest := Max(s[..|s| - 1]);
      var last := s[|s| - 1];
      assert s == s[..|s| - 1] + [last];
      if rest.Some? && rest.value >= last then rest else Some(last)
  }

  /** `maxValue`. */
  function MaxValue(g: Grid): (m: Option<nat>)
    ensures m.Some? ==> exists h, d :: 0 <= h < |g| && 0 <= d < |g[h]| && g[h][d] == m.value
    ensures m.Some? ==> forall h, d :: 0 <= h < |g| && 0 <= d < |g[h]| ==> g[h][d] <= m.value
    ensures m.None? ==> forall h :: 0 <= h < |g| ==> |g[h]| == 0
  {
    if |Cells(g)| == 0 then
      NoCellsNoColumns(g);
      None
    else Max(Cells(g))
  }

  lemma {:induction false} NoCellsNoColumns(g: Grid)
    requires |Cells(g)| == 0
    ensures forall h :: 0 <= h < |g| ==> |g[h]| == 0
  {
    if |g| > 0 {
      var n := |g| - 1;
      assert Cells(g) == Cells(g[..n]) + g[n];
      NoCellsNoColumns(g[..n]);
      assert forall h :: 0 <= h < n ==> g[h] == g[..n][h];
    }
  }

  /** Once loaded, the grid has a largest cell: every cell is at most it and some cell equals it. */
  lemma LoadedHasMax(views: seq<PageView>, tz: int, prev: Grid)
    ensures
      var g := HourlyData(Fetched(views), tz, prev);
      && MaxValue(g).Some?
      && (forall h, d :: 0 <= h < 24 && 0 <= d < 7 ==> g[h][d] <= MaxValue(g).value)
      && (exists h, d :: 0 <= h < 24 && 0 <= d < 7 && g[h][d] == MaxValue(g).value)
  {
    var g := HourlyData(Fetched(views), tz, prev);
    assert |g[0]| > 0;
  }

  /** With no page views every cell is 0, and so is the maximum. */
  lemma NoViewsMaxZero(tz: int, prev: Grid)
    ensures MaxValue(HourlyData(Fetched([]), tz, prev)) == Some(0)
  {
    var g := HourlyData(Fetched([]), tz, prev);
    assert |g[0]| > 0;
  }

  /** Before any successful load the data is empty and the maximum is `-Infinity`. */
  lemma EmptyDataHasNoMax()
    ensures MaxValue([]) == None
  {
  }

  /** The cell a page view lands in is the one of its hour and weekday, and no other. */
  lemma ViewLandsInItsCell(v: PageView, tz: int, h: nat, d: nat)
    requires h < 24 && d < 7
    ensures Count([v], At(tz, h, d)) == 1 <==>
      h == LocalHour(v.createdAt, tz) && d == LocalWeekday(v.createdAt, tz)
  {
    assert [v][..0] == [];
  }
}

=== FILE: image_loader.dfy ===
/**
 * The image loader (`src/lib/image-loader.ts`): outside production the
 * image's own address; in production an address of the host's image
 * service carrying the width, the quality (75 by default) and the fit, and
 * the image's absolute address.
 *
 * The environment (`NODE_ENV`, `NEXT_PUBLIC_SITE_URL`) and
 * `encodeURIComponent` are parameters; widths and qualities are whole
 * numbers.
 */
module ImageLoader {
  import opened Wrappers
  import opened Text

  const DefaultQuality: nat := 75
  const Endpoint: string := "/.netlify/images?"

  /** `quality || 75`: a missing or zero quality means 75. */
  function Quality(quality: Option<int>): (q: int)
    ensures quality.None? || quality.value == 0 ==> q == DefaultQuality
    ensures quality.Some? && quality.value != 0 ==> q == quality.value
  {
    if quality.None? || quality.value == 0 then DefaultQuality else quality.value
  }

  /** A site-relative source is made absolute with the site address, or left relative without one. */
  function TargetUrl(src: string, siteUrl: Option<string>): (u: string)
    ensures StartsWith(src, "/") ==> u == OrElse(siteUrl, "") + src
    ensures !StartsWith(src, "/") ==> u == src
    ensures |src| <= |u|
  {
    if StartsWith(src, "/") then OrElse(siteUrl, "") + src else src
  }

  /**
   * `netlifyImageLoader({ src, width, quality })` under the given
   * environment. The query is `new URLSearchParams({ w, q, fit: 'cover' })`
   * in insertion order, followed by the encoded image address.
   */
  function NetlifyImageLoader(src: string, width: int, quality: Option<int>, nodeEnv: Option<string>,
                              siteUrl: Option<string>, encode: string -> string): (r: string)
    ensures nodeEnv != Some("production") ==> r == src
    ensures nodeEnv == Some("production") ==> StartsWith(r, Endpoint + "w=")
    ensures nodeEnv == Some("production") ==> EndsWith(r, "&url=" + encode(TargetUrl(src, siteUrl)))
  {
    if nodeEnv != Some("production") then src
    else
      var tail := "&url=" + encode(TargetUrl(src, siteUrl));
      var x4 := "&fit=cover" + tail;
      var x3 := IntToString(Quality(quality)) + x4;
      var x2 := "&q=" + x3;
      var x1 := IntToString(width) + x2;
      SuffixOfConcat("&fit=cover", tail, tail);
      SuffixOfConcat(IntToString(Quality(quality)), x4, tail);
      SuffixOfConcat("&q=", x3, tail);
      SuffixOfConcat(IntToString(width), x2, tail);
      SuffixOfConcat("w=", x1, tail);
      SuffixOfConcat(Endpoint, "w=" + x1, tail);
      PrefixOfNested(Endpoint, "w=", x1);
      Endpoint + ("w=" + x1)
  }

  predicate EndsWith(s: string, suffix: string) {
    |suffix| <= |s| && s[|s| - |suffix|..] == suffix
  }

  /** Putting text in front keeps what a string ends with. */
  lemma SuffixOfConcat(a: string, x: string, tail: string)
    requires EndsWith(x, tail)
    ensures EndsWith(a + x, tail)
  {
    assert (a + x)[|a + x| - |tail|..] == x[|x| - |tail|..];
  }

  lemma PrefixOfNested(a: string, b: string, c: string)
    ensures StartsWith(a + (b + c), a + b)
  {
    assert (a + (b + c))[..|a| + |b|] == a + b;
  }

  /** The length of the run of digits `s` starts with. */
  function DigitRun(s: string): (k: nat)
    ensures k <= |s| && AllDigits(s[..k])
    ensures k < |s| ==> !IsDigit(s[k])
  {
    if |s| == 0 || !IsDigit(s[0]) then 0
    else
      var k := 1 + DigitRun(s[1..]);
      assert s[..k] == [s[0]] + s[1..][..k - 1];
      k
  }

  lemma {:induction false} DigitRunOf(digits: string, rest: string)
    requires AllDigits(digits)
    requires |rest| == 0 || !IsDigit(rest[0])
    ensures DigitRun(digits + rest) == |digits|
  {
    if |digits| > 0 {
      assert (digits + rest)[1..] == digits[1..] + rest;
      DigitRunOf(digits[1..], rest);
    }
  }

  /** Reads a non-empty run of digits as a number, and what follows it. */
  function ReadNat(s: string): Option<(nat, string)> {
    var k := DigitRun(s);
    if k == 0 then None else Some((ParseNat(s[..k]), s[k..]))
  }

  /** Reads the literal `lit`, and what follows it. */
  function ReadLiteral(s: string, lit: string): Option<string> {
    if StartsWith(s, lit) then Some(s[|lit|..]) else None
  }

  /** What the image service is asked for. */
  datatype Transform = Transform(width: nat, quality: nat, url: string)

  /** The image service's reading of a production address: width, quality and the encoded image address. */
  function ParseServiceUrl(r: string): Option<Transform> {
    match ReadLiteral(r, Endpoint)
    case None => None
    case Some(s0) =>
    match ReadLiteral(s0, "w=")
    case None => None
    case Some(s1) =>
      match ReadNat(s1)
      case None => None
      case Some((w, s2)) =>
        match ReadLiteral(s2, "&q=")
        case None => None
        case Some(s3) =>
          match ReadNat(s3)
          case None => None
          case Some((q, s4)) =>
            match ReadLiteral(s4, "&fit=cover")
            case None => None
            case Some(s5) =>
              match ReadLiteral(s5, "&url=")
              case None => None
              case Some(url) => Some(Transform(w, q, url))
  }

  lemma ReadNatOf(n: nat, rest: string)
    requires |rest| > 0 && rest[0] == '&'
    ensures ReadNat(NatToString(n) + rest) == Some((n, rest))
  {
    var d := NatToString(n);
    DigitRunOf(d, rest);
    assert (d + rest)[..|d|] == d;
    assert (d + rest)[|d|..] == rest;
  }

  lemma ReadLiteralOf(lit: string, rest: string)
    ensures ReadLiteral(lit + rest, lit) == Some(rest)
  {
    assert (lit + rest)[..|lit|] == lit;
    assert (lit + rest)[|lit|..] == rest;
  }

  /**
   * In production the service reads back exactly the width, the effective
   * quality and the encoded absolute image address the loader was given.
   */
  lemma ServiceReadsBackRequest(src: string, width: nat, quality: Option<int>, siteUrl: Option<string>, encode: string -> string)
    requires Quality(quality) >= 0
    ensures ParseServiceUrl(NetlifyImageLoader(src, width, quality, Some("production"), siteUrl, encode))
      == Some(Transform(width, Quality(quality), encode(TargetUrl(src, siteUrl))))
  {
    var q: nat := Quality(quality);
    var e := encode(TargetUrl(src, siteUrl));
    var s5 := "&url=" + e;
    var s4 := "&fit=cover" + s5;
    var s3 := NatToString(q) + s4;
    var s2 := "&q=" + s3;
    var s1 := NatToString(width) + s2;
    var s0 := "w=" + s1;
    ReadLiteralOf(Endpoint, s0);
    ReadLiteralOf("w=", s1);
    ReadNatOf(width, s2);
    ReadLiteralOf("&q=", s3);
    ReadNatOf(q, s4);
    ReadLiteralOf("&fit=cover", s5);
    ReadLiteralOf("&url=", e);
  }

  /** Leaving the quality out, passing 0, and passing 75 ask for the same image. */
  lemma DefaultQualityIsSeventyFive(src: string, width: int, nodeEnv: Option<string>, siteUrl: Option<string>, encode: string -> string)
    ensures NetlifyImageLoader(src, width, None, nodeEnv, siteUrl, encode)
      == NetlifyImageLoader(src, width, Some(0), nodeEnv, siteUrl, encode)
      == NetlifyImageLoader(src, width, Some(75), nodeEnv, siteUrl, encode)
  {
  }
}

=== FILE: live_visitors.dfy ===
/**
 * The live-visitors list (`components/dashboard/realtime/live-visitors.tsx`):
 * the twenty newest page views, each insert put in front and the list cut
 * back to twenty, with a "time ago" label in minutes or hours.
 */
module LiveVisitors {
  import opened Wrappers
  import opened Text
  import opened Rows
  import Feed

  const Cap: nat := 20

  /** `[newVisit, ...current.slice(0, 19)]`. */
  function OnInsert(current: seq<PageView>, v: PageView): (r: seq<PageView>)
    ensures 0 < |r| <= Cap && r[0] == v
    ensures |current| < Cap ==> r == [v] + current
    ensures |current| >= Cap ==> r == [v] + current[..Cap - 1]
  {
    Feed.PrependDropsOnlyOldest(current, v, Cap);
    Feed.Prepend(current, v, Cap)
  }

  /** The initial query: the twenty newest page views; an error leaves the list as it is. */
  function InitialLoad(rows: Fetch<PageView>, current: seq<PageView>): (r: seq<PageView>)
    ensures rows.FetchFailed? ==> r == current
    ensures rows.Fetched? ==>
      && |r| == (if |rows.rows| < Cap then |rows.rows| else Cap)
      && Feed.NewestFirst(r)
      && multiset(r) <= multiset(rows.rows)
      && (forall x, y :: x in rows.rows && x !in r && y in r ==> x.createdAt <= y.createdAt)
  {
    Feed.Load(rows, current, Cap)
  }

  /**
   * `formatTimeAgo`: under a minute "just now", under an hour the whole
   * minutes, otherwise the whole hours, however many.
   */
  function FormatTimeAgo(now: int, createdAt: int): (r: string)
    ensures var s := Feed.AgeSeconds(now, createdAt);
      && (s < 60 ==> r == "just now")
      && (60 <= s < 3600 ==> exists m: nat :: 1 <= m < 60 && 60 * m <= s < 60 * m + 60 && r == NatToString(m) + "m ago")
      && (3600 <= s ==> exists h: nat :: 1 <= h && 3600 * h <= s < 3600 * h + 3600 && r == NatToString(h) + "h ago")
  {
    var s := Feed.AgeSeconds(now, createdAt);
    if s < 60 then "just now"
    else if s < 3600 then NatToString(s / 60) + "m ago"
    else NatToString(s / 3600) + "h ago"
  }

  /** `visitor.device_type || 'Unknown'`. */
  function DeviceLabel(v: PageView): (s: string)
    ensures Truthy(v.deviceType) ==> s == v.deviceType.value
    ensures !Truthy(v.deviceType) ==> s == "Unknown"
  {
    OrElse(v.deviceType, "Unknown")
  }

  /**
   * Inserts arriving newest last keep the list newest first and never
   * longer than twenty.
   */
  lemma InsertsKeepNewestFirst(current: seq<PageView>, v: PageView)
    requires Feed.NewestFirst(current)
    requires |current| == 0 || v.createdAt >= current[0].createdAt
    ensures Feed.NewestFirst(OnInsert(current, v)) && |OnInsert(current, v)| <= Cap
  {
    Feed.PrependKeepsNewestFirst(current, v, Cap);
  }
}

=== FILE: metrics.dfy ===
/**
 * The overview metrics (`lib/supabase/metrics.ts`) as pure functions of the
 * fetched rows. Every error path returns the neutral value instead of
 * throwing.
 */
module Metrics {
  import opened Wrappers
  import opened Seqs
  import opened Text
  import opened Numbers
  import opened Clock
  import opened Rows
  import opened Store
  import opened Track

  /** Sessions seen within this many milliseconds count as active. */
  const ActiveWindow: nat := 30 * MsPerMinute

  /** `last_seen > now - 30 min` (the `.gt` filter). */
  predicate IsActive(s: Session, now: int) {
    s.lastSeen > now - ActiveWindow
  }

  /** `getTotalVisits`: the number of page-view rows, 0 on error. */
  function TotalVisits(views: Fetch<PageView>): (n: nat)
    ensures views.FetchFailed? ==> n == 0
    ensures views.Fetched? ==> n == |views.rows|
  {
    if views.FetchFailed? then 0 else |views.rows|
  }

  /** `getActiveSessions`: the number of sessions seen in the last 30 minutes, 0 on error. */
  function ActiveSessions(sessions: Fetch<Session>, now: int): (n: nat)
    ensures sessions.FetchFailed? ==> n == 0
    ensures sessions.Fetched? ==> n == |Filter(sessions.rows, s => IsActive(s, now))|
  {
    if sessions.FetchFailed? then 0 else Count(sessions.rows, s => IsActive(s, now))
  }

  /**
   * `getPagesPerSession`: page views divided by sessions, rounded to one
   * decimal, as a whole number of tenths. 0 on either error or with no
   * sessions. Every page view counts, also one whose session is missing.
   */
  function PagesPerSession(views: Fetch<PageView>, sessions: Fetch<Session>): (tenths: nat)
    ensures views.FetchFailed? || sessions.FetchFailed? ==> tenths == 0
    ensures sessions.Fetched? && |sessions.rows| == 0 ==> tenths == 0
    ensures views.Fetched? && sessions.Fetched? && |sessions.rows| > 0 ==>
      var (p, s) := (|views.rows|, |sessions.rows|);
      2 * s * tenths - s <= 20 * p < 2 * s * tenths + s
  {
    if views.FetchFailed? || sessions.FetchFailed? then 0
    else if |sessions.rows| == 0 then 0
    else RoundTenths(|views.rows|, |sessions.rows|)
  }

  function Duration(s: Session): int {
    s.lastSeen - s.firstSeen
  }

  /** Total of all session durations, in milliseconds. */
  function TotalDuration(rows: seq<Session>): int {
    Sum(rows, Duration)
  }

  /**
   * `getAverageDuration`: "0m" on error or with no sessions; "< 1m" when
   * the mean duration is under a minute (negative means included);
   * otherwise the mean in whole minutes, rounded to nearest, then "m".
   */
  function AverageDuration(sessions: Fetch<Session>): (r: string)
    ensures sessions.FetchFailed? ==> r == "0m"
    ensures sessions.Fetched? && |sessions.rows| == 0 ==> r == "0m"
    ensures sessions.Fetched? && |sessions.rows| > 0 ==>
      (r == "< 1m" <==> TotalDuration(sessions.rows) < MsPerMinute * |sessions.rows|)
    ensures sessions.Fetched? && |sessions.rows| > 0 && r != "< 1m" ==>
      var (total, q) := (TotalDuration(sessions.rows), MsPerMinute * |sessions.rows|);
      && |r| >= 2 && r[|r| - 1] == 'm' && AllDigits(r[..|r| - 1])
      && var minutes := ParseNat(r[..|r| - 1]);
         minutes >= 1 && 2 * q * minutes - q <= 2 * total < 2 * q * minutes + q
  {
    if sessions.FetchFailed? || |sessions.rows| == 0 then "0m"
    else
      var total := TotalDuration(sessions.rows);
      var q := MsPerMinute * |sessions.rows|;
      if total < q then "< 1m"
      else
        var minutes := RoundDiv(total, q);
        var r := NatToString(minutes) + "m";
        assert r[..|r| - 1] == NatToString(minutes);
        r
  }

  /** A later clock never counts more sessions as active. */
  lemma ActiveWindowSlides(rows: seq<Session>, earlier: int, later: int)
    requires earlier <= later
    ensures ActiveSessions(Fetched(rows), later) <= ActiveSessions(Fetched(rows), earlier)
  {
    CountMonotone(rows, s => IsActive(s, later), s => IsActive(s, earlier));
  }

  /** The page view a successful `Post` appends, if it appends one. */
  predicate Records(st: Store, req: Request, env: Env) {
    && req.body.Some?
    && !env.insertFails
    && (HasToken(req) || !(env.createFails || HasSession(st, env.freshId)))
  }

  /** One ingestion adds exactly one visit when its insert succeeds, and none otherwise. */
  lemma IngestCountsOneVisit(st: Store, req: Request, env: Env)
    ensures TotalVisits(Fetched(Post(st, req, env).store.views))
      == TotalVisits(Fetched(st.views)) + (if Records(st, req, env) then 1 else 0)
  {
  }

  /**
   * One ingestion at clock `now` changes the number of sessions active at
   * `now` by at most one: a created session is active, and a touched session
   * becomes active if it was not.
   */
  lemma {:induction false} IngestActivity(st: Store, req: Request, env: Env)
    requires Valid(st)
    ensures
      var before := ActiveSessions(Fetched(st.sessions), env.now);
      var after := ActiveSessions(Fetched(Post(st, req, env).store.sessions), env.now);
      after == before + (if Created(st, req, env) || Reactivated(st, req, env) then 1 else 0)
  {
    var o := Post(st, req, env);
    var p := (s: Session) => IsActive(s, env.now);
    if req.body.Some? && !HasToken(req) && !(env.createFails || HasSession(st, env.freshId)) {
      CountAppend(st.sessions, [Session(env.freshId, env.now, env.now)], p);
    } else if HasToken(req) {
      var sid := req.body.value.sessionId.value;
      if HasSession(st, sid) && !env.touchFails {
        var k := IndexOf(st.sessions, sid);
        assert forall i :: 0 <= i < |st.sessions| && i != k ==> o.store.sessions[i] == st.sessions[i] by {
          forall i | 0 <= i < |st.sessions| && i != k
            ensures o.store.sessions[i] == st.sessions[i]
          {
            assert Ids(st.sessions)[i] != Ids(st.sessions)[k];
          }
        }
        CountPointwise(st.sessions, o.store.sessions, k, p);
      }
    }
  }

  predicate Created(st: Store, req: Request, env: Env) {
    req.body.Some? && !HasToken(req) && !(env.createFails || HasSession(st, env.freshId))
  }

  /** The token's session exists, was inactive, and the touch succeeds. */
  predicate Reactivated(st: Store, req: Request, env: Env) {
    && HasToken(req)
    && HasSession(st, req.body.value.sessionId.value)
    && !env.touchFails
    && !IsActive(st.sessions[IndexOf(st.sessions, req.body.value.sessionId.value)], env.now)
  }

  /**
   * The two-call example: a token-less call for "/home" at `t0` mints "u";
   * a call carrying "u" for "/pricing" at `t1 > t0` touches it. Afterwards
   * the session spans `t0`..`t1`, both page views belong to it, there are 2
   * visits, and pages per session reads 2.0.
   */
  lemma TwoCallExample(t0: int, t1: int, referrer: Option<string>)
    requires t0 < t1
    ensures
      var req1 := Request(Some(Body(None, "/home", referrer)), None, None);
      var o1 := Post(Empty, req1, Env(t0, "u", false, false, false));
      var req2 := Request(Some(Body(Some("u"), "/pricing", referrer)), None, None);
      var o2 := Post(o1.store, req2, Env(t1, "x", false, false, false));
      && o1.response == Tracked("u")
      && o2.response == Tracked("u")
      && o2.store.sessions == [Session("u", t0, t1)]
      && |o2.store.views| == 2
      && o2.store.views[0].sessionId == "u" && o2.store.views[1].sessionId == "u"
      && TotalVisits(Fetched(o2.store.views)) == 2
      && PagesPerSession(Fetched(o2.store.views), Fetched(o2.store.sessions)) == 20
  {
    var req1 := Request(Some(Body(None, "/home", referrer)), None, None);
    var o1 := Post(Empty, req1, Env(t0, "u", false, false, false));
    FirstCallMints(t0, referrer);
    SecondCallTouches(o1.store, t0, t1, referrer);
    RoundDivUnique(20, 1, 20);
  }

  /** The first call of the example creates session "u" and one page view under it. */
  lemma FirstCallMints(t0: int, referrer: Option<string>)
    ensures
      var o1 := Post(Empty, Request(Some(Body(None, "/home", referrer)), None, None), Env(t0, "u", false, false, false));
      && o1.response == Tracked("u")
      && o1.store.sessions == [Session("u", t0, t0)]
      && |o1.store.views| == 1 && o1.store.views[0].sessionId == "u"
  {
  }

  /** The second call of the example touches "u" and adds a second page view under it. */
  lemma SecondCallTouches(st: Store, t0: int, t1: int, referrer: Option<string>)
    requires st.sessions == [Session("u", t0, t0)]
    requires |st.views| == 1 && st.views[0].sessionId == "u"
    ensures
      var o2 := Post(st, Request(Some(Body(Some("u"), "/pricing", referrer)), None, None), Env(t1, "x", false, false, false));
      && o2.response == Tracked("u")
      && o2.store.sessions == [Session("u", t0, t1)]
      && |o2.store.views| == 2
      && o2.store.views[0].sessionId == "u" && o2.store.views[1].sessionId == "u"
  {
    assert HasSession(st, "u") by {
      assert Ids(st.sessions)[0] == "u";
    }
    var touched := UpdateSessionLastSeen(st, "u", t1, false);
    assert touched.store.sessions[0] == Session("u", t0, t1);
  }
}

=== FILE: numbers.dfy ===
/**
 * Integer renderings of the source's floating-point roundings. Every
 * quotient in the source divides two integers (row counts, millisecond
 * differences), so each rounding below is exact rational arithmetic.
 */
module Numbers {
  import opened Text

  /**
   * `Math.round(p / q)` for `q > 0`: the integer nearest to `p / q`, with an
   * exact half rounded towards +infinity (as JavaScript does, also for
   * negative quotients).
   */
  function RoundDiv(p: int, q: int): (r: int)
    requires q > 0
    ensures 2 * q * r - q <= 2 * p < 2 * q * r + q
  {
    var r := (2 * p + q) / (2 * q);
    assert 2 * q * r <= 2 * p + q < 2 * q * r + 2 * q by {
      DivBounds(2 * p + q, 2 * q);
    }
    r
  }

  /** `Math.floor(p / q)` for `q > 0`. */
  function FloorDiv(p: int, q: int): (r: int)
    requires q > 0
    ensures q * r <= p < q * r + q
  {
    DivBounds(p, q);
    p / q
  }

  lemma DivBounds(a: int, b: int)
    requires b > 0
    ensures b * (a / b) <= a < b * (a / b) + b
  {
  }

  lemma MulMonotone(a: int, b: int, c: int)
    requires a > 0 && b <= c
    ensures a * b <= a * c
  {
    assert a * c - a * b == a * (c - b);
  }

  /** The rounding is unique: only one integer is nearest with halves up. */
  lemma RoundDivUnique(p: int, q: int, r: int)
    requires q > 0
    requires 2 * q * r - q <= 2 * p < 2 * q * r + q
    ensures r == RoundDiv(p, q)
  {
    var k := RoundDiv(p, q);
    if r < k {
      MulMonotone(2 * q, r + 1, k);
    } else if r > k {
      MulMonotone(2 * q, k + 1, r);
    }
  }

  /** `(p / q).toFixed(1)` for `p >= 0`, `q > 0`, read as a whole number of tenths. */
  function RoundTenths(p: nat, q: nat): (t: nat)
    requires q > 0
    ensures 2 * q * t - q <= 20 * p < 2 * q * t + q
  {
    RoundDiv(10 * p, q)
  }

  /** The text of a number of tenths with exactly one decimal: 1005 renders "100.5". */
  function TenthsToString(t: nat): string
  {
    NatToString(t / 10) + "." + [DigitChar(t % 10)]
  }
}

=== FILE: realtime_page.dfy ===
/**
 * The realtime cards (`fetchRealtimeMetrics` in
 * `app/dashboard/realtime/page.tsx`): sessions seen in the last thirty
 * minutes, page views in the last minute, and a fixed average page time.
 * Each count is an exact-count head query; a failed query reports no
 * count, shown as 0.
 */
module Realtime {
  import opened Seqs
  import opened Clock
  import opened Rows
  import Metrics
  import ActivePages

  datatype RealtimeMetrics = RealtimeMetrics(activeVisitors: nat, pagesLastMinute: nat, averagePageTime: string)

  /** The values shown before the first load. */
  const Initial := RealtimeMetrics(0, 0, "0s")

  const ActiveWindow: nat := 30 * MsPerMinute
  const MinuteWindow: nat := 60 * MsPerSecond

  /** `.gt('last_seen', thirtyMinutesAgo)`. */
  function SeenSince(start: int): Session -> bool {
    (s: Session) => s.lastSeen > start
  }

  /** `.gt('created_at', oneMinuteAgo)`. */
  function ViewedSince(start: int): PageView -> bool {
    (v: PageView) => v.createdAt > start
  }

  /** `count || 0` for a head query filtered by `p`. */
  function CountOrZero<T>(rows: Fetch<T>, p: T -> bool): (n: nat)
    ensures rows.FetchFailed? ==> n == 0
    ensures rows.Fetched? ==> n == |Filter(rows.rows, p)|
  {
    if rows.FetchFailed? then 0 else Count(rows.rows, p)
  }

  /** The three cards after one poll at clock `now`. */
  function FetchRealtimeMetrics(sessions: Fetch<Session>, views: Fetch<PageView>, now: int): (m: RealtimeMetrics)
    ensures sessions.FetchFailed? ==> m.activeVisitors == 0
    ensures sessions.Fetched? ==>
      m.activeVisitors == |Filter(sessions.rows, SeenSince(now - ActiveWindow))|
    ensures views.FetchFailed? ==> m.pagesLastMinute == 0
    ensures views.Fetched? ==>
      m.pagesLastMinute == |Filter(views.rows, ViewedSince(now - MinuteWindow))|
    ensures m.averagePageTime == "45s"
  {
    RealtimeMetrics(
      CountOrZero(sessions, SeenSince(now - ActiveWindow)),
      CountOrZero(views, ViewedSince(now - MinuteWindow)),
      "45s")
  }

  /** The "Active Visitors" card agrees with the overview's active-session count. */
  lemma AgreesWithOverview(sessions: Fetch<Session>, views: Fetch<PageView>, now: int)
    ensures FetchRealtimeMetrics(sessions, views, now).activeVisitors == Metrics.ActiveSessions(sessions, now)
  {
    if sessions.Fetched? {
      CountCongruent(sessions.rows, SeenSince(now - ActiveWindow), s => Metrics.IsActive(s, now));
    }
  }

  /**
   * Every page view of the last minute is also in the active-pages window,
   * so the per-minute card never exceeds the page views behind that list.
   */
  lemma LastMinuteWithinActiveWindow(views: seq<PageView>, sessions: Fetch<Session>, now: int)
    ensures FetchRealtimeMetrics(sessions, Fetched(views), now).pagesLastMinute <= Count(views, ActivePages.InWindow(now))
  {
    CountMonotone(views, ViewedSince(now - MinuteWindow), ActivePages.InWindow(now));
  }
}

=== FILE: recent_visitors.dfy ===
/**
 * The recent-visitors list (`components/dashboard/recent-visitors.tsx`):
 * the ten newest page views with a device icon, a shortened path, a
 * "time ago" label that goes up to days, and the country, device and
 * referrer labels.
 */
module RecentVisitors {
  import opened Wrappers
  import opened Text
  import opened Rows
  import Feed
  import Track
  import LiveVisitors

  const Cap: nat := 10

  /** `[newVisit, ...current.slice(0, 9)]`. */
  function OnInsert(current: seq<PageView>, v: PageView): (r: seq<PageView>)
    ensures 0 < |r| <= Cap && r[0] == v
    ensures |current| < Cap ==> r == [v] + current
    ensures |current| >= Cap ==> r == [v] + current[..Cap - 1]
  {
    Feed.PrependDropsOnlyOldest(current, v, Cap);
    Feed.Prepend(current, v, Cap)
  }

  /**
   * The initial query: the ten newest page views (`data || []`); a thrown
   * error leaves the list as it is.
   */
  function InitialLoad(rows: Fetch<PageView>, current: seq<PageView>): (r: seq<PageView>)
    ensures rows.FetchFailed? ==> r == current
    ensures rows.Fetched? ==>
      && |r| == (if |rows.rows| < Cap then |rows.rows| else Cap)
      && Feed.NewestFirst(r)
      && multiset(r) <= multiset(rows.rows)
      && (forall x, y :: x in rows.rows && x !in r && y in r ==> x.createdAt <= y.createdAt)
  {
    Feed.Load(rows, current, Cap)
  }

  datatype DeviceIcon = Smartphone | Tablet | Monitor

  /** `getDeviceIcon`: switch on `deviceType?.toLowerCase()`, the monitor by default. */
  function GetDeviceIcon(deviceType: Option<string>): (i: DeviceIcon)
    ensures i == Smartphone <==> deviceType.Some? && Lower(deviceType.value) == "mobile"
    ensures i == Tablet <==> deviceType.Some? && Lower(deviceType.value) == "tablet"
  {
    if deviceType.None? then Monitor
    else if Lower(deviceType.value) == "mobile" then Smartphone
    else if Lower(deviceType.value) == "tablet" then Tablet
    else Monitor
  }

  /** The icon of a page view whose device type the collector classified matches that class. */
  lemma IconMatchesCollectorClass(userAgent: string)
    ensures var d := Track.GetDeviceType(userAgent);
      && (d == "mobile" ==> GetDeviceIcon(Some(d)) == Smartphone)
      && (d == "tablet" ==> GetDeviceIcon(Some(d)) == Tablet)
      && (d == "desktop" ==> GetDeviceIcon(Some(d)) == Monitor)
  {
    assert Lower("mobile") == "mobile";
    assert Lower("tablet") == "tablet";
    assert Lower("desktop") == "desktop";
  }

  /**
   * `formatTimeAgo`: under a minute "just now", then whole minutes, whole
   * hours under a day, and whole days beyond.
   */
  function FormatTimeAgo(now: int, createdAt: int): (r: string)
    ensures var s := Feed.AgeSeconds(now, createdAt);
      && (s < 60 ==> r == "just now")
      && (60 <= s < 3600 ==> exists m: nat :: 1 <= m < 60 && 60 * m <= s < 60 * m + 60 && r == NatToString(m) + "m ago")
      && (3600 <= s < 86400 ==> exists h: nat :: 1 <= h < 24 && 3600 * h <= s < 3600 * h + 3600 && r == NatToString(h) + "h ago")
      && (86400 <= s ==> exists d: nat :: 1 <= d && 86400 * d <= s < 86400 * d + 86400 && r == NatToString(d) + "d ago")
  {
    var s := Feed.AgeSeconds(now, createdAt);
    if s < 60 then "just now"
    else if s < 3600 then NatToString(s / 60) + "m ago"
    else if s < 86400 then NatToString(s / 3600) + "h ago"
    else NatToString(s / 86400) + "d ago"
  }

  /**
   * The two lists label a page view alike for a day; from then on this one
   * counts days where the live list keeps counting hours.
   */
  lemma AgreesWithLiveListForADay(now: int, createdAt: int)
    ensures Feed.AgeSeconds(now, createdAt) < 86400 ==>
      FormatTimeAgo(now, createdAt) == LiveVisitors.FormatTimeAgo(now, createdAt)
    ensures Feed.AgeSeconds(now, createdAt) == 86400 ==>
      FormatTimeAgo(now, createdAt) == "1d ago" && LiveVisitors.FormatTimeAgo(now, createdAt) == "24h ago"
  {
    if Feed.AgeSeconds(now, createdAt) == 86400 {
      assert NatToString(1) == "1";
      assert NatToString(24) == NatToString(2) + "4";
    }
  }

  /** Whether a string begins or ends with a slash. */
  predicate Slashed(s: string) {
    |s| > 0 && (s[0] == '/' || s[|s| - 1] == '/')
  }

  predicate AllSlashes(s: string) {
    forall i :: 0 <= i < |s| ==> s[i] == '/'
  }

  /** Removes the leading run of slashes. */
  function StripLeading(s: string): (r: string)
    ensures |r| <= |s| && r == s[|s| - |r|..]
    ensures AllSlashes(s[..|s| - |r|])
    ensures r == [] || r[0] != '/'
    decreases |s|
  {
    if |s| > 0 && s[0] == '/' then
      var r := StripLeading(s[1..]);
      assert s[1..][..|s| - 1 - |r|] == s[1..|s| - |r|];
      r
    else
      s
  }

  /** Removes the trailing run of slashes. */
  function StripTrailing(s: string): (r: string)
    ensures |r| <= |s| && r == s[..|r|]
    ensures AllSlashes(s[|r|..])
    ensures r == [] || r[|r| - 1] != '/'
    decreases |s|
  {
    if |s| > 0 && s[|s| - 1] == '/' then
      var n := |s| - 1;
      var r := StripTrailing(s[..n]);
      assert s[|r|..] == s[..n][|r|..] + [s[n]];
      r
    else
      s
  }

  /**
   * `path.replace(/^\/+|\/+$/g, '')`: the path between its leading and its
   * trailing run of slashes.
   */
  function Clean(path: string): (r: string)
    ensures !Slashed(r)
  {
    var l := StripLeading(path);
    var r := StripTrailing(l);
    assert r != [] ==> r[0] == l[0];
    r
  }

  /** The cleaned path is the part of the path between two runs of slashes. */
  lemma CleanIsInterior(path: string)
    ensures exists i, j :: 0 <= i <= j <= |path| && AllSlashes(path[..i]) && AllSlashes(path[j..]) && Clean(path) == path[i..j]
  {
    var l := StripLeading(path);
    var r := StripTrailing(l);
    var i := |path| - |l|;
    var j := i + |r|;
    assert path[j..] == l[|r|..];
    assert r == path[i..j];
  }

  /** A path with no slash at either end is left as it is. */
  lemma {:induction false} CleanKeepsUnslashed(s: string)
    requires !Slashed(s)
    ensures Clean(s) == s
  {
    assert StripLeading(s) == s;
    if |s| > 0 {
      assert s[|s| - 1] != '/';
    }
    assert StripTrailing(s) == s;
  }

  const MaxPathLength: nat := 30

  /**
   * `formatPath`: the path without its outer slashes, "/" when nothing is
   * left, and cut to 27 characters plus "..." when longer than thirty.
   */
  function FormatPath(path: string): (r: string)
    ensures 0 < |r| <= MaxPathLength
    ensures r == "/" <==> Clean(path) == ""
    ensures 0 < |Clean(path)| <= MaxPathLength ==> r == Clean(path)
    ensures |Clean(path)| > MaxPathLength ==> r == Clean(path)[..27] + "..."
  {
    var c := Clean(path);
    if c == "" then "/"
    else if |c| > MaxPathLength then c[..27] + "..."
    else
      assert c[0] != '/';
      c
  }

  /** Formatting a formatted path changes nothing. */
  lemma FormatPathIdempotent(path: string)
    ensures FormatPath(FormatPath(path)) == FormatPath(path)
  {
    var c := Clean(path);
    var r := FormatPath(path);
    if c == "" {
      assert Clean("/") == "";
    } else {
      assert r[0] == c[0];
      assert !Slashed(r);
      CleanKeepsUnslashed(r);
    }
  }

  /** `visit.device_type || 'Unknown device'`. */
  function DeviceLabel(v: PageView): (s: string)
    ensures Truthy(v.deviceType) ==> s == v.deviceType.value
    ensures !Truthy(v.deviceType) ==> s == "Unknown device"
  {
    OrElse(v.deviceType, "Unknown device")
  }

  /** `visit.referrer && ... from {visit.referrer}`: shown only for a non-empty referrer. */
  function ReferrerLabel(v: PageView): (s: Option<string>)
    ensures s.Some? <==> Truthy(v.referrer)
    ensures s.Some? ==> s.value == "from " + v.referrer.value
  {
    if Truthy(v.referrer) then Some("from " + v.referrer.value) else None
  }
}

=== FILE: rows.dfy ===
/**
 * The two relations of the event store and their insert and update shapes.
 * Timestamps are integer milliseconds; every nullable column is an `Option`.
 */
module Rows {
  import opened Wrappers

  /** A row of `pageviews`. `id` and `createdAt` are assigned by the store. */
  datatype PageView = PageView(
    id: nat,
    sessionId: string,
    pageUrl: string,
    referrer: Option<string>,
    userAgent: Option<string>,
    country: Option<string>,
    deviceType: Option<string>,
    createdAt: int)

  /** A row of `sessions`. */
  datatype Session = Session(id: string, firstSeen: int, lastSeen: int)

  /** What a caller may insert into `pageviews`: every column except `id` and `created_at`. */
  datatype PageViewInsert = PageViewInsert(
    sessionId: string,
    pageUrl: string,
    referrer: Option<string>,
    userAgent: Option<string>,
    country: Option<string>,
    deviceType: Option<string>)

  /** What a caller may insert into `sessions`: only the `id`. */
  datatype SessionInsert = SessionInsert(id: string)

  /**
   * A partial update of `pageviews`: `None` leaves a column alone; there is
   * no `id` column to set. Nullable columns take an `Option` as new value.
   */
  datatype PageViewUpdate = PageViewUpdate(
    sessionId: Option<string>,
    pageUrl: Option<string>,
    referrer: Option<Option<string>>,
    userAgent: Option<Option<string>>,
    country: Option<Option<string>>,
    deviceType: Option<Option<string>>,
    createdAt: Option<int>)

  /** A partial update of `sessions`: there is no `id` column to set. */
  datatype SessionUpdate = SessionUpdate(firstSeen: Option<int>, lastSeen: Option<int>)

  /** Result of a row query: the rows, or the error the client reported. */
  datatype Fetch<T> = Fetched(rows: seq<T>) | FetchFailed

  /** The stored row for an insert, once the store has chosen `id` and `created_at`. */
  function Stored(ins: PageViewInsert, id: nat, createdAt: int): PageView {
    PageView(id, ins.sessionId, ins.pageUrl, ins.referrer, ins.userAgent,
             ins.country, ins.deviceType, createdAt)
  }

  /** The caller-supplied part of a stored row. */
  function Supplied(v: PageView): PageViewInsert {
    PageViewInsert(v.sessionId, v.pageUrl, v.referrer, v.userAgent, v.country, v.deviceType)
  }

  /** A stored row is exactly its insert plus the two store-assigned columns. */
  lemma StoredRoundTrip(ins: PageViewInsert, id: nat, createdAt: int, v: PageView)
    ensures Supplied(Stored(ins, id, createdAt)) == ins
    ensures Stored(ins, id, createdAt).id == id
    ensures Stored(ins, id, createdAt).createdAt == createdAt
    ensures Stored(Supplied(v), v.id, v.createdAt) == v
  {
  }

  /**
   * `update(u)` on one row: every column the update sets takes the given
   * value, every other column keeps its value, and `id` never changes.
   */
  function ApplyPageViewUpdate(v: PageView, u: PageViewUpdate): (w: PageView)
    ensures w.id == v.id
    ensures u.sessionId.Some? ==> w.sessionId == u.sessionId.value
    ensures u.sessionId.None? ==> w.sessionId == v.sessionId
    ensures u.pageUrl.Some? ==> w.pageUrl == u.pageUrl.value
    ensures u.pageUrl.None? ==> w.pageUrl == v.pageUrl
    ensures u.referrer.Some? ==> w.referrer == u.referrer.value
    ensures u.referrer.None? ==> w.referrer == v.referrer
    ensures u.userAgent.Some? ==> w.userAgent == u.userAgent.value
    ensures u.userAgent.None? ==> w.userAgent == v.userAgent
    ensures u.country.Some? ==> w.country == u.country.value
    ensures u.country.None? ==> w.country == v.country
    ensures u.deviceType.Some? ==> w.deviceType == u.deviceType.value
    ensures u.deviceType.None? ==> w.deviceType == v.deviceType
    ensures u.createdAt.Some? ==> w.createdAt == u.createdAt.value
    ensures u.createdAt.None? ==> w.createdAt == v.createdAt
  {
    PageView(
      v.id,
      u.sessionId.GetOr(v.sessionId),
      u.pageUrl.GetOr(v.pageUrl),
      u.referrer.GetOr(v.referrer),
      u.userAgent.GetOr(v.userAgent),
      u.country.GetOr(v.country),
      u.deviceType.GetOr(v.deviceType),
      u.createdAt.GetOr(v.createdAt))
  }

  /** `update(u)` on one session: set columns take the given value, the rest are kept. */
  function ApplySessionUpdate(s: Session, u: SessionUpdate): (t: Session)
    ensures t.id == s.id
    ensures u.firstSeen.Some? ==> t.firstSeen == u.firstSeen.value
    ensures u.firstSeen.None? ==> t.firstSeen == s.firstSeen
    ensures u.lastSeen.Some? ==> t.lastSeen == u.lastSeen.value
    ensures u.lastSeen.None? ==> t.lastSeen == s.lastSeen
  {
    Session(s.id, u.firstSeen.GetOr(s.firstSeen), u.lastSeen.GetOr(s.lastSeen))
  }

  /** No update of either table can change a row's identity. */
  lemma UpdatesKeepIdentity(v: PageView, u: PageViewUpdate, s: Session, w: SessionUpdate)
    ensures ApplyPageViewUpdate(v, u).id == v.id
    ensures ApplySessionUpdate(s, w).id == s.id
    ensures ApplyPageViewUpdate(v, PageViewUpdate(None, None, None, None, None, None, None)) == v
    ensures ApplySessionUpdate(s, SessionUpdate(None, None)) == s
  {
  }

  /**
   * An update states the new values, not a change: applying it a second
   * time changes nothing, and an update setting every column to a row's
   * own values leaves that row as it is.
   */
  lemma UpdatesIdempotent(v: PageView, u: PageViewUpdate, s: Session, w: SessionUpdate)
    ensures ApplyPageViewUpdate(ApplyPageViewUpdate(v, u), u) == ApplyPageViewUpdate(v, u)
    ensures ApplySessionUpdate(ApplySessionUpdate(s, w), w) == ApplySessionUpdate(s, w)
    ensures ApplyPageViewUpdate(v, PageViewUpdate(Some(v.sessionId), Some(v.pageUrl), Some(v.referrer),
              Some(v.userAgent), Some(v.country), Some(v.deviceType), Some(v.createdAt))) == v
    ensures ApplySessionUpdate(s, SessionUpdate(Some(s.firstSeen), Some(s.lastSeen))) == s
  {
  }
}

=== FILE: seqs.dfy ===
/**
 * Folds over row sequences shared by every aggregation: counting,
 * filtering, summing, truncating. Each fold recurses on the LAST element,
 * so that "one more row arrives" is a single unfolding step.
 */
module Seqs {

  /** Number of elements of `s` satisfying `p` (`rows.filter(p).length`). */
  function Count<T>(s: seq<T>, p: T -> bool): (n: nat)
    ensures n <= |s|
  {
    if |s| == 0 then 0
    else Count(s[..|s| - 1], p) + (if p(s[|s| - 1]) then 1 else 0)
  }

  /** The elements of `s` satisfying `p`, in their original order. */
  function Filter<T>(s: seq<T>, p: T -> bool): (r: seq<T>)
    ensures |r| == Count(s, p)
    ensures forall x :: x in r ==> x in s && p(x)
  {
    if |s| == 0 then []
    else Filter(s[..|s| - 1], p) + (if p(s[|s| - 1]) then [s[|s| - 1]] else [])
  }

  /** Sum of `f` over `s` (`rows.reduce((a, x) => a + f(x), 0)`). */
  function Sum<T>(s: seq<T>, f: T -> int): int
  {
    if |s| == 0 then 0 else Sum(s[..|s| - 1], f) + f(s[|s| - 1])
  }

  /** Number of positions of `s` holding `x`. */
  function Occurrences<T(==)>(s: seq<T>, x: T): (n: nat)
    ensures n <= |s|
    ensures n > 0 <==> x in s
  {
    if |s| == 0 then 0
    else Occurrences(s[..|s| - 1], x) + (if s[|s| - 1] == x then 1 else 0)
  }

  /** `s.slice(0, n)`: the first `n` elements, or all of them when fewer. */
  function Take<T>(s: seq<T>, n: nat): (r: seq<T>)
    ensures |r| <= n && |r| <= |s|
    ensures |s| <= n ==> r == s
    ensures r == s[..|r|]
  {
    if |s| <= n then s else s[..n]
  }

  /** `a` is an initial segment of `b`. */
  predicate IsPrefix<T(==)>(a: seq<T>, b: seq<T>) {
    |a| <= |b| && b[..|a|] == a
  }

  /** No value appears twice. */
  predicate Distinct<T(==)>(s: seq<T>) {
    forall i, j :: 0 <= i < j < |s| ==> s[i] != s[j]
  }

  function ToSet<T>(s: seq<T>): set<T> {
    set x | x in s
  }

  lemma {:induction false} CountAppend<T>(a: seq<T>, b: seq<T>, p: T -> bool)
    ensures Count(a + b, p) == Count(a, p) + Count(b, p)
    decreases |b|
  {
    if |b| == 0 {
      assert a + b == a;
    } else {
      var b' := b[..|b| - 1];
      assert (a + b)[..|a + b| - 1] == a + b';
      CountAppend(a, b', p);
    }
  }

  lemma {:induction false} FilterAppend<T>(a: seq<T>, b: seq<T>, p: T -> bool)
    ensures Filter(a + b, p) == Filter(a, p) + Filter(b, p)
    decreases |b|
  {
    if |b| == 0 {
      assert a + b == a;
    } else {
      var b' := b[..|b| - 1];
      assert (a + b)[..|a + b| - 1] == a + b';
      FilterAppend(a, b', p);
    }
  }

  lemma {:induction false} SumAppend<T>(a: seq<T>, b: seq<T>, f: T -> int)
    ensures Sum(a + b, f) == Sum(a, f) + Sum(b, f)
    decreases |b|
  {
    if |b| == 0 {
      assert a + b == a;
    } else {
      var b' := b[..|b| - 1];
      assert (a + b)[..|a + b| - 1] == a + b';
      SumAppend(a, b', f);
    }
  }

  lemma {:induction false} OccurrencesAppend<T>(a: seq<T>, b: seq<T>, x: T)
    ensures Occurrences(a + b, x) == Occurrences(a, x) + Occurrences(b, x)
    decreases |b|
  {
    if |b| == 0 {
      assert a + b == a;
    } else {
      var b' := b[..|b| - 1];
      assert (a + b)[..|a + b| - 1] == a + b';
      OccurrencesAppend(a, b', x);
    }
  }

  /** Counting a predicate that holds everywhere counts every element. */
  lemma {:induction false} CountAll<T>(s: seq<T>, p: T -> bool)
    requires forall x :: x in s ==> p(x)
    ensures Count(s, p) == |s|
  {
    if |s| > 0 {
      assert forall x :: x in s[..|s| - 1] ==> x in s;
      CountAll(s[..|s| - 1], p);
    }
  }

  /** Counting a predicate that holds nowhere gives zero. */
  lemma {:induction false} CountNone<T>(s: seq<T>, p: T -> bool)
    requires forall x :: x in s ==> !p(x)
    ensures Count(s, p) == 0
  {
    if |s| > 0 {
      assert forall x :: x in s[..|s| - 1] ==> x in s;
      CountNone(s[..|s| - 1], p);
    }
  }

  /** Counting is monotone in the predicate. */
  lemma {:induction false} CountMonotone<T>(s: seq<T>, p: T -> bool, q: T -> bool)
    requires forall x :: x in s && p(x) ==> q(x)
    ensures Count(s, p) <= Count(s, q)
  {
    if |s| > 0 {
      assert forall x :: x in s[..|s| - 1] ==> x in s;
      CountMonotone(s[..|s| - 1], p, q);
    }
  }

  /** Two predicates that agree on `s` count the same. */
  lemma {:induction false} CountCongruent<T>(s: seq<T>, p: T -> bool, q: T -> bool)
    requires forall x :: x in s ==> (p(x) <==> q(x))
    ensures Count(s, p) == Count(s, q)
  {
    CountMonotone(s, p, q);
    CountMonotone(s, q, p);
  }

  /** A duplicate-free sequence has as many distinct values as positions. */
  lemma {:induction false} DistinctCardinality<T>(s: seq<T>)
    requires Distinct(s)
    ensures |ToSet(s)| == |s|
  {
    if |s| > 0 {
      var s' := s[..|s| - 1];
      var x := s[|s| - 1];
      assert Distinct(s');
      DistinctCardinality(s');
      assert x !in ToSet(s');
      assert ToSet(s) == ToSet(s') + {x};
    }
  }

  /**
   * Changing one position of a sequence changes a count only by what that
   * position contributes before and after.
   */
  lemma {:induction false} CountPointwise<T>(a: seq<T>, b: seq<T>, k: nat, p: T -> bool)
    requires |a| == |b| && k < |a|
    requires forall i :: 0 <= i < |a| && i != k ==> (p(a[i]) <==> p(b[i]))
    ensures Count(b, p) + (if p(a[k]) then 1 else 0) == Count(a, p) + (if p(b[k]) then 1 else 0)
  {
    var n := |a| - 1;
    if n == k {
      CountCongruentPrefix(a[..n], b[..n], p);
    } else {
      CountPointwise(a[..n], b[..n], k, p);
    }
  }

  lemma {:induction false} CountCongruentPrefix<T>(a: seq<T>, b: seq<T>, p: T -> bool)
    requires |a| == |b|
    requires forall i :: 0 <= i < |a| ==> (p(a[i]) <==> p(b[i]))
    ensures Count(a, p) == Count(b, p)
  {
    if |a| > 0 {
      CountCongruentPrefix(a[..|a| - 1], b[..|b| - 1], p);
    }
  }

  /** Whether `x` falls in bucket `i` of the classifier `c`. */
  function InBucket<T>(c: T -> nat, i: nat): T -> bool {
    x => c(x) == i
  }

  /** Per-bucket counts of the classifier `c` over buckets `0 .. k - 1`. */
  function Histogram<T>(s: seq<T>, c: T -> nat, k: nat): (h: seq<nat>)
    ensures |h| == k
    ensures forall i :: 0 <= i < k ==> h[i] == Count(s, InBucket(c, i))
  {
    seq(k, i requires 0 <= i < k => Count(s, InBucket(c, i)))
  }

  /** Sum of a sequence of naturals. */
  function Total(s: seq<nat>): nat {
    if |s| == 0 then 0 else Total(s[..|s| - 1]) + s[|s| - 1]
  }

  /** Raising one entry by one raises the total by one. */
  lemma {:induction false} TotalBump(a: seq<nat>, b: seq<nat>, j: nat)
    requires |a| == |b| && j < |a|
    requires forall i :: 0 <= i < |a| && i != j ==> a[i] == b[i]
    requires b[j] == a[j] + 1
    ensures Total(b) == Total(a) + 1
  {
    var n := |a| - 1;
    if n == j {
      assert a[..n] == b[..n];
    } else {
      TotalBump(a[..n], b[..n], j);
    }
  }

  /**
   * Conservation: when the classifier sends every element to one of the
   * `k` buckets, the bucket counts add up to the number of elements.
   */
  lemma {:induction false} HistogramTotal<T>(s: seq<T>, c: T -> nat, k: nat)
    requires forall x :: x in s ==> c(x) < k
    ensures Total(Histogram(s, c, k)) == |s|
  {
    if |s| == 0 {
      ZeroTotal(Histogram(s, c, k));
    } else {
      var s' := s[..|s| - 1];
      var x := s[|s| - 1];
      assert forall y :: y in s' ==> y in s;
      HistogramTotal(s', c, k);
      TotalBump(Histogram(s', c, k), Histogram(s, c, k), c(x));
    }
  }

  lemma {:induction false} ZeroTotal(s: seq<nat>)
    requires forall i :: 0 <= i < |s| ==> s[i] == 0
    ensures Total(s) == 0
  {
    if |s| > 0 {
      ZeroTotal(s[..|s| - 1]);
    }
  }

  /** Two sequences that agree position by position have the same sum. */
  lemma {:induction false} SumPointwise<A, B>(a: seq<A>, f: A -> int, b: seq<B>, g: B -> int)
    requires |a| == |b|
    requires forall i :: 0 <= i < |a| ==> f(a[i]) == g(b[i])
    ensures Sum(a, f) == Sum(b, g)
  {
    if |a| > 0 {
      SumPointwise(a[..|a| - 1], f, b[..|b| - 1], g);
    }
  }
}

=== FILE: session_durations.dfy ===
/**
 * The session-duration histogram (`fetchDurationData` in
 * `components/dashboard/sessions/session-durations.tsx`): each session's
 * duration in whole minutes (floored) lands in one of five fixed ranges,
 * reported in a fixed order, zeros included.
 */
module SessionDurations {
  import opened Seqs
  import opened Clock
  import opened Rows

  /** A bar of the chart. */
  datatype Bar = Bar(range: string, sessions: nat)

  /** The five ranges, in the order the chart shows them. */
  const Labels: seq<string> := ["< 1m", "1-5m", "5-15m", "15-30m", "30m+"]

  /** `Math.floor((last_seen - first_seen) / 60000)`. */
  function Minutes(s: Session): int {
    (s.lastSeen - s.firstSeen) / MsPerMinute
  }

  /** The range a duration in minutes falls in, by its position in `Labels`. */
  function RangeOf(minutes: int): (i: nat)
    ensures i < |Labels|
    ensures i == 0 <==> minutes < 1
    ensures i == 1 <==> 1 <= minutes < 5
    ensures i == 2 <==> 5 <= minutes < 15
    ensures i == 3 <==> 15 <= minutes < 30
    ensures i == 4 <==> 30 <= minutes
  {
    if minutes < 1 then 0
    else if minutes < 5 then 1
    else if minutes < 15 then 2
    else if minutes < 30 then 3
    else 4
  }

  function SessionRange(s: Session): nat {
    RangeOf(Minutes(s))
  }

  /** The bars for the fetched sessions; a failed query keeps the previous bars. */
  function DurationData(sessions: Fetch<Session>, prev: seq<Bar>): (r: seq<Bar>)
    ensures sessions.FetchFailed? ==> r == prev
    ensures sessions.Fetched? ==>
      && |r| == |Labels|
      && forall i :: 0 <= i < |Labels| ==>
           r[i] == Bar(Labels[i], Count(sessions.rows, InBucket(SessionRange, i)))
  {
    if sessions.FetchFailed? then prev
    else
      var h := Histogram(sessions.rows, SessionRange, |Labels|);
      seq(|Labels|, i requires 0 <= i < |Labels| => Bar(Labels[i], h[i]))
  }

  function BarTotal(r: seq<Bar>): nat {
    if |r| == 0 then 0 else BarTotal(r[..|r| - 1]) + r[|r| - 1].sessions
  }

  lemma {:induction false} BarTotalIsTotal(r: seq<Bar>, h: seq<nat>)
    requires |r| == |h| && forall i :: 0 <= i < |r| ==> r[i].sessions == h[i]
    ensures BarTotal(r) == Total(h)
  {
    if |r| > 0 {
      BarTotalIsTotal(r[..|r| - 1], h[..|h| - 1]);
    }
  }

  /** Every session lands in exactly one range, so the bars add up to the session count. */
  lemma BarsCountEverySession(sessions: seq<Session>, prev: seq<Bar>)
    ensures BarTotal(DurationData(Fetched(sessions), prev)) == |sessions|
  {
    var h := Histogram(sessions, SessionRange, |Labels|);
    HistogramTotal(sessions, SessionRange, |Labels|);
    BarTotalIsTotal(DurationData(Fetched(sessions), prev), h);
  }

  /** Ranges are ordered like durations: a longer session never lands in an earlier range. */
  lemma RangeMonotone(a: int, b: int)
    requires a <= b
    ensures RangeOf(a) <= RangeOf(b)
  {
  }

  /** A session whose `last_seen` fell behind its `first_seen` is counted under "< 1m". */
  lemma NegativeIsUnderOneMinute(s: Session)
    requires s.lastSeen < s.firstSeen
    ensures Labels[SessionRange(s)] == "< 1m"
  {
  }
}

=== FILE: session_flow.dfy ===
/**
 * Entry and exit pages (`fetchFlowData` in
 * `components/dashboard/sessions/session-flow.tsx`): page views, in
 * `created_at` order, are grouped by session; each session adds one entry
 * to its first page and one exit to its last; pages are ranked by entries
 * and the first ten kept.
 */
module SessionFlow {
  import opened Seqs
  import opened Rows
  import opened Sorting
  import Tally

  /** One session's pages: `sessionPages[session_id]`. */
  datatype Group = Group(sessionId: string, pages: seq<string>)

  /** One row of the output: `{ page_url, entries, exits }`. */
  datatype Flow = Flow(pageUrl: string, entries: nat, exits: nat)

  function SessionIdsOf(rows: seq<PageView>): (s: seq<string>)
    ensures |s| == |rows|
    ensures forall i :: 0 <= i < |rows| ==> s[i] == rows[i].sessionId
  {
    seq(|rows|, i requires 0 <= i < |rows| => rows[i].sessionId)
  }

  /** The distinct session ids in order of first appearance. */
  function SessionIds(rows: seq<PageView>): seq<string> {
    Tally.FirstSeen(SessionIdsOf(rows))
  }

  /** The pages of session `sid`, in row order: the reference grouping. */
  function PagesOf(rows: seq<PageView>, sid: string): seq<string> {
    if |rows| == 0 then []
    else
      PagesOf(rows[..|rows| - 1], sid)
        + (if rows[|rows| - 1].sessionId == sid then [rows[|rows| - 1].pageUrl] else [])
  }

  function GroupIds(acc: seq<Group>): (s: seq<string>)
    ensures |s| == |acc|
    ensures forall i :: 0 <= i < |acc| ==> s[i] == acc[i].sessionId
  {
    seq(|acc|, i requires 0 <= i < |acc| => acc[i].sessionId)
  }

  /** `(acc[sid] ||= []).push(page)` on the insertion-ordered groups. */
  function Push(acc: seq<Group>, sid: string, page: string): seq<Group> {
    if |acc| == 0 then [Group(sid, [page])]
    else if acc[0].sessionId == sid then [Group(sid, acc[0].pages + [page])] + acc[1..]
    else [acc[0]] + Push(acc[1..], sid, page)
  }

  /** The `reduce` that builds `sessionPages`, one row at a time. */
  function GroupFold(rows: seq<PageView>): seq<Group> {
    if |rows| == 0 then []
    else
      var v := rows[|rows| - 1];
      Push(GroupFold(rows[..|rows| - 1]), v.sessionId, v.pageUrl)
  }

  lemma {:induction false} PushFound(acc: seq<Group>, sid: string, page: string, k: nat)
    requires Distinct(GroupIds(acc))
    requires k < |acc| && acc[k].sessionId == sid
    ensures Push(acc, sid, page) == acc[k := Group(sid, acc[k].pages + [page])]
  {
    if acc[0].sessionId != sid {
      assert GroupIds(acc[1..]) == GroupIds(acc)[1..];
      PushFound(acc[1..], sid, page, k - 1);
    }
  }

  lemma {:induction false} PushNew(acc: seq<Group>, sid: string, page: string)
    requires sid !in GroupIds(acc)
    ensures Push(acc, sid, page) == acc + [Group(sid, [page])]
  {
    if |acc| > 0 {
      assert GroupIds(acc)[0] == acc[0].sessionId;
      assert GroupIds(acc[1..]) == GroupIds(acc)[1..];
      PushNew(acc[1..], sid, page);
    }
  }

  lemma {:induction false} PagesOfAbsent(rows: seq<PageView>, sid: string)
    requires sid !in SessionIdsOf(rows)
    ensures PagesOf(rows, sid) == []
  {
    if |rows| > 0 {
      assert SessionIdsOf(rows[..|rows| - 1]) == SessionIdsOf(rows)[..|rows| - 1];
      PagesOfAbsent(rows[..|rows| - 1], sid);
    }
  }

  /**
   * The `reduce` groups exactly as the reference does: one group per
   * distinct session id in order of first appearance, holding that
   * session's pages in row order.
   */
  lemma {:induction false} GroupFoldSpec(rows: seq<PageView>)
    ensures GroupIds(GroupFold(rows)) == SessionIds(rows)
    ensures forall i :: 0 <= i < |GroupFold(rows)| ==>
      GroupFold(rows)[i].pages == PagesOf(rows, GroupFold(rows)[i].sessionId)
  {
    if |rows| > 0 {
      var rest := rows[..|rows| - 1];
      var v := rows[|rows| - 1];
      var acc := GroupFold(rest);
      GroupFoldSpec(rest);
      assert SessionIdsOf(rest) == SessionIdsOf(rows)[..|rows| - 1];
      var g := GroupFold(rows);
      if v.sessionId in GroupIds(acc) {
        var k :| 0 <= k < |acc| && GroupIds(acc)[k] == v.sessionId;
        PushFound(acc, v.sessionId, v.pageUrl, k);
        assert GroupIds(g) == GroupIds(acc);
      } else {
        PushNew(acc, v.sessionId, v.pageUrl);
        assert v.sessionId !in SessionIdsOf(rest);
        PagesOfAbsent(rest, v.sessionId);
        assert GroupIds(g) == GroupIds(acc) + [v.sessionId];
      }
    }
  }

  /** Every group holds at least one page. */
  lemma GroupsNonEmpty(rows: seq<PageView>)
    ensures forall i :: 0 <= i < |GroupFold(rows)| ==> |GroupFold(rows)[i].pages| > 0
  {
    GroupFoldSpec(rows);
    forall i | 0 <= i < |GroupFold(rows)| ensures |GroupFold(rows)[i].pages| > 0 {
      var sid := GroupFold(rows)[i].sessionId;
      assert sid in SessionIdsOf(rows) by {
        assert GroupIds(GroupFold(rows))[i] == sid;
      }
      PagesOfPresent(rows, sid);
    }
  }

  lemma {:induction false} PagesOfPresent(rows: seq<PageView>, sid: string)
    requires sid in SessionIdsOf(rows)
    ensures |PagesOf(rows, sid)| > 0
  {
    var rest := rows[..|rows| - 1];
    assert SessionIdsOf(rest) == SessionIdsOf(rows)[..|rows| - 1];
    if rows[|rows| - 1].sessionId != sid {
      PagesOfPresent(rest, sid);
    }
  }

  /** `Object.values(sessionPages)`. */
  function Groups(rows: seq<PageView>): (gs: seq<seq<string>>)
    ensures |gs| == |SessionIds(rows)|
    ensures forall g :: g in gs ==> |g| > 0
  {
    var acc := GroupFold(rows);
    GroupFoldSpec(rows);
    GroupsNonEmpty(rows);
    seq(|acc|, i requires 0 <= i < |acc| => acc[i].pages)
  }

  function PageOf(f: Flow): string {
    f.pageUrl
  }

  function EntriesOf(f: Flow): int {
    f.entries
  }

  function Pages(t: seq<Flow>): (s: seq<string>)
    ensures |s| == |t|
    ensures forall i :: 0 <= i < |t| ==> s[i] == t[i].pageUrl
  {
    seq(|t|, i requires 0 <= i < |t| => t[i].pageUrl)
  }

  /** The entries counted for page `p`, 0 when it has no row. */
  function Entries(t: seq<Flow>, p: string): nat {
    if |t| == 0 then 0 else if t[0].pageUrl == p then t[0].entries else Entries(t[1..], p)
  }

  function Exits(t: seq<Flow>, p: string): nat {
    if |t| == 0 then 0 else if t[0].pageUrl == p then t[0].exits else Exits(t[1..], p)
  }

  function TotalEntries(t: seq<Flow>): nat {
    if |t| == 0 then 0 else t[0].entries + TotalEntries(t[1..])
  }

  function TotalExits(t: seq<Flow>): nat {
    if |t| == 0 then 0 else t[0].exits + TotalExits(t[1..])
  }

  /**
   * `pageStats[p] ||= { entries: 0, exits: 0 }` followed by `entries++`
   * (when `entry`) or `exits++`.
   */
  function Bump(t: seq<Flow>, p: string, entry: bool): seq<Flow> {
    if |t| == 0 then [Incr(Flow(p, 0, 0), entry)]
    else if t[0].pageUrl == p then [Incr(t[0], entry)] + t[1..]
    else [t[0]] + Bump(t[1..], p, entry)
  }

  function Incr(f: Flow, entry: bool): (g: Flow)
    ensures g.pageUrl == f.pageUrl
    ensures g.entries == f.entries + (if entry then 1 else 0)
    ensures g.exits == f.exits + (if entry then 0 else 1)
  {
    if entry then f.(entries := f.entries + 1) else f.(exits := f.exits + 1)
  }

  lemma {:induction false} BumpPages(t: seq<Flow>, p: string, entry: bool)
    ensures Pages(Bump(t, p, entry)) == if p in Pages(t) then Pages(t) else Pages(t) + [p]
  {
    var b := Bump(t, p, entry);
    var want := if p in Pages(t) then Pages(t) else Pages(t) + [p];
    if |t| == 0 {
      assert Pages(b) == [p];
    } else if t[0].pageUrl == p {
      assert Pages(t)[0] == p;
      assert b == [Incr(t[0], entry)] + t[1..];
      assert forall i :: 0 <= i < |b| ==> Pages(b)[i] == Pages(t)[i];
    } else {
      var rest := Bump(t[1..], p, entry);
      BumpPages(t[1..], p, entry);
      assert b == [t[0]] + rest;
      assert p in Pages(t) <==> p in Pages(t[1..]) by {
        if p in Pages(t) {
          var k :| 0 <= k < |Pages(t)| && Pages(t)[k] == p;
          assert Pages(t[1..])[k - 1] == p;
        }
        if p in Pages(t[1..]) {
          var k :| 0 <= k < |Pages(t[1..])| && Pages(t[1..])[k] == p;
          assert Pages(t)[k + 1] == p;
        }
      }
      assert |Pages(b)| == |want|;
      forall i | 0 <= i < |b| ensures Pages(b)[i] == want[i] {
        if i > 0 {
          assert Pages(b)[i] == Pages(rest)[i - 1];
        }
      }
    }
  }

  lemma {:induction false} BumpCounts(t: seq<Flow>, p: string, entry: bool)
    ensures forall q :: Entries(Bump(t, p, entry), q) == Entries(t, q) + (if entry && q == p then 1 else 0)
    ensures forall q :: Exits(Bump(t, p, entry), q) == Exits(t, q) + (if !entry && q == p then 1 else 0)
    ensures TotalEntries(Bump(t, p, entry)) == TotalEntries(t) + (if entry then 1 else 0)
    ensures TotalExits(Bump(t, p, entry)) == TotalExits(t) + (if entry then 0 else 1)
  {
    if |t| > 0 && t[0].pageUrl != p {
      BumpCounts(t[1..], p, entry);
      assert Bump(t, p, entry)[1..] == Bump(t[1..], p, entry);
    }
  }

  /** Sessions whose first page is `p`. */
  function EntersAt(p: string): seq<string> -> bool {
    g => |g| > 0 && g[0] == p
  }

  /** Sessions whose last page is `p`. */
  function ExitsAt(p: string): seq<string> -> bool {
    g => |g| > 0 && g[|g| - 1] == p
  }

  /** One session's contribution: an entry for its first page, then an exit for its last. */
  function Visit(t: seq<Flow>, g: seq<string>): seq<Flow>
    requires |g| > 0
  {
    Bump(Bump(t, g[0], true), g[|g| - 1], false)
  }

  /** Bumping a page keeps the page column free of repeats. */
  lemma BumpDistinct(t: seq<Flow>, p: string, entry: bool)
    requires Distinct(Pages(t))
    ensures Distinct(Pages(Bump(t, p, entry)))
  {
    BumpPages(t, p, entry);
    if p !in Pages(t) {
      var s := Pages(t) + [p];
      forall i, j | 0 <= i < j < |s| ensures s[i] != s[j] {
        if j == |s| - 1 {
          assert s[i] == Pages(t)[i];
        } else {
          assert s[i] == Pages(t)[i] && s[j] == Pages(t)[j];
        }
      }
    }
  }

  lemma VisitFacts(t: seq<Flow>, g: seq<string>)
    requires |g| > 0 && Distinct(Pages(t))
    ensures Distinct(Pages(Visit(t, g)))
    ensures forall p :: Entries(Visit(t, g), p) == Entries(t, p) + (if EntersAt(p)(g) then 1 else 0)
    ensures forall p :: Exits(Visit(t, g), p) == Exits(t, p) + (if ExitsAt(p)(g) then 1 else 0)
    ensures TotalEntries(Visit(t, g)) == TotalEntries(t) + 1
    ensures TotalExits(Visit(t, g)) == TotalExits(t) + 1
  {
    var t1 := Bump(t, g[0], true);
    BumpDistinct(t, g[0], true);
    BumpCounts(t, g[0], true);
    BumpDistinct(t1, g[|g| - 1], false);
    BumpCounts(t1, g[|g| - 1], false);
  }

  /**
   * The `forEach` over the groups: one row per page that starts or ends
   * some session, counting the sessions it starts and the sessions it ends.
   */
  function Stats(groups: seq<seq<string>>): (t: seq<Flow>)
    requires forall g :: g in groups ==> |g| > 0
    ensures Distinct(Pages(t))
    ensures forall p :: Entries(t, p) == Count(groups, EntersAt(p))
    ensures forall p :: Exits(t, p) == Count(groups, ExitsAt(p))
    ensures TotalEntries(t) == |groups| && TotalExits(t) == |groups|
  {
    if |groups| == 0 then []
    else
      var rest := groups[..|groups| - 1];
      var g := groups[|groups| - 1];
      assert forall h :: h in rest ==> h in groups;
      var t0 := Stats(rest);
      VisitFacts(t0, g);
      Visit(t0, g)
  }

  /** A page has a row exactly when it starts or ends some session. */
  lemma {:induction false} RowIffCounted(t: seq<Flow>, p: string)
    requires forall f :: f in t ==> f.entries + f.exits > 0
    ensures p in Pages(t) <==> Entries(t, p) + Exits(t, p) > 0
  {
    if |t| > 0 {
      assert Pages(t) == [t[0].pageUrl] + Pages(t[1..]);
      RowIffCounted(t[1..], p);
    }
  }

  lemma DistinctPages(t: seq<Flow>)
    requires Distinct(Pages(t))
    ensures DistinctBy(t, PageOf)
  {
    forall i, j | 0 <= i < j < |t| ensures PageOf(t[i]) != PageOf(t[j]) {
      assert Pages(t)[i] != Pages(t)[j];
    }
  }

  /** The number of rows the chart shows at most. */
  const TopN: nat := 10

  /**
   * `fetchFlowData`: a failed query keeps the previous rows; otherwise the
   * per-page rows, ranked by entries (stable), first ten: as many as there
   * are up to ten, no page left out with more entries than one shown, and
   * pages with equal entries in the order their rows were built.
   */
  function FlowData(views: Fetch<PageView>, prev: seq<Flow>): (r: seq<Flow>)
    ensures views.FetchFailed? ==> r == prev
    ensures views.Fetched? ==>
      var t := Stats(Groups(views.rows));
      && |r| == (if |t| < TopN then |t| else TopN)
      && SortedDesc(r, EntriesOf)
      && DistinctBy(r, PageOf)
      && multiset(r) <= multiset(t)
      && (forall f, g :: f in t && f !in r && g in r ==> f.entries <= g.entries)
      && (forall k :: IsPrefix(KeyClass(r, EntriesOf, k), KeyClass(t, EntriesOf, k)))
      && (|t| <= TopN ==> multiset(r) == multiset(t))
  {
    if views.FetchFailed? then prev
    else
      var t := Stats(Groups(views.rows));
      Ranked(t);
      Take(SortDesc(t, EntriesOf), TopN)
  }

  /** The ranking step on its own, for any per-page rows with distinct pages. */
  lemma Ranked(t: seq<Flow>)
    requires DistinctBy(t, PageOf)
    ensures var r := Take(SortDesc(t, EntriesOf), TopN);
      && |r| == (if |t| < TopN then |t| else TopN)
      && SortedDesc(r, EntriesOf)
      && DistinctBy(r, PageOf)
      && multiset(r) <= multiset(t)
      && (forall f, g :: f in t && f !in r && g in r ==> f.entries <= g.entries)
      && (forall k :: IsPrefix(KeyClass(r, EntriesOf, k), KeyClass(t, EntriesOf, k)))
      && (|t| <= TopN ==> multiset(r) == multiset(t))
  {
    var sorted := SortDesc(t, EntriesOf);
    var r := Take(sorted, TopN);
    SortDescSorted(t, EntriesOf);
    SortDescPermutes(t, EntriesOf);
    SortDescLength(t, EntriesOf);
    SortDescDistinctBy(t, EntriesOf, PageOf);
    TakeKeepsOrder(sorted, TopN, EntriesOf, PageOf);
    TopSelection(t, TopN, EntriesOf);
    forall f, g | f in t && f !in r && g in r ensures f.entries <= g.entries {
      assert EntriesOf(f) <= EntriesOf(g);
    }
  }

  /**
   * Conservation before truncation: entries and exits each add up to the
   * number of distinct sessions among the rows.
   */
  lemma EntriesEqualExits(rows: seq<PageView>)
    ensures TotalEntries(Stats(Groups(rows))) == |SessionIds(rows)|
    ensures TotalExits(Stats(Groups(rows))) == |SessionIds(rows)|
  {
  }

  /**
   * One session visiting A, B, A: A gets one entry and one exit, and B,
   * although visited, is neither an entry nor an exit and gets no row.
   */
  lemma RoundTripSession(a: string, b: string, sid: string, v: PageView)
    requires a != b
    ensures
      var rows := [v.(sessionId := sid, pageUrl := a), v.(sessionId := sid, pageUrl := b), v.(sessionId := sid, pageUrl := a)];
      Stats(Groups(rows)) == [Flow(a, 1, 1)]
  {
    var rows := [v.(sessionId := sid, pageUrl := a), v.(sessionId := sid, pageUrl := b), v.(sessionId := sid, pageUrl := a)];
    var r1 := rows[..1];
    var r2 := rows[..2];
    assert r1[..0] == [];
    assert r2[..1] == r1;
    assert GroupFold(r1) == [Group(sid, [a])];
    assert [a] + [b] == [a, b] && [a, b] + [a] == [a, b, a];
    assert Push([Group(sid, [a])], sid, b) == [Group(sid, [a, b])];
    assert GroupFold(r2) == [Group(sid, [a, b])];
    assert Push([Group(sid, [a, b])], sid, a) == [Group(sid, [a, b, a])];
    assert GroupFold(rows) == [Group(sid, [a, b, a])];
    var gs := Groups(rows);
    assert gs == [[a, b, a]];
    assert gs[..0] == [];
  }

  /** A single-page session counts as both the entry and the exit of its page. */
  lemma SinglePageSession(p: string)
    ensures Stats([[p]]) == [Flow(p, 1, 1)]
  {
    assert [[p]][..0] == [];
  }
}

=== FILE: sessions_page.dfy ===
/**
 * The headline numbers of the sessions page (`fetchSessionMetrics` in
 * `app/dashboard/sessions/page.tsx`): session count, mean duration, bounce
 * rate and the fixed returning rate. The page keeps its previous numbers
 * when the query fails.
 */
module SessionsPage {
  import opened Seqs
  import opened Text
  import opened Numbers
  import opened Clock
  import opened Rows
  import Metrics

  /**
   * A session row with its embedded `pageviews(count)` aggregate: the list
   * of count objects the store returns, normally exactly one.
   */
  datatype SessionRow = SessionRow(session: Session, pageviews: seq<nat>)

  /** The four cards. */
  datatype Display = Display(totalSessions: nat, averageDuration: string, bounceRate: string, returningRate: string)

  /** The values shown before the first load. */
  const Initial := Display(0, "0m", "0%", "0%")

  /** The placeholder returning rate, in percent. */
  const ReturningRate: nat := 15

  /** Bounced: no count object, or a first count of exactly one page view. */
  predicate Bounced(r: SessionRow) {
    |r.pageviews| == 0 || r.pageviews[0] == 1
  }

  function RowDuration(r: SessionRow): int {
    r.session.lastSeen - r.session.firstSeen
  }

  /** The mean duration card: the mean in minutes, rounded to nearest, then "m". */
  function AverageText(rows: seq<SessionRow>): (s: string)
    requires |rows| > 0
    ensures
      var (q, total) := (MsPerMinute * |rows|, Sum(rows, RowDuration));
      exists m :: s == IntToString(m) + "m" && 2 * q * m - q <= 2 * total < 2 * q * m + q
  {
    var m := RoundDiv(Sum(rows, RowDuration), MsPerMinute * |rows|);
    IntToString(m) + "m"
  }

  /** The bounce-rate card: bounced sessions as a percentage with one decimal. */
  function BounceText(rows: seq<SessionRow>): (s: string)
    requires |rows| > 0
    ensures
      var (n, b) := (|rows|, Count(rows, Bounced));
      exists t: nat :: s == TenthsToString(t) + "%" && t <= 1000 && 2 * n * t - n <= 20 * (100 * b) < 2 * n * t + n
  {
    var t := RoundTenths(100 * Count(rows, Bounced), |rows|);
    RoundTenthsAtMost(100 * Count(rows, Bounced), |rows|, 1000);
    TenthsToString(t) + "%"
  }

  /** Rounding a quotient of at most `bound / 10` gives at most `bound` tenths. */
  lemma RoundTenthsAtMost(p: nat, q: nat, bound: nat)
    requires q > 0 && 10 * p <= bound * q
    ensures RoundTenths(p, q) <= bound
  {
    var t := RoundTenths(p, q);
    if t > bound {
      MulMonotone(2 * q, bound + 1, t);
    }
  }

  /**
   * `fetchSessionMetrics` as written: with no sessions both divisions are
   * 0 / 0, and the cards read "NaNm" and "NaN%".
   */
  function SessionMetrics(rows: Fetch<SessionRow>, prev: Display): (d: Display)
    ensures rows.FetchFailed? ==> d == prev
    ensures rows.Fetched? ==>
      && d.totalSessions == |rows.rows|
      && d.returningRate == NatToString(ReturningRate) + "%"
    ensures rows.Fetched? && |rows.rows| == 0 ==>
      d.averageDuration == "NaNm" && d.bounceRate == "NaN%"
    ensures rows.Fetched? && |rows.rows| > 0 ==>
      d.averageDuration == AverageText(rows.rows) && d.bounceRate == BounceText(rows.rows)
  {
    if rows.FetchFailed? then prev
    else if |rows.rows| == 0 then
      Display(0, "NaNm", "NaN%", NatToString(ReturningRate) + "%")
    else
      Display(|rows.rows|, AverageText(rows.rows), BounceText(rows.rows), NatToString(ReturningRate) + "%")
  }

  /** The division by zero, exhibited: a successful load of no sessions shows "NaN". */
  lemma NoSessionsShowsNaN(prev: Display)
    ensures SessionMetrics(Fetched([]), prev) == Display(0, "NaNm", "NaN%", "15%")
  {
  }

  /**
   * The guarded variant: no sessions shows the initial "0m" and "0%", so
   * the cards always show a number.
   */
  function SessionMetricsGuarded(rows: Fetch<SessionRow>, prev: Display): (d: Display)
    ensures rows.FetchFailed? ==> d == prev
    ensures rows.Fetched? ==>
      && d.totalSessions == |rows.rows|
      && d.returningRate == "15%"
      && (d.averageDuration == "0m" || exists m :: d.averageDuration == IntToString(m) + "m")
      && (d.bounceRate == "0%" || exists t: nat :: t <= 1000 && d.bounceRate == TenthsToString(t) + "%")
    ensures rows.Fetched? && |rows.rows| == 0 ==> d.averageDuration == "0m" && d.bounceRate == "0%"
    ensures rows.Fetched? && |rows.rows| > 0 ==> d == SessionMetrics(rows, prev)
  {
    if rows.Fetched? && |rows.rows| == 0 then Initial.(returningRate := "15%")
    else SessionMetrics(rows, prev)
  }

  /** If every session has exactly one page view, the bounce rate is "100.0%". */
  lemma {:induction false} AllSingleViewsBounce(rows: seq<SessionRow>)
    requires |rows| > 0
    requires forall r :: r in rows ==> r.pageviews == [1]
    ensures BounceText(rows) == "100.0%"
  {
    CountAll(rows, Bounced);
    var n := |rows|;
    RoundDivUnique(10 * (100 * n), n, 1000);
    assert NatToString(10) == "10";
    assert NatToString(100) == "100";
  }

  /** A bounce rate never exceeds 100%: at most every session bounced. */
  lemma BounceAtMostAll(rows: seq<SessionRow>)
    requires |rows| > 0
    ensures Count(rows, Bounced) <= |rows|
    ensures RoundTenths(100 * Count(rows, Bounced), |rows|) <= 1000
  {
    RoundTenthsAtMost(100 * Count(rows, Bounced), |rows|, 1000);
  }

  /** The sessions of the rows, as the overview's duration query returns them. */
  function Sessions(rows: seq<SessionRow>): (s: seq<Session>)
    ensures |s| == |rows|
    ensures forall i :: 0 <= i < |rows| ==> s[i] == rows[i].session
  {
    seq(|rows|, i requires 0 <= i < |rows| => rows[i].session)
  }

  lemma {:induction false} SameTotalDuration(rows: seq<SessionRow>)
    ensures Sum(rows, RowDuration) == Metrics.TotalDuration(Sessions(rows))
  {
    if |rows| > 0 {
      SameTotalDuration(rows[..|rows| - 1]);
      assert Sessions(rows[..|rows| - 1]) == Sessions(rows)[..|rows| - 1];
    }
  }

  /**
   * From a mean of one minute up, this card and the overview's mean
   * duration show the same text; below it the overview says "< 1m".
   */
  lemma AgreesWithOverview(rows: seq<SessionRow>)
    requires |rows| > 0
    requires Sum(rows, RowDuration) >= MsPerMinute * |rows|
    ensures AverageText(rows) == Metrics.AverageDuration(Fetched(Sessions(rows)))
  {
    SameTotalDuration(rows);
  }

  /** A single thirty-second session reads "1m" here and "< 1m" on the overview. */
  lemma HalfMinuteDisagrees()
    ensures
      var rows := [SessionRow(Session("s", 0, 30000), [1])];
      && AverageText(rows) == "1m"
      && Metrics.AverageDuration(Fetched(Sessions(rows))) == "< 1m"
  {
    var rows := [SessionRow(Session("s", 0, 30000), [1])];
    SameTotalDuration(rows);
    RoundDivUnique(30000, 60000, 1);
  }
}

=== FILE: sorting.dfy ===
/**
 * `Array.prototype.sort((a, b) => key(b) - key(a))`: a stable sort into
 * non-increasing key order (the language has required a stable sort since
 * ES2019). Modelled as insertion sort on sequences.
 */
module Sorting {
  import opened Seqs

  predicate SortedDesc<T>(s: seq<T>, key: T -> int) {
    forall i, j :: 0 <= i < j < |s| ==> key(s[i]) >= key(s[j])
  }

  /** The elements of `s` whose key is `k`, in their order in `s`. */
  function KeyClass<T>(s: seq<T>, key: T -> int, k: int): seq<T> {
    if |s| == 0 then []
    else (if key(s[0]) == k then [s[0]] else []) + KeyClass(s[1..], key, k)
  }

  /** No two elements share a `name`. */
  predicate DistinctBy<T, U(==)>(s: seq<T>, name: T -> U) {
    forall i, j :: 0 <= i < j < |s| ==> name(s[i]) != name(s[j])
  }

  /** Put `x` before the first element of `t` whose key does not exceed its own. */
  function Insert<T>(x: T, t: seq<T>, key: T -> int): seq<T> {
    if |t| == 0 || key(x) >= key(t[0]) then [x] + t
    else [t[0]] + Insert(x, t[1..], key)
  }

  /** The stable sort by non-increasing key. */
  function SortDesc<T>(s: seq<T>, key: T -> int): seq<T> {
    if |s| == 0 then [] else Insert(s[0], SortDesc(s[1..], key), key)
  }

  lemma {:induction false} InsertPermutes<T>(x: T, t: seq<T>, key: T -> int)
    ensures multiset(Insert(x, t, key)) == multiset(t) + multiset{x}
  {
    if !(|t| == 0 || key(x) >= key(t[0])) {
      InsertPermutes(x, t[1..], key);
      assert t == [t[0]] + t[1..];
    }
  }

  /** Inserting below a bound that every element respects keeps every key below it. */
  lemma {:induction false} InsertBelow<T>(x: T, t: seq<T>, key: T -> int, m: int)
    requires key(x) <= m
    requires forall i :: 0 <= i < |t| ==> key(t[i]) <= m
    ensures forall i :: 0 <= i < |Insert(x, t, key)| ==> key(Insert(x, t, key)[i]) <= m
  {
    if !(|t| == 0 || key(x) >= key(t[0])) {
      InsertBelow(x, t[1..], key, m);
    }
  }

  lemma {:induction false} InsertSorted<T>(x: T, t: seq<T>, key: T -> int)
    requires SortedDesc(t, key)
    ensures SortedDesc(Insert(x, t, key), key)
  {
    if !(|t| == 0 || key(x) >= key(t[0])) {
      var rest := Insert(x, t[1..], key);
      InsertSorted(x, t[1..], key);
      InsertBelow(x, t[1..], key, key(t[0]));
      var r := [t[0]] + rest;
      forall i, j | 0 <= i < j < |r|
        ensures key(r[i]) >= key(r[j])
      {
        assert r[j] == rest[j - 1];
        if i > 0 {
          assert r[i] == rest[i - 1];
        }
      }
    }
  }

  lemma {:induction false} InsertKeyClass<T>(x: T, t: seq<T>, key: T -> int, k: int)
    requires SortedDesc(t, key)
    ensures KeyClass(Insert(x, t, key), key, k) == KeyClass([x] + t, key, k)
  {
    if !(|t| == 0 || key(x) >= key(t[0])) {
      InsertKeyClass(x, t[1..], key, k);
      assert ([t[0]] + Insert(x, t[1..], key))[1..] == Insert(x, t[1..], key);
      assert ([x] + t)[1..] == t;
      assert ([x] + t[1..])[1..] == t[1..];
      assert t == [t[0]] + t[1..];
      if key(t[0]) == k {
        // t[0] has key k > key(x), so x is not in the class of k
        SortedHead(t, key);
        assert KeyClass([x] + t[1..], key, k) == KeyClass(t[1..], key, k);
      }
    }
  }

  lemma SortedHead<T>(t: seq<T>, key: T -> int)
    requires |t| > 0 && SortedDesc(t, key)
    ensures SortedDesc(t[1..], key)
  {
  }

  /**
   * `SortDesc` sorts into non-increasing key order, permutes its input, and
   * is stable: the elements sharing any one key keep their relative order.
   */
  lemma SortDescCorrect<T>(s: seq<T>, key: T -> int)
    ensures SortedDesc(SortDesc(s, key), key)
    ensures multiset(SortDesc(s, key)) == multiset(s)
    ensures forall k :: KeyClass(SortDesc(s, key), key, k) == KeyClass(s, key, k)
  {
    SortDescSorted(s, key);
    SortDescPermutes(s, key);
    forall k
      ensures KeyClass(SortDesc(s, key), key, k) == KeyClass(s, key, k)
    {
      SortDescStable(s, key, k);
    }
  }

  lemma {:induction false} SortDescSorted<T>(s: seq<T>, key: T -> int)
    ensures SortedDesc(SortDesc(s, key), key)
  {
    if |s| > 0 {
      SortDescSorted(s[1..], key);
      InsertSorted(s[0], SortDesc(s[1..], key), key);
    }
  }

  lemma {:induction false} SortDescPermutes<T>(s: seq<T>, key: T -> int)
    ensures multiset(SortDesc(s, key)) == multiset(s)
  {
    if |s| > 0 {
      SortDescPermutes(s[1..], key);
      InsertPermutes(s[0], SortDesc(s[1..], key), key);
      assert s == [s[0]] + s[1..];
    }
  }

  lemma {:induction false} SortDescStable<T>(s: seq<T>, key: T -> int, k: int)
    ensures KeyClass(SortDesc(s, key), key, k) == KeyClass(s, key, k)
  {
    if |s| > 0 {
      var t := SortDesc(s[1..], key);
      SortDescStable(s[1..], key, k);
      SortDescSorted(s[1..], key);
      InsertKeyClass(s[0], t, key, k);
      assert ([s[0]] + t)[1..] == t;
    }
  }

  lemma {:induction false} InsertLength<T>(x: T, t: seq<T>, key: T -> int)
    ensures |Insert(x, t, key)| == |t| + 1
  {
    if !(|t| == 0 || key(x) >= key(t[0])) {
      InsertLength(x, t[1..], key);
    }
  }

  /** The sort neither adds nor drops elements. */
  lemma {:induction false} SortDescLength<T>(s: seq<T>, key: T -> int)
    ensures |SortDesc(s, key)| == |s|
  {
    if |s| > 0 {
      SortDescLength(s[1..], key);
      InsertLength(s[0], SortDesc(s[1..], key), key);
    }
  }

  lemma {:induction false} InsertDistinctBy<T, U>(x: T, t: seq<T>, key: T -> int, name: T -> U)
    requires DistinctBy(t, name)
    requires forall y :: y in t ==> name(y) != name(x)
    ensures DistinctBy(Insert(x, t, key), name)
  {
    if !(|t| == 0 || key(x) >= key(t[0])) {
      var rest := Insert(x, t[1..], key);
      assert forall y :: y in t[1..] ==> y in t;
      InsertDistinctBy(x, t[1..], key, name);
      InsertPermutes(x, t[1..], key);
      forall y | y in rest
        ensures name(y) != name(t[0])
      {
        assert y in multiset(rest);
        if y != x {
          assert y in multiset(t[1..]);
          var j :| 0 <= j < |t[1..]| && t[1..][j] == y;
          assert t[j + 1] == y;
        }
      }
      var r := [t[0]] + rest;
      forall i, j | 0 <= i < j < |r|
        ensures name(r[i]) != name(r[j])
      {
        if i == 0 {
          assert r[j] in rest;
        } else {
          assert r[i] == rest[i - 1] && r[j] == rest[j - 1];
        }
      }
    }
  }

  /** Sorting never makes two elements share a name. */
  lemma {:induction false} SortDescDistinctBy<T, U>(s: seq<T>, key: T -> int, name: T -> U)
    requires DistinctBy(s, name)
    ensures DistinctBy(SortDesc(s, key), name)
  {
    if |s| > 0 {
      var t := SortDesc(s[1..], key);
      SortDescDistinctBy(s[1..], key, name);
      SortDescCorrect(s[1..], key);
      forall y | y in t
        ensures name(y) != name(s[0])
      {
        assert y in multiset(s[1..]);
        var j :| 0 <= j < |s[1..]| && s[1..][j] == y;
        assert s[j + 1] == y;
      }
      InsertDistinctBy(s[0], t, key, name);
    }
  }

  /** Sums are invariant under the sort. */
  lemma {:induction false} SortDescSum<T>(s: seq<T>, key: T -> int, f: T -> int)
    ensures Sum(SortDesc(s, key), f) == Sum(s, f)
  {
    if |s| > 0 {
      var t := SortDesc(s[1..], key);
      SortDescSum(s[1..], key, f);
      InsertSum(s[0], t, key, f);
      SumAppend([s[0]], s[1..], f);
      assert s == [s[0]] + s[1..];
    }
  }

  lemma {:induction false} InsertSum<T>(x: T, t: seq<T>, key: T -> int, f: T -> int)
    ensures Sum(Insert(x, t, key), f) == f(x) + Sum(t, f)
  {
    if |t| == 0 || key(x) >= key(t[0]) {
      SumAppend([x], t, f);
    } else {
      InsertSum(x, t[1..], key, f);
      SumAppend([t[0]], Insert(x, t[1..], key), f);
      SumAppend([t[0]], t[1..], f);
      assert t == [t[0]] + t[1..];
    }
  }

  /** A prefix of a sorted sequence is sorted and keeps names distinct. */
  lemma TakeKeepsOrder<T, U>(s: seq<T>, n: nat, key: T -> int, name: T -> U)
    ensures SortedDesc(s, key) ==> SortedDesc(Take(s, n), key)
    ensures DistinctBy(s, name) ==> DistinctBy(Take(s, n), name)
    ensures forall x :: x in Take(s, n) ==> x in s
  {
  }

  /**
   * `SortDesc(s, key).slice(0, n)`, the top `n`: as many as there are, up
   * to `n`; drawn from `s`; no element left out ranks above one kept; and
   * of each class of equal keys a leading part, in the order of `s`.
   */
  lemma TopSelection<T>(s: seq<T>, n: nat, key: T -> int)
    ensures var r := Take(SortDesc(s, key), n);
      && |r| == (if |s| < n then |s| else n)
      && multiset(r) <= multiset(s)
      && (forall x, y :: x in s && x !in r && y in r ==> key(x) <= key(y))
      && (forall k :: IsPrefix(KeyClass(r, key, k), KeyClass(s, key, k)))
  {
    var sorted := SortDesc(s, key);
    var r := Take(sorted, n);
    SortDescCorrect(s, key);
    SortDescLength(s, key);
    TakeMultiset(sorted, n);
    TopLeftOut(sorted, n, key);
    assert forall x :: x in s <==> x in multiset(sorted);
    forall k ensures IsPrefix(KeyClass(r, key, k), KeyClass(s, key, k)) {
      TakeKeyClass(sorted, n, key, k);
    }
  }

  lemma TakeMultiset<T>(s: seq<T>, n: nat)
    ensures multiset(Take(s, n)) <= multiset(s)
  {
    var t := Take(s, n);
    assert s == t + s[|t|..];
  }

  /** In a sorted sequence nothing past the cut ranks above anything before it. */
  lemma TopLeftOut<T>(s: seq<T>, n: nat, key: T -> int)
    requires SortedDesc(s, key)
    ensures forall x, y :: x in s && x !in Take(s, n) && y in Take(s, n) ==> key(x) <= key(y)
  {
    var r := Take(s, n);
    forall x, y | x in s && x !in r && y in r ensures key(x) <= key(y) {
      var k :| 0 <= k < |s| && s[k] == x;
      var j :| 0 <= j < |r| && r[j] == y;
      assert k >= |r|;
    }
  }

  /** Cutting a sequence cuts each class of equal keys to a leading part. */
  lemma {:induction false} TakeKeyClass<T>(s: seq<T>, n: nat, key: T -> int, k: int)
    ensures IsPrefix(KeyClass(Take(s, n), key, k), KeyClass(s, key, k))
  {
    var t := Take(s, n);
    if |t| > 0 {
      assert t[0] == s[0];
      assert t[1..] == Take(s[1..], n - 1);
      TakeKeyClass(s[1..], n - 1, key, k);
    }
  }

  /** A prefix sums to at most the whole when every summand is non-negative. */
  lemma {:induction false} TakeSum<T>(s: seq<T>, n: nat, f: T -> int)
    requires forall x :: x in s ==> f(x) >= 0
    ensures Sum(Take(s, n), f) <= Sum(s, f)
    ensures |s| <= n ==> Sum(Take(s, n), f) == Sum(s, f)
  {
    var t := Take(s, n);
    assert s == t + s[|t|..];
    SumAppend(t, s[|t|..], f);
    NonNegativeSum(s[|t|..], f);
  }

  lemma {:induction false} NonNegativeSum<T>(s: seq<T>, f: T -> int)
    requires forall x :: x in s ==> f(x) >= 0
    ensures Sum(s, f) >= 0
  {
    if |s| > 0 {
      assert forall x :: x in s[..|s| - 1] ==> x in s;
      NonNegativeSum(s[..|s| - 1], f);
    }
  }
}

=== FILE: store.dfy ===
/**
 * The event store seen through the three write helpers of the ingestion
 * path. Each helper converts every failure (an error reply or a thrown
 * exception) into a `None` result and never throws; a failed write leaves
 * the store as it was. Whether a remote call fails is an input (`fails`),
 * and so is the clock (`now`). One clock stands for both the database's
 * column defaults (`first_seen`, `last_seen`, `created_at` on insert) and
 * the server's `new Date()` that `updateSessionLastSeen` writes.
 */
module Store {
  import opened Wrappers
  import opened Rows
  import opened Seqs

  /**
   * The two tables: `sessions` in insertion order, `pageviews` in append
   * order, and the next value of the page-view id sequence.
   */
  datatype Store = Store(sessions: seq<Session>, views: seq<PageView>, nextId: nat)

  /** A write helper's effect: the store afterwards and the row it returned, if any. */
  datatype Written<T> = Written(store: Store, row: Option<T>)

  /** The store before any write; the id sequence starts at 1. */
  const Empty := Store([], [], 1)

  function Ids(rows: seq<Session>): (ids: seq<string>)
    ensures |ids| == |rows|
    ensures forall i :: 0 <= i < |rows| ==> ids[i] == rows[i].id
  {
    seq(|rows|, i requires 0 <= i < |rows| => rows[i].id)
  }

  /** Position of the first row with this id. */
  function IndexOf(rows: seq<Session>, id: string): (k: nat)
    requires id in Ids(rows)
    ensures k < |rows| && rows[k].id == id
    ensures forall j :: 0 <= j < k ==> rows[j].id != id
  {
    if rows[0].id == id then 0
    else
      assert Ids(rows) == [rows[0].id] + Ids(rows[1..]);
      1 + IndexOf(rows[1..], id)
  }

  predicate HasSession(st: Store, id: string) {
    id in Ids(st.sessions)
  }

  /**
   * Key constraints the store enforces: session ids are a primary key, and
   * page-view ids come from an increasing sequence.
   */
  predicate Valid(st: Store) {
    && Distinct(Ids(st.sessions))
    && (forall i :: 0 <= i < |st.views| ==> st.views[i].id < st.nextId)
    && (forall i, j :: 0 <= i < j < |st.views| ==> st.views[i].id < st.views[j].id)
  }

  /**
   * `createSession(id)`: insert a row carrying only `id`; the store sets
   * `first_seen` and `last_seen` to its clock. A duplicate key is an error.
   */
  function CreateSession(st: Store, ins: SessionInsert, now: int, fails: bool): (r: Written<Session>)
    ensures r.row.None? <==> fails || HasSession(st, ins.id)
    ensures r.row.None? ==> r.store == st
    ensures r.row.Some? ==>
      && r.row.value == Session(ins.id, now, now)
      && r.store == st.(sessions := st.sessions + [r.row.value])
    ensures Valid(st) ==> Valid(r.store)
  {
    if fails || HasSession(st, ins.id) then Written(st, None)
    else
      var s := Session(ins.id, now, now);
      var st' := st.(sessions := st.sessions + [s]);
      assert Ids(st'.sessions) == Ids(st.sessions) + [ins.id];
      Written(st', Some(s))
  }

  /**
   * `recordPageView(ins)`: append one row holding the caller's columns plus
   * the next id and the store clock as `created_at`.
   */
  function RecordPageView(st: Store, ins: PageViewInsert, now: int, fails: bool): (r: Written<PageView>)
    ensures r.row.None? <==> fails
    ensures r.row.None? ==> r.store == st
    ensures r.row.Some? ==>
      && Supplied(r.row.value) == ins
      && r.row.value.createdAt == now
      && r.store.views == st.views + [r.row.value]
      && r.store.sessions == st.sessions
    ensures Valid(st) ==> Valid(r.store)
  {
    if fails then Written(st, None)
    else
      var v := Stored(ins, st.nextId, now);
      Written(Store(st.sessions, st.views + [v], st.nextId + 1), Some(v))
  }

  /** `update({ last_seen: now }).eq('id', id)` applied to one row. */
  function Touch(s: Session, id: string, now: int): Session {
    if s.id == id then ApplySessionUpdate(s, SessionUpdate(None, Some(now))) else s
  }

  /**
   * `updateSessionLastSeen(id)`: overwrite `last_seen` of the row with this
   * id by the clock. It is a plain assignment, not a maximum. With no
   * matching row `.single()` reports an error and the result is `None`.
   */
  function UpdateSessionLastSeen(st: Store, id: string, now: int, fails: bool): (r: Written<Session>)
    ensures r.row.None? <==> fails || !HasSession(st, id)
    ensures r.row.None? ==> r.store == st
    ensures r.row.Some? ==>
      && r.row.value.id == id
      && r.row.value.lastSeen == now
      && r.store.views == st.views
      && r.store.nextId == st.nextId
      && |r.store.sessions| == |st.sessions|
      && forall i :: 0 <= i < |st.sessions| ==>
           var (a, b) := (st.sessions[i], r.store.sessions[i]);
           && b.id == a.id
           && b.firstSeen == a.firstSeen
           && b.lastSeen == (if a.id == id then now else a.lastSeen)
    ensures r.row.Some? && Valid(st) ==> r.row.value in r.store.sessions
    ensures Valid(st) ==> Valid(r.store)
  {
    if fails || !HasSession(st, id) then Written(st, None)
    else
      var rows := seq(|st.sessions|, i requires 0 <= i < |st.sessions| => Touch(st.sessions[i], id, now));
      var k := IndexOf(st.sessions, id);
      var st' := st.(sessions := rows);
      assert Ids(rows) == Ids(st.sessions);
      Written(st', Some(rows[k]))
  }

  /**
   * Every session's window lies in the past of the clock and is well
   * ordered, and no page view is stamped after the clock.
   */
  predicate Chronological(st: Store, now: int) {
    && (forall s :: s in st.sessions ==> s.firstSeen <= s.lastSeen <= now)
    && (forall v :: v in st.views ==> v.createdAt <= now)
  }

  /** With a clock that never runs backwards, every write keeps `Chronological`. */
  lemma WritesStayChronological(st: Store, before: int, now: int, id: string, ins: PageViewInsert, fails: bool)
    requires Chronological(st, before) && before <= now
    ensures Chronological(CreateSession(st, SessionInsert(id), now, fails).store, now)
    ensures Chronological(RecordPageView(st, ins, now, fails).store, now)
    ensures Chronological(UpdateSessionLastSeen(st, id, now, fails).store, now)
  {
    var u := UpdateSessionLastSeen(st, id, now, fails).store;
    if u != st {
      forall s | s in u.sessions
        ensures s.firstSeen <= s.lastSeen <= now
      {
        var i :| 0 <= i < |u.sessions| && u.sessions[i] == s;
        assert st.sessions[i] in st.sessions;
      }
    }
  }

  /**
   * The overwrite is not a watermark: a clock reading earlier than the
   * stored `last_seen` moves it backwards, even below `first_seen`.
   */
  lemma LastSeenCanRegress()
    ensures
      var st := Store([Session("s", 10, 20)], [], 1);
      var r := UpdateSessionLastSeen(st, "s", 5, false);
      && r.row == Some(Session("s", 10, 5))
      && r.store.sessions[0].lastSeen < r.store.sessions[0].firstSeen
  {
    var st := Store([Session("s", 10, 20)], [], 1);
    assert HasSession(st, "s") by {
      assert Ids(st.sessions)[0] == "s";
    }
  }
}

=== FILE: tally.dfy ===
/**
 * The counting idiom the dashboard repeats:
 * `rows.reduce((acc, r) => { acc[k(r)] = (acc[k(r)] || 0) + 1; return acc }, {})`
 * followed by `Object.entries`. A tally is the resulting entry list: one
 * entry per distinct key, keys in order of first appearance (property order
 * of a plain object for non-integer-like keys).
 */
module Tally {
  import opened Seqs

  /** Keys are strings: page URLs, country names. */
  type Key = string

  datatype Entry = Entry(key: Key, count: nat)

  function Keys(t: seq<Entry>): (ks: seq<Key>)
    ensures |ks| == |t|
    ensures forall i :: 0 <= i < |t| ==> ks[i] == t[i].key
  {
    seq(|t|, i requires 0 <= i < |t| => t[i].key)
  }

  /** The count recorded for `k`, or 0 when `k` has no entry (`acc[k] || 0`). */
  function Lookup(t: seq<Entry>, k: Key): nat {
    if |t| == 0 then 0
    else if t[0].key == k then t[0].count
    else Lookup(t[1..], k)
  }

  function Total(t: seq<Entry>): nat {
    if |t| == 0 then 0 else t[0].count + Total(t[1..])
  }

  /** The distinct values of `s` in order of first appearance. */
  function FirstSeen(s: seq<Key>): (r: seq<Key>)
    ensures Distinct(r)
    ensures forall x :: x in r <==> x in s
  {
    if |s| == 0 then []
    else
      var r := FirstSeen(s[..|s| - 1]);
      if s[|s| - 1] in r then r else r + [s[|s| - 1]]
  }

  /** `acc[k] = (acc[k] || 0) + 1`. */
  function Bump(t: seq<Entry>, k: Key): seq<Entry> {
    if |t| == 0 then [Entry(k, 1)]
    else if t[0].key == k then [Entry(k, t[0].count + 1)] + t[1..]
    else [t[0]] + Bump(t[1..], k)
  }

  /** Bumping keeps the key order and appends a key seen for the first time. */
  lemma {:induction false} BumpKeys(t: seq<Entry>, k: Key)
    ensures Keys(Bump(t, k)) == if k in Keys(t) then Keys(t) else Keys(t) + [k]
  {
    var b := Bump(t, k);
    var want := if k in Keys(t) then Keys(t) else Keys(t) + [k];
    if |t| == 0 {
      assert Keys(b) == [k];
    } else if t[0].key == k {
      assert Keys(t)[0] == k;
      assert b == [Entry(k, t[0].count + 1)] + t[1..];
      assert forall i :: 0 <= i < |b| ==> Keys(b)[i] == Keys(t)[i];
    } else {
      var rest := Bump(t[1..], k);
      BumpKeys(t[1..], k);
      assert b == [t[0]] + rest;
      assert k in Keys(t) <==> k in Keys(t[1..]) by {
        if k in Keys(t) {
          var i :| 0 <= i < |Keys(t)| && Keys(t)[i] == k;
          assert Keys(t[1..])[i - 1] == k;
        }
        if k in Keys(t[1..]) {
          var i :| 0 <= i < |Keys(t[1..])| && Keys(t[1..])[i] == k;
          assert Keys(t)[i + 1] == k;
        }
      }
      assert |Keys(b)| == |want|;
      forall i | 0 <= i < |b| ensures Keys(b)[i] == want[i] {
        if i > 0 {
          assert Keys(b)[i] == Keys(rest)[i - 1];
        }
      }
    }
  }

  /** Bumping adds one to the count of `k` and to no other count. */
  lemma {:induction false} BumpCounts(t: seq<Entry>, k: Key)
    ensures forall j :: Lookup(Bump(t, k), j) == Lookup(t, j) + (if j == k then 1 else 0)
    ensures Total(Bump(t, k)) == Total(t) + 1
    ensures forall e :: e in Bump(t, k) ==> e.count > 0 || e in t
  {
    if |t| > 0 && t[0].key != k {
      BumpCounts(t[1..], k);
      var r := Bump(t, k);
      assert r[1..] == Bump(t[1..], k);
      forall e | e in r
        ensures e.count > 0 || e in t
      {
        if e != t[0] {
          assert e in r[1..];
        }
      }
    }
  }

  /**
   * The tally of `keys`: its keys are the distinct values of `keys` in
   * order of first appearance, each counted as often as it occurs, so the
   * counts add up to the number of keys tallied.
   */
  function Count(keys: seq<Key>): (t: seq<Entry>)
    ensures Keys(t) == FirstSeen(keys)
    ensures forall k :: Lookup(t, k) == Occurrences(keys, k)
    ensures Total(t) == |keys|
    ensures forall e :: e in t ==> e.count > 0
  {
    if |keys| == 0 then []
    else
      var t := Count(keys[..|keys| - 1]);
      var k := keys[|keys| - 1];
      BumpKeys(t, k);
      BumpCounts(t, k);
      Bump(t, k)
  }

  /** In a tally with distinct keys, every entry holds the count `Lookup` finds for its key. */
  lemma {:induction false} EntryIsLookup(t: seq<Entry>, e: Entry)
    requires Distinct(Keys(t)) && e in t
    ensures e.count == Lookup(t, e.key)
  {
    if t[0] != e {
      var i :| 0 <= i < |t| && t[i] == e;
      assert t[1..][i - 1] == e;
      assert t[0].key != e.key by {
        assert Keys(t)[0] == t[0].key && Keys(t)[i] == e.key;
      }
      assert Distinct(Keys(t[1..])) by {
        forall a, b | 0 <= a < b < |t| - 1 ensures Keys(t[1..])[a] != Keys(t[1..])[b] {
          assert Keys(t[1..])[a] == Keys(t)[a + 1] && Keys(t[1..])[b] == Keys(t)[b + 1];
        }
      }
      EntryIsLookup(t[1..], e);
    }
  }

  /** Every entry of a tally counts exactly the occurrences of its key. */
  lemma CountEntries(keys: seq<Key>)
    ensures forall e :: e in Count(keys) ==> e.count == Occurrences(keys, e.key) && e.key in keys
  {
    var t := Count(keys);
    forall e | e in t
      ensures e.count == Occurrences(keys, e.key) && e.key in keys
    {
      EntryIsLookup(t, e);
      var i :| 0 <= i < |t| && t[i] == e;
      assert Keys(t)[i] == e.key;
    }
  }

  /** `Total` agrees with the general sum of counts. */
  lemma {:induction false} TotalIsSum(t: seq<Entry>)
    ensures Total(t) == Sum(t, (e: Entry) => e.count)
  {
    if |t| > 0 {
      TotalIsSum(t[1..]);
      SumAppend([t[0]], t[1..], (e: Entry) => e.count);
      assert t == [t[0]] + t[1..];
    }
  }
}

=== FILE: text.dfy ===
/**
 * The string operations the source relies on: decimal rendering of numbers
 * (template literals and `toString()`), ASCII lower-casing, substring search
 * and prefix tests.
 */
module Text {

  predicate IsDigit(c: char) {
    '0' <= c <= '9'
  }

  predicate AllDigits(s: string) {
    forall i :: 0 <= i < |s| ==> IsDigit(s[i])
  }

  function DigitChar(d: nat): (c: char)
    requires d < 10
    ensures IsDigit(c)
  {
    (('0' as int) + d) as char
  }

  function DigitValue(c: char): (d: nat)
    requires IsDigit(c)
    ensures d < 10
  {
    (c as int) - ('0' as int)
  }

  /** Reads a run of decimal digits as a number. */
  function ParseNat(s: string): nat
    requires AllDigits(s)
  {
    if |s| == 0 then 0 else ParseNat(s[..|s| - 1]) * 10 + DigitValue(s[|s| - 1])
  }

  /**
   * `String(n)` for a non-negative integer: its shortest decimal spelling.
   * Reading it back gives `n`, so distinct numbers render distinctly.
   */
  function NatToString(n: nat): (s: string)
    ensures |s| > 0 && AllDigits(s)
    ensures |s| > 1 ==> s[0] != '0'
    ensures ParseNat(s) == n
  {
    if n < 10 then [DigitChar(n)]
    else
      var prefix := NatToString(n / 10);
      var s := prefix + [DigitChar(n % 10)];
      assert s[..|s| - 1] == prefix;
      s
  }

  /** `String(i)` for any integer: a minus sign before the magnitude when negative. */
  function IntToString(i: int): (s: string)
    ensures |s| > 0
    ensures i >= 0 ==> s == NatToString(i)
    ensures i < 0 ==> s[0] == '-' && s[1..] == NatToString(-i)
  {
    if i < 0 then "-" + NatToString(-i) else NatToString(i)
  }

  lemma NatToStringInjective(m: nat, n: nat)
    requires NatToString(m) == NatToString(n)
    ensures m == n
  {
  }

  function LowerChar(c: char): (d: char)
    ensures 'A' <= c <= 'Z' ==> d as int == c as int + 32
    ensures !('A' <= c <= 'Z') ==> d == c
  {
    if 'A' <= c <= 'Z' then ((c as int) + 32) as char else c
  }

  /** ASCII lower-casing, position by position. */
  function Lower(s: string): (r: string)
    ensures |r| == |s|
    ensures forall i :: 0 <= i < |s| ==> r[i] == LowerChar(s[i])
  {
    seq(|s|, i requires 0 <= i < |s| => LowerChar(s[i]))
  }

  /** `p` occurs in `s` starting at position `i`. */
  predicate OccursAt(s: string, p: string, i: int) {
    0 <= i && i + |p| <= |s| && s[i..i + |p|] == p
  }

  lemma ContainsStep(s: string, p: string)
    requires |p| <= |s| && s[..|p|] != p
    ensures (exists i :: OccursAt(s, p, i)) <==> (exists i :: OccursAt(s[1..], p, i))
  {
    if exists i :: OccursAt(s, p, i) {
      var i :| OccursAt(s, p, i);
      assert i != 0;
      assert s[1..][i - 1..i - 1 + |p|] == s[i..i + |p|];
      assert OccursAt(s[1..], p, i - 1);
    }
    if exists i :: OccursAt(s[1..], p, i) {
      var i :| OccursAt(s[1..], p, i);
      assert s[1..][i..i + |p|] == s[i + 1..i + 1 + |p|];
      assert OccursAt(s, p, i + 1);
    }
  }

  /** `s.includes(p)`: some window of `s` equals `p`. */
  function Contains(s: string, p: string): (b: bool)
    ensures b <==> exists i :: OccursAt(s, p, i)
    decreases |s|
  {
    if |s| < |p| then
      assert forall i :: !OccursAt(s, p, i);
      false
    else if s[..|p|] == p then
      assert OccursAt(s, p, 0);
      true
    else
      ContainsStep(s, p);
      Contains(s[1..], p)
  }

  /** `/p/i.test(s)` for a lower-case ASCII pattern `p`. */
  predicate ContainsIgnoreCase(s: string, p: string) {
    Contains(Lower(s), p)
  }

  predicate StartsWith(s: string, prefix: string) {
    |prefix| <= |s| && s[..|prefix|] == prefix
  }
}

=== FILE: timing_page.dfy ===
/**
 * The timing page (`fetchTimingMetrics` and `formatDay` in
 * `app/dashboard/timing/page.tsx`): visits per local hour and per weekday,
 * the peak of each, and the mean visits per hour and per weekday that saw
 * any visit.
 *
 * The counting objects use integer-like keys ("0" .. "23", "0" .. "6"),
 * which `Object.entries` enumerates in ascending numeric order, so each
 * count object is a sequence indexed by hour or weekday, restricted to the
 * keys that were set (`Slots`).
 */
module Timing {
  import opened Wrappers
  import opened Seqs
  import opened Clock
  import opened Numbers
  import opened Rows
  import opened Sorting

  /** `new Date(created_at).getHours()` as a classifier. */
  function HourOf(tz: int): PageView -> nat {
    (v: PageView) => LocalHour(v.createdAt, tz)
  }

  /** `new Date(created_at).getDay()` as a classifier. */
  function WeekdayOf(tz: int): PageView -> nat {
    (v: PageView) => LocalWeekday(v.createdAt, tz)
  }

  /** A key that was set in a count object, with its count. */
  datatype Slot = Slot(index: nat, count: nat)

  function SlotCount(s: Slot): int {
    s.count
  }

  /** `Object.entries(counts)`: the keys that were set, in ascending order. */
  function Slots(h: seq<nat>): seq<Slot> {
    if |h| == 0 then []
    else Slots(h[..|h| - 1]) + (if h[|h| - 1] > 0 then [Slot(|h| - 1, h[|h| - 1])] else [])
  }

  /**
   * The set keys are exactly the indices with a non-zero count, each once,
   * in ascending order, carrying its count.
   */
  lemma {:induction false} SlotsFacts(h: seq<nat>)
    ensures forall j :: 0 <= j < |Slots(h)| ==>
      Slots(h)[j].index < |h| && Slots(h)[j].count == h[Slots(h)[j].index] > 0
    ensures forall j, k :: 0 <= j < k < |Slots(h)| ==> Slots(h)[j].index < Slots(h)[k].index
    ensures forall i :: 0 <= i < |h| && h[i] > 0 ==> exists j :: 0 <= j < |Slots(h)| && Slots(h)[j].index == i
  {
    if |h| > 0 {
      var n := |h| - 1;
      var h' := h[..n];
      SlotsFacts(h');
      var r := Slots(h');
      var s := Slots(h);
      assert forall j :: 0 <= j < |r| ==> s[j] == r[j];
      forall i | 0 <= i < |h| && h[i] > 0 ensures exists j :: 0 <= j < |s| && s[j].index == i {
        if i < n {
          assert h'[i] == h[i];
          var j :| 0 <= j < |r| && r[j].index == i;
          assert s[j].index == i;
        } else {
          assert s[|s| - 1].index == i;
        }
      }
    }
  }

  /** The first index holding the largest count: the reference peak. */
  predicate IsFirstMax(h: seq<nat>, p: nat) {
    && p < |h|
    && (forall j :: 0 <= j < |h| ==> h[j] <= h[p])
    && (forall j :: 0 <= j < p ==> h[j] < h[p])
  }

  /**
   * `Object.entries(counts).sort(([, a], [, b]) => b - a)[0][0]`: the key
   * of the first entry after a stable sort by descending count.
   */
  function PeakBySort(h: seq<nat>): (p: nat)
    requires exists i :: 0 <= i < |h| && h[i] > 0
    ensures IsFirstMax(h, p)
  {
    var sorted := SortDesc(Slots(h), SlotCount);
    PeakIsFirstMax(h);
    sorted[0].index
  }

  /** The first element of a key class is the first element carrying that key. */
  lemma {:induction false} KeyClassHead<T>(s: seq<T>, key: T -> int, k: int, j: nat)
    requires j < |s| && key(s[j]) == k
    requires forall i :: 0 <= i < j ==> key(s[i]) != k
    ensures |KeyClass(s, key, k)| > 0 && KeyClass(s, key, k)[0] == s[j]
  {
    if j > 0 {
      KeyClassHead(s[1..], key, k, j - 1);
    }
  }

  /** The head of a descending permutation of `s` carries the largest count of `s`. */
  lemma HeadIsMax(s: seq<Slot>, sorted: seq<Slot>)
    requires |sorted| > 0 && SortedDesc(sorted, SlotCount)
    requires multiset(sorted) == multiset(s)
    ensures sorted[0] in s
    ensures forall j :: 0 <= j < |s| ==> s[j].count <= sorted[0].count
  {
    assert sorted[0] in multiset(s);
    forall j | 0 <= j < |s| ensures s[j].count <= sorted[0].count {
      assert s[j] in multiset(sorted);
      var k :| 0 <= k < |sorted| && sorted[k] == s[j];
      assert SlotCount(sorted[0]) >= SlotCount(sorted[k]);
    }
  }

  /**
   * The head of the stable descending sort of the set keys is the first
   * hour (or weekday) with the largest count: ties go to the smallest key.
   */
  lemma PeakIsFirstMax(h: seq<nat>)
    requires exists i :: 0 <= i < |h| && h[i] > 0
    ensures
      var sorted := SortDesc(Slots(h), SlotCount);
      |sorted| > 0 && IsFirstMax(h, sorted[0].index)
  {
    var s := Slots(h);
    var sorted := SortDesc(s, SlotCount);
    SortDescSorted(s, SlotCount);
    SortDescPermutes(s, SlotCount);
    SlotsFacts(h);
    var i0 :| 0 <= i0 < |h| && h[i0] > 0;
    var j0 :| 0 <= j0 < |s| && s[j0].index == i0;
    SortDescLength(s, SlotCount);
    HeadIsMax(s, sorted);
    var top := sorted[0];
    var m := top.count;
    HighestCount(h, s, m);
    var jt :| 0 <= jt < |s| && s[jt] == top;
    var jf := FirstWithCount(s, m, jt);
    SortDescStable(s, SlotCount, m);
    KeyClassHead(sorted, SlotCount, m, 0);
    KeyClassHead(s, SlotCount, m, jf);
    assert top == s[jf];
    EarlierIsSmaller(h, s, jf);
  }

  lemma HighestCount(h: seq<nat>, s: seq<Slot>, m: nat)
    requires s == Slots(h)
    requires forall j :: 0 <= j < |s| ==> s[j].count <= m
    ensures forall i :: 0 <= i < |h| ==> h[i] <= m
  {
    SlotsFacts(h);
    forall i | 0 <= i < |h| && h[i] > 0 ensures h[i] <= m {
      var j :| 0 <= j < |s| && s[j].index == i;
    }
  }

  /** Before the first set key with count `m`, no index holds `m`. */
  lemma EarlierIsSmaller(h: seq<nat>, s: seq<Slot>, jf: nat)
    requires jf < |s| && s[jf].index < |h|
    requires forall j :: 0 <= j < |s| ==> s[j].index < |h| && s[j].count == h[s[j].index]
    requires forall j, k :: 0 <= j < k < |s| ==> s[j].index < s[k].index
    requires forall i :: 0 <= i < |h| && h[i] > 0 ==> exists j :: 0 <= j < |s| && s[j].index == i
    requires forall i :: 0 <= i < jf ==> SlotCount(s[i]) != s[jf].count
    requires forall i :: 0 <= i < |h| ==> h[i] <= s[jf].count
    requires s[jf].count > 0
    ensures forall i :: 0 <= i < s[jf].index ==> h[i] < s[jf].count
  {
    forall i | 0 <= i < s[jf].index ensures h[i] < s[jf].count {
      if h[i] > 0 {
        var j :| 0 <= j < |s| && s[j].index == i;
        assert j < jf;
        assert SlotCount(s[j]) == h[i];
      }
    }
  }

  /** The position of the first slot with count `m`, given some slot at or after it has it. */
  lemma FirstWithCount(s: seq<Slot>, m: nat, j: nat) returns (f: nat)
    requires j < |s| && s[j].count == m
    ensures f <= j && s[f].count == m
    ensures forall i :: 0 <= i < f ==> SlotCount(s[i]) != m
  {
    f := 0;
    while s[f].count != m
      invariant f <= j
      invariant forall i :: 0 <= i < f ==> s[i].count != m
      decreases j - f
    {
      f := f + 1;
    }
  }

  /** The four cards; `peakHour` is the hour number (its 12-hour rendering is not modelled). */
  datatype TimingMetrics = TimingMetrics(peakHour: Option<nat>, peakDay: string, perHour: int, perDay: int)

  const Initial := TimingMetrics(None, "", 0, 0)

  /** Day number of 2024-01-01 since 1970-01-01. */
  const Jan1st2024: int := 19723

  /** The weekday of a day number, Sunday = 0. */
  function WeekdayOfDay(day: int): (d: nat)
    ensures d < 7
  {
    (day + Thursday) % 7
  }

  /**
   * `formatDay(d)` as written: the long name of the weekday of
   * `new Date(2024, 0, d + 4)`, the (d + 4)-th of January 2024.
   */
  function FormatDay(d: nat): (s: string)
    ensures s in LongDayNames
  {
    LongDayNames[WeekdayOfDay(Jan1st2024 + (d + 4) - 1)]
  }

  /** The offset, exhibited: 2024-01-01 was a Monday, so `getDay()` 0 (Sunday) prints "Thursday". */
  lemma FormatDayShifted(d: nat)
    requires d < 7
    ensures FormatDay(d) == LongDayNames[(d + 4) % 7]
    ensures WeekdayOfDay(Jan1st2024) == 1
    ensures FormatDay(0) == "Thursday" != LongDayNames[0]
  {
  }

  /** `formatDay` with the intended anchor: 2024-01-07 was a Sunday. */
  function FormatDayCorrected(d: nat): (s: string)
    ensures d < 7 ==> s == LongDayNames[d]
  {
    LongDayNames[WeekdayOfDay(Jan1st2024 + (d + 7) - 1)]
  }

  /** The number of set keys: `Object.values(counts).length || 1`. */
  function SetKeys(h: seq<nat>): (n: nat)
    ensures n >= 1
    ensures (exists i :: 0 <= i < |h| && h[i] > 0) ==> n == |Slots(h)|
  {
    SlotsFacts(h);
    if |Slots(h)| == 0 then 1 else |Slots(h)|
  }

  /**
   * The metrics shared by the as-written and the corrected page: peak
   * hour and weekday as indices, and the two means.
   */
  function Compute(rows: seq<PageView>, tz: int, format: nat -> string): (m: TimingMetrics)
    requires |rows| > 0
    ensures
      var (hours, days) := (Histogram(rows, HourOf(tz), 24), Histogram(rows, WeekdayOf(tz), 7));
      && m.peakHour.Some? && IsFirstMax(hours, m.peakHour.value)
      && (exists d: nat :: IsFirstMax(days, d) && m.peakDay == format(d))
      && 2 * SetKeys(hours) * m.perHour - SetKeys(hours) <= 2 * |rows| < 2 * SetKeys(hours) * m.perHour + SetKeys(hours)
      && 2 * SetKeys(days) * m.perDay - SetKeys(days) <= 2 * |rows| < 2 * SetKeys(days) * m.perDay + SetKeys(days)
  {
    var hours := Histogram(rows, HourOf(tz), 24);
    var days := Histogram(rows, WeekdayOf(tz), 7);
    SomeBucketSet(rows, HourOf(tz), 24);
    SomeBucketSet(rows, WeekdayOf(tz), 7);
    var d := PeakBySort(days);
    TimingMetrics(
      Some(PeakBySort(hours)),
      format(d),
      RoundDiv(|rows|, SetKeys(hours)),
      RoundDiv(|rows|, SetKeys(days)))
  }

  /** Some bucket of a non-empty histogram is set. */
  lemma SomeBucketSet<T>(rows: seq<T>, c: T -> nat, k: nat)
    requires |rows| > 0 && forall x :: x in rows ==> c(x) < k
    ensures exists i :: 0 <= i < k && Histogram(rows, c, k)[i] > 0
  {
    var x := rows[|rows| - 1];
    var i := c(x);
    assert InBucket(c, i)(x);
    assert Histogram(rows, c, k)[i] > 0;
  }

  /**
   * `fetchTimingMetrics` as written. A failed query, or no page views (the
   * `[0][0]` access throws and is caught), keeps the previous metrics.
   */
  function TimingMetricsOf(views: Fetch<PageView>, tz: int, prev: TimingMetrics): (m: TimingMetrics)
    ensures views.FetchFailed? || |views.rows| == 0 ==> m == prev
    ensures views.Fetched? && |views.rows| > 0 ==>
      var (rows, hours, days) := (views.rows, Histogram(views.rows, HourOf(tz), 24), Histogram(views.rows, WeekdayOf(tz), 7));
      && m.peakHour.Some? && IsFirstMax(hours, m.peakHour.value)
      && (exists d: nat :: IsFirstMax(days, d) && m.peakDay == LongDayNames[(d + 4) % 7])
      && 2 * SetKeys(hours) * m.perHour - SetKeys(hours) <= 2 * |rows| < 2 * SetKeys(hours) * m.perHour + SetKeys(hours)
      && 2 * SetKeys(days) * m.perDay - SetKeys(days) <= 2 * |rows| < 2 * SetKeys(days) * m.perDay + SetKeys(days)
  {
    if views.FetchFailed? || |views.rows| == 0 then prev
    else
      var m := Compute(views.rows, tz, FormatDay);
      forall d | 0 <= d < 7 ensures FormatDay(d) == LongDayNames[(d + 4) % 7] {
        FormatDayShifted(d);
      }
      m
  }

  /** The page with the corrected `formatDay`: the peak day is named correctly. */
  function TimingMetricsCorrected(views: Fetch<PageView>, tz: int, prev: TimingMetrics): (m: TimingMetrics)
    ensures views.FetchFailed? || |views.rows| == 0 ==> m == prev
    ensures views.Fetched? && |views.rows| > 0 ==>
      var (rows, hours, days) := (views.rows, Histogram(views.rows, HourOf(tz), 24), Histogram(views.rows, WeekdayOf(tz), 7));
      && m.peakHour.Some? && IsFirstMax(hours, m.peakHour.value)
      && (exists d: nat :: IsFirstMax(days, d) && m.peakDay == LongDayNames[d])
      && 2 * SetKeys(hours) * m.perHour - SetKeys(hours) <= 2 * |rows| < 2 * SetKeys(hours) * m.perHour + SetKeys(hours)
      && 2 * SetKeys(days) * m.perDay - SetKeys(days) <= 2 * |rows| < 2 * SetKeys(days) * m.perDay + SetKeys(days)
  {
    if views.FetchFailed? || |views.rows| == 0 then prev
    else Compute(views.rows, tz, FormatDayCorrected)
  }

  /** Each page view lands in exactly one hour and one weekday, so both tallies add up to the visits. */
  lemma EveryViewCountedOnce(rows: seq<PageView>, tz: int)
    ensures Total(Histogram(rows, HourOf(tz), 24)) == |rows|
    ensures Total(Histogram(rows, WeekdayOf(tz), 7)) == |rows|
  {
    HistogramTotal(rows, HourOf(tz), 24);
    HistogramTotal(rows, WeekdayOf(tz), 7);
  }

  /** Ties go to the earlier hour: two equally busy hours report the smaller. */
  lemma TieGoesToEarlierHour()
    ensures var h: seq<nat> := [0, 3, 0, 3]; h[1] > 0 && PeakBySort(h) == 1
  {
  }
}

=== FILE: track.dfy ===
/**
 * The ingestion endpoint (`POST /api/track`): device classification and the
 * create-or-touch-then-append transition over the store. The server clock,
 * the fresh UUID and the outcome of every store call are inputs gathered in
 * `Env`; CORS headers and the response envelope are left out.
 */
module Track {
  import opened Wrappers
  import opened Text
  import opened Rows
  import opened Store

  /**
   * `getDeviceType(ua)`: "mobile" when the agent mentions "mobile" in any
   * letter case, else "tablet" when it mentions "tablet", else "desktop".
   */
  function GetDeviceType(ua: string): (d: string)
    ensures d == "mobile" <==> exists i :: OccursAt(Lower(ua), "mobile", i)
    ensures d == "tablet" <==>
      && !(exists i :: OccursAt(Lower(ua), "mobile", i))
      && (exists i :: OccursAt(Lower(ua), "tablet", i))
    ensures d in {"mobile", "tablet", "desktop"}
  {
    if ContainsIgnoreCase(ua, "mobile") then "mobile"
    else if ContainsIgnoreCase(ua, "tablet") then "tablet"
    else "desktop"
  }

  /** The JSON body the beacon posts. */
  datatype Body = Body(sessionId: Option<string>, pageUrl: string, referrer: Option<string>)

  /**
   * An inbound request: the parsed body (`None` when `request.json()`
   * rejects) and the two headers read (`cf-ipcountry`, `user-agent`).
   */
  datatype Request = Request(body: Option<Body>, countryHeader: Option<string>, userAgentHeader: Option<string>)

  /**
   * What the handler cannot see for itself: the clock, the value
   * `crypto.randomUUID()` returns, and whether each store call fails.
   */
  datatype Env = Env(now: int, freshId: string, createFails: bool, touchFails: bool, insertFails: bool)

  /** The JSON reply: `{ sessionId }`, or an error with HTTP status 500. */
  datatype Response = Tracked(sessionId: string) | Failed(status: nat, error: string)

  datatype Outcome = Outcome(store: Store, response: Response)

  /** The row inserted for this request under session `sid`. */
  function PageViewFor(req: Request, sid: string): PageViewInsert
    requires req.body.Some?
  {
    var ua := OrNull(req.userAgentHeader);
    PageViewInsert(
      sid,
      req.body.value.pageUrl,
      req.body.value.referrer,
      ua,
      OrNull(req.countryHeader),
      if ua.Some? then Some(GetDeviceType(ua.value)) else None)
  }

  /** The body carries a session token in the sense of `if (!sessionId)`. */
  predicate HasToken(req: Request) {
    req.body.Some? && Truthy(req.body.value.sessionId)
  }

  /**
   * One `POST`. Without a token: create a session under the fresh id (a 500
   * reply and no page view if that fails), append a page view under it and
   * return the id. With a token: touch that session, append a page view
   * under the token and echo it; the outcome of both writes is ignored.
   */
  function Post(st: Store, req: Request, env: Env): (o: Outcome)
    // an unreadable body is a 500 and writes nothing
    ensures req.body.None? ==> o == Outcome(st, Failed(500, "Internal server error"))
    // no token, and the session insert fails: a 500, nothing written
    ensures req.body.Some? && !HasToken(req) && (env.createFails || HasSession(st, env.freshId)) ==>
      o == Outcome(st, Failed(500, "Failed to create session"))
    // no token, session created: the fresh id is returned and owns the session and the page view
    ensures req.body.Some? && !HasToken(req) && !(env.createFails || HasSession(st, env.freshId)) ==>
      && o.response == Tracked(env.freshId)
      && o.store.sessions == st.sessions + [Session(env.freshId, env.now, env.now)]
      && o.store.views == st.views +
           (if env.insertFails then [] else [Stored(PageViewFor(req, env.freshId), st.nextId, env.now)])
    // a token is always echoed, whatever happened to the writes
    ensures HasToken(req) ==> o.response == Tracked(req.body.value.sessionId.value)
    // the page view is appended under the token even when no session has that id
    ensures HasToken(req) ==>
      var sid := req.body.value.sessionId.value;
      o.store.views == st.views +
        (if env.insertFails then [] else [Stored(PageViewFor(req, sid), st.nextId, env.now)])
    // the token's session, when there is one and the touch succeeds, is the only one that changes
    ensures HasToken(req) ==>
      o.store.sessions == UpdateSessionLastSeen(st, req.body.value.sessionId.value, env.now, env.touchFails).store.sessions
    ensures |o.store.views| <= |st.views| + 1
    ensures Valid(st) ==> Valid(o.store)
  {
    if req.body.None? then Outcome(st, Failed(500, "Internal server error"))
    else if !HasToken(req) then
      var created := CreateSession(st, SessionInsert(env.freshId), env.now, env.createFails);
      if created.row.None? then Outcome(created.store, Failed(500, "Failed to create session"))
      else
        var sid := created.row.value.id;
        var recorded := RecordPageView(created.store, PageViewFor(req, sid), env.now, env.insertFails);
        Outcome(recorded.store, Tracked(sid))
    else
      var sid := req.body.value.sessionId.value;
      var touched := UpdateSessionLastSeen(st, sid, env.now, env.touchFails);
      var recorded := RecordPageView(touched.store, PageViewFor(req, sid), env.now, env.insertFails);
      Outcome(recorded.store, Tracked(sid))
  }

  /** A request that carries `sid` as its token, otherwise like `req`. */
  function WithToken(req: Request, sid: string): Request
    requires req.body.Some?
  {
    req.(body := Some(req.body.value.(sessionId := Some(sid))))
  }

  /**
   * Sessionization round trip: the id a token-less call returns, supplied as
   * the token of the next call, puts both page views under one session id,
   * and that session now carries the second call's clock as `last_seen`.
   */
  lemma {:induction false} TokenRoundTrip(st: Store, first: Request, second: Request, e1: Env, e2: Env)
    requires Valid(st)
    requires first.body.Some? && !HasToken(first)
    requires second.body.Some?
    requires !e1.insertFails && !e2.insertFails && !e2.touchFails
    requires Post(st, first, e1).response.Tracked?
    requires e1.freshId != ""
    ensures
      var o1 := Post(st, first, e1);
      var sid := o1.response.sessionId;
      var o2 := Post(o1.store, WithToken(second, sid), e2);
      && sid == e1.freshId
      && o2.response == Tracked(sid)
      && |o2.store.views| == |st.views| + 2
      && o2.store.views[|st.views|].sessionId == sid
      && o2.store.views[|st.views| + 1].sessionId == sid
      && Session(sid, e1.now, e2.now) in o2.store.sessions
  {
    var o1 := Post(st, first, e1);
    var sid := o1.response.sessionId;
    var req2 := WithToken(second, sid);
    assert HasToken(req2);
    assert o1.store.sessions[|st.sessions|] == Session(sid, e1.now, e1.now);
    assert HasSession(o1.store, sid) by {
      assert Ids(o1.store.sessions)[|st.sessions|] == sid;
    }
    var touched := UpdateSessionLastSeen(o1.store, sid, e2.now, e2.touchFails);
    assert touched.row.Some?;
    assert touched.store.sessions[|st.sessions|] == Session(sid, e1.now, e2.now);
  }

  /**
   * A token nobody ever minted still gets its page view: the row's
   * `session_id` then refers to no session.
   */
  lemma DanglingTokenStillRecorded(st: Store, req: Request, env: Env)
    requires HasToken(req) && !env.insertFails
    requires !HasSession(st, req.body.value.sessionId.value)
    ensures
      var o := Post(st, req, env);
      && o.store.sessions == st.sessions
      && |o.store.views| == |st.views| + 1
      && o.store.views[|st.views|].sessionId == req.body.value.sessionId.value
      && !HasSession(o.store, o.store.views[|st.views|].sessionId)
  {
  }

  /** A missing or empty `user-agent` header leaves the device type null, never "desktop". */
  lemma DeviceTypeNeedsAgent(req: Request, sid: string)
    requires req.body.Some?
    ensures PageViewFor(req, sid).deviceType.None? <==> !Truthy(req.userAgentHeader)
    ensures PageViewFor(req, sid).country.None? <==> !Truthy(req.countryHeader)
  {
  }
}

=== FILE: world_map.dfy ===
/**
 * The world map's logic (`components/dashboard/geography/world-map.tsx`):
 * the colour band of a country's visits, the country-to-visits lookup
 * built from the breakdown rows, the choice of the country to focus, the
 * view position, and the tooltip's visit count.
 *
 * The coordinate table is a partial map from country name to a centre;
 * its contents, the map projection and the rendering are not modelled.
 */
module WorldMap {
  import opened Wrappers
  import opened Sorting
  import opened Rows
  import Geography

  type CountryData = Geography.CountryData

  const NoVisitColor: string := "#F5F5F5"

  /** The six bands from the lowest to the highest, after the no-visit colour. */
  const Palette: seq<string> := [NoVisitColor, "#BFDBFE", "#93C5FD", "#60A5FA", "#3B82F6", "#2563EB", "#1E40AF"]

  /** `getColor(visits)`; `None` is a country without an entry (`undefined`). */
  function GetColor(visits: Option<nat>): (c: string)
    ensures visits.None? || visits.value == 0 ==> c == NoVisitColor
    ensures visits.Some? && 0 < visits.value <= 10 ==> c == "#BFDBFE"
    ensures visits.Some? && 10 < visits.value <= 50 ==> c == "#93C5FD"
    ensures visits.Some? && 50 < visits.value <= 100 ==> c == "#60A5FA"
    ensures visits.Some? && 100 < visits.value <= 500 ==> c == "#3B82F6"
    ensures visits.Some? && 500 < visits.value <= 1000 ==> c == "#2563EB"
    ensures visits.Some? && 1000 < visits.value ==> c == "#1E40AF"
  {
    if visits.None? || visits.value == 0 then NoVisitColor
    else if visits.value > 1000 then "#1E40AF"
    else if visits.value > 500 then "#2563EB"
    else if visits.value > 100 then "#3B82F6"
    else if visits.value > 50 then "#60A5FA"
    else if visits.value > 10 then "#93C5FD"
    else "#BFDBFE"
  }

  /** The position of a colour in the palette: how dark its band is. */
  function Rank(c: string): nat {
    if c == Palette[6] then 6
    else if c == Palette[5] then 5
    else if c == Palette[4] then 4
    else if c == Palette[3] then 3
    else if c == Palette[2] then 2
    else if c == Palette[1] then 1
    else 0
  }

  /** More visits never give a lighter band; a visit always gives more than the no-visit colour. */
  lemma ColorMonotone(a: nat, b: nat)
    requires a <= b
    ensures Rank(GetColor(Some(a))) <= Rank(GetColor(Some(b)))
    ensures a > 0 ==> Rank(GetColor(Some(a))) > 0
    ensures Rank(GetColor(None)) == Rank(GetColor(Some(0))) == 0
  {
  }

  /**
   * `countryVisits`: the reduce that maps each row's country to its visits.
   * A later row with the same country overwrites an earlier one.
   */
  function CountryVisits(data: seq<CountryData>): map<string, nat> {
    if |data| == 0 then map[]
    else
      var n := |data| - 1;
      CountryVisits(data[..n])[data[n].country := data[n].visits]
  }

  /** Every row's country is a key, and a key holds the visits of the last row naming it. */
  lemma {:induction false} CountryVisitsFacts(data: seq<CountryData>)
    ensures forall c :: c in CountryVisits(data) <==> exists i :: 0 <= i < |data| && data[i].country == c
    ensures forall i :: 0 <= i < |data| && IsLastFor(data, i) ==> CountryVisits(data)[data[i].country] == data[i].visits
  {
    if |data| > 0 {
      var n := |data| - 1;
      var d := data[..n];
      CountryVisitsFacts(d);
      var m := CountryVisits(d);
      var r := CountryVisits(data);
      assert forall j :: 0 <= j < n ==> d[j] == data[j];
      forall c ensures c in r <==> exists i :: 0 <= i < |data| && data[i].country == c {
        if c in m {
          var i :| 0 <= i < n && d[i].country == c;
          assert data[i].country == c;
        }
        if c != data[n].country && exists i :: 0 <= i < |data| && data[i].country == c {
          var i :| 0 <= i < |data| && data[i].country == c;
          assert d[i].country == c;
        }
      }
      forall i | 0 <= i < |data| && IsLastFor(data, i) ensures r[data[i].country] == data[i].visits {
        if i < n {
          assert data[n].country != data[i].country;
          assert IsLastFor(d, i);
        }
      }
    }
  }

  /** No later row has the country of row `i`. */
  predicate IsLastFor(data: seq<CountryData>, i: nat)
    requires i < |data|
  {
    forall j :: i < j < |data| ==> data[j].country != data[i].country
  }

  /** With one row per country (as the breakdown has), every row's visits are found under its country. */
  lemma DistinctRowsAllFound(data: seq<CountryData>)
    requires DistinctBy(data, Geography.Name)
    ensures forall i :: 0 <= i < |data| ==> data[i].country in CountryVisits(data)
    ensures forall i :: 0 <= i < |data| ==> CountryVisits(data)[data[i].country] == data[i].visits
  {
    CountryVisitsFacts(data);
    forall i | 0 <= i < |data| ensures IsLastFor(data, i) {
      forall j | i < j < |data| ensures data[j].country != data[i].country {
        assert Geography.Name(data[i]) != Geography.Name(data[j]);
      }
    }
  }

  /** Row `i` has the most visits and every earlier row has fewer: the reference top country. */
  predicate FirstMaxAt(data: seq<CountryData>, i: nat) {
    && i < |data|
    && (forall j :: 0 <= j < |data| ==> data[j].visits <= data[i].visits)
    && (forall j :: 0 <= j < i ==> data[j].visits < data[i].visits)
  }

  lemma FirstMaxUnique(data: seq<CountryData>, i: nat, j: nat)
    requires FirstMaxAt(data, i) && FirstMaxAt(data, j)
    ensures i == j
  {
    assert data[i].visits == data[j].visits;
  }

  /**
   * The position of the row `data.reduce((max, current) => current.visits > max.visits ? current : max)`
   * picks: the strict `>` keeps the earlier row on a tie.
   */
  function TopIndex(data: seq<CountryData>): (i: nat)
    requires |data| > 0
    ensures FirstMaxAt(data, i)
  {
    if |data| == 1 then 0
    else
      var n := |data| - 1;
      var k := TopIndex(data[..n]);
      assert data[..n][k] == data[k];
      assert forall j :: 0 <= j < n ==> data[..n][j] == data[j];
      if data[n].visits > data[k].visits then n else k
  }

  /** The map view: `{ coordinates, zoom }`. */
  datatype Position = Position(center: (int, int), zoom: nat)

  const DefaultPosition := Position((0, 0), 1)

  /**
   * The effect run when the data changes: focus the top country at zoom 4
   * if the coordinate table knows it; otherwise, or with no rows, keep the
   * current position.
   */
  function FocusTop(data: seq<CountryData>, coords: map<string, (int, int)>, current: Position): (p: Position)
    ensures |data| == 0 ==> p == current
    ensures forall i: nat :: FirstMaxAt(data, i) && data[i].country in coords ==>
      p == Position(coords[data[i].country], 4)
    ensures forall i: nat :: FirstMaxAt(data, i) && data[i].country !in coords ==> p == current
  {
    if |data| == 0 then current
    else
      var i := TopIndex(data);
      forall j: nat | FirstMaxAt(data, j) ensures j == i {
        FirstMaxUnique(data, i, j);
      }
      if data[i].country in coords then Position(coords[data[i].country], 4) else current
  }

  /** `resetView`: back to the centre of the map at zoom 1, whatever the current view. */
  function ResetView(current: Position): (p: Position)
    ensures p.center == (0, 0) && p.zoom == 1
  {
    DefaultPosition
  }

  /** The tooltip's count: `countryVisits[name] || 0`. */
  function HoverVisits(m: map<string, nat>, name: string): (n: nat)
    ensures name in m ==> n == m[name]
    ensures name !in m ==> n == 0
  {
    if name in m then m[name] else 0
  }

  /** The value the map colours a country by: `countryVisits[name]`, absent when no row names it. */
  function Lookup(m: map<string, nat>, name: string): (v: Option<nat>)
    ensures v.Some? <==> name in m
    ensures v.Some? ==> v.value == m[name]
  {
    if name in m then Some(m[name]) else None
  }

  /** A country is drawn in the no-visit colour exactly when its tooltip shows 0 visits. */
  lemma NoVisitColorIffZero(m: map<string, nat>, name: string)
    ensures GetColor(Lookup(m, name)) == NoVisitColor <==> HoverVisits(m, name) == 0
  {
  }

  /**
   * On the geography page the map focuses the country the "Top Country"
   * card names: the breakdown is ranked, so its first row is the reference
   * top country.
   */
  lemma FocusesTopCountryCard(rows: seq<PageView>, prev: seq<CountryData>, coords: map<string, (int, int)>, current: Position)
    requires |rows| > 0
    ensures
      var r := Geography.CountryBreakdown(Fetched(rows), prev);
      var name := Geography.TopCountry(r);
      && (name in coords ==> FocusTop(r, coords, current) == Position(coords[name], 4))
      && (name !in coords ==> FocusTop(r, coords, current) == current)
  {
    var r := Geography.CountryBreakdown(Fetched(rows), prev);
    Geography.TopCountryIsBusiest(rows, prev);
    assert FirstMaxAt(r, 0) by {
      forall j | 0 <= j < |r| ensures r[j].visits <= r[0].visits {
        assert r[j] in r;
      }
    }
  }
}

=== FILE: wrappers.dfy ===
/** Optional values: the model's rendering of TypeScript's `T | null`. */
module Wrappers {

  datatype Option<+T> = None | Some(value: T) {

    /** The wrapped value, or `default` when there is none (`x ?? default`). */
    function GetOr(default: T): T {
      match this
      case Some(v) => v
      case None => default
    }
  }

  /** JavaScript truthiness of an optional string: `null` and `""` are both falsy. */
  predicate Truthy(s: Option<string>) {
    s.Some? && s.value != ""
  }

  /** `s || null` on an optional string: an empty string becomes `null`. */
  function OrNull(s: Option<string>): (r: Option<string>)
    ensures r.Some? <==> Truthy(s)
    ensures r.Some? ==> r == s
  {
    if Truthy(s) then s else None
  }

  /** `s || fallback` on an optional string. */
  function OrElse(s: Option<string>, fallback: string): (r: string)
    ensures Truthy(s) ==> r == s.value
    ensures !Truthy(s) ==> r == fallback
  {
    if Truthy(s) then s.value else fallback
  }
}
